=== FILE: README.md ===
# Bootloader upgrade path, modelled in Dafny

This project models the upgrade path of a Zephyr-based STM32 serial bootloader. The path runs as follows:

- A host sends framed requests over UART (`0xAA, opcode, length LE16, payload, CRC-16 LE16`).
- The bootloader collects them byte by byte and dispatches them to handlers for QUERY, INQUIRY, ERASE, PROGRAM, VERIFY, READ, RESET and BOOT. Every answer is a framed response.
- The handlers route absolute addresses either to the external NOR download slot or to the internal arg_info partition.
- BOOT rebuilds the new image, either from a differential (HPatchLite) package or from a full package. It copies the image into the internal application partition, checks its CRC-32 and records it in a 16-byte arg_info record.
- At start of day the bootloader checks the internal image against that record. When the check fails, it restores the image from the active-backup slot.

## Modules

| Module | Models | Form |
|---|---|---|
| `Arith` | the `uint32_t` wrap-around, `&` and `~` the source applies | functions, lemmas |
| `Bitos` | the `get_`/`put_` helpers, their `_inc` variants and `get_bytes`/`put_bytes(_inc)` | functions, and methods over `array<Byte>` |
| `Crc` | CRC-16 (ITU-T V.41, polynomial 0x1021, MSB first) and CRC-32 (IEEE 802.3), defined bit by bit, with their chunking laws | functions, lemmas |
| `Storage` | the Zephyr flash map: partitions as byte sequences (erase gives 0xFF, write overwrites), bounds-checked access, and the two raw NOR devices | class `Flash` |
| `MetaDesc` | the `meta_desc_info_t` layout, the state codes, `OFFSET_OF`, and `meta_desc_init` | datatype, functions, lemmas |
| `FlashArea` | the arg-info record, `get_device_flash_info`, and `bl_flash_read`/`erase`/`program` | functions, and methods with loops |
| `Chunks` | the chunked CRC and copy loops shared by the flash code | methods with loop invariants |
| `NorFlash` | the download-slot erase, program and verify; the meta commit; the slot-to-internal copy; the backup staging and recovery; the partition pointer | methods, lemmas |
| `HPatchLite` | the patch context and its callbacks, the flush, `start_firmware_patch`, the copy and verify loops, `ota_update_task` | class `PatchCtx`, methods |
| `Receiver` | `bl_received_handler` and `bl_pkt_reset` | a `Step` function and a class `Packet` that performs it in place |
| `Boot` | `bl_response`, the opcode handlers, `bl_pkt_handler`, the firmware check, `boot_main` and `sys_init_thread` | class `Bootloader`, methods |

Outside influences on the model:

- Heap exhaustion: every `k_malloc` is modelled by a count `allocs` of requests the heap still satisfies.
- The flash driver's page report is a parameter.
- The patch library is a `Producer` value. It records what `hpatch_lite_open` reads and reports, and which blocks `hpatch_lite_patch` hands to the write callback.
- A jump to the application or a system reset becomes a returned `Outcome`.

## Model

| member | source | states |
|---|---|---|
| Arith.Wrap32 | bootloader/src/app/boot.c:297 | an unsigned 32-bit result that does not overflow is the mathematical one |
| Arith.Not32 | bootloader/src/flash/norflash.c:265 | `~x` on `uint32_t` and x add up to 0xFFFFFFFF; what `&` with it does is stated by `Arith.AndMask` and `Arith.AndComplement` |
| Arith.AndMask | bootloader/src/flash/norflash.c:265 | `v & ~(2^k - 1)` within n bits is v rounded down to a multiple of 2^k |
| Arith.AndComplement | bootloader/src/flash/norflash.c:265 | a value and its complement within n bits share no set bit, so `(s - 1) & ~(s - 1)` is 0 |
| Bitos.Encode | bootloader/src/app/bitos.h:19-22 | a scalar is stored as exactly `sizeof` bytes (little-endian, two's complement for signed kinds) |
| Bitos.Width | bootloader/src/app/bitos.h:31-44 | the integer kinds the helpers are declared for occupy 1, 2 or 4 bytes |
| Bitos.Decode | bootloader/src/app/bitos.h:7-10 | a load of `sizeof` bytes yields a value in the kind's range |
| Bitos.DecodeEncode | bootloader/src/app/bitos.h:7-10 | `get_X` of what `put_X` stored is the value, for u8, u16, u32, i8, i16 and i32 |
| Bitos.EncodeDecode | bootloader/src/app/bitos.h:19-22 | storing what was loaded gives back the same bytes, so the encoding is a bijection |
| Bitos.LERoundTrip | bootloader/src/app/bitos.h:21 | little-endian bytes of a value below 256^w are w bytes that read back as the value |
| Bitos.FromLERoundTrip | bootloader/src/app/bitos.h:9 | every byte string is the little-endian form of the number it denotes |
| Bitos.FromLEBound | bootloader/src/app/bitos.h:9 | w bytes denote a number below 256^w |
| Bitos.WordRoundTrip | bootloader/src/app/bitos.h:19-22 | `Word` is the u32 store, and it loads back as the value |
| Bitos.Store | bootloader/src/app/bitos.h:57-60 | a copy into a buffer places the bytes at p and changes nothing outside `[p, p+n)` |
| Bitos.Get | bootloader/src/app/bitos.h:7-10 | a load is the value whose encoding is the bytes at p |
| Bitos.GetInc | bootloader/src/app/bitos.h:12-17 | `get_X_inc` advances the cursor by `sizeof X`, and the value it yields is the one whose encoding fills the bytes it stepped over |
| Bitos.GetAfterPut | bootloader/src/app/bitos.h:7-10 | a load at the position of a store returns the stored value |
| Bitos.GetAfterDisjointPut | bootloader/src/app/bitos.h:19-22 | a store does not change loads from positions that do not overlap it |
| Bitos.Put | bootloader/src/app/bitos.h:19-22 | `put_X` changes only `[p, p+sizeof X)` of the buffer, which then holds the value |
| Bitos.PutInc | bootloader/src/app/bitos.h:24-29 | `put_X_inc` stores at the old cursor and advances it by `sizeof X` |
| Bitos.PutWordInc | bootloader/src/app/bitos.h:24-29 | `put_u32_inc` stores the word at the cursor and advances it by 4 |
| Bitos.PutBytes | bootloader/src/app/bitos.h:57-60 | `put_bytes` copies exactly the source bytes to p and leaves the rest of the buffer |
| Bitos.PutBytesInc | bootloader/src/app/bitos.h:62-66 | `put_bytes_inc` copies exactly size bytes and advances the cursor by size |
| Bitos.GetBytes | bootloader/src/app/bitos.h:46-49 | `get_bytes` fills the first size bytes of the destination from the source at p, and leaves the rest |
| Bitos.GetBytesInc | bootloader/src/app/bitos.h:51-55 | `get_bytes_inc` copies size bytes and advances the source cursor by size |
| Bitos.StoreConsecutive | bootloader/src/app/bitos.h:24-29 | two `_inc` stores in a row equal one store of the concatenation |
| Bitos.FourStores | bootloader/src/flash/flash_area.c:104-107 | four 4-byte stores into a 16-byte buffer leave their concatenation |
| Bitos.WordsInWords | bootloader/src/flash/meta_desc.h:14-31 | cutting a byte string of words back into words returns the words |
| Bitos.WordsWordsIn | bootloader/src/flash/meta_desc.h:14-31 | re-encoding the words read from bytes returns the bytes |
| Bitos.WordsAppend | bootloader/src/flash/meta_desc.h:14-31 | the encoding of concatenated word lists is the concatenation of the encodings |
| Bitos.WordsSlice | bootloader/src/flash/meta_desc.h:14-31 | word i of a word list lies at bytes `[4i, 4i+4)` |
| Bitos.Words | bootloader/src/flash/meta_desc.h:14-31 | n consecutive `uint32_t` fields occupy 4n bytes |
| Bitos.WordsIn | bootloader/src/flash/meta_desc.h:14-31 | a byte run of whole words holds a quarter as many words |
| Crc.Crc16Append | bootloader/src/app/boot.c:139 | CRC-16 with a seed is a fold: the CRC over a+b equals the CRC over b seeded with the CRC over a |
| Crc.Crc16BitsAppend | bootloader/src/app/boot.c:510 | the bitwise CRC-16 register update over a+b is the update over a, then b |
| Crc.Crc16Zeros | bootloader/src/flash/meta_desc.c:20 | with seed 0, the CRC-16 of any run of zero bytes is 0 |
| Crc.Crc16BitsZeros | bootloader/src/flash/meta_desc.c:20 | the CRC-16 register started at 0 stays 0 over zero bytes |
| Crc.Crc32UpdateAppend | bootloader/src/flash/norflash.c:241-248 | chunked `crc32_ieee_update` calls equal one update over the concatenation |
| Crc.Crc32BitsAppend | bootloader/src/flash/norflash.c:136-142 | the raw CRC-32 register fold over a+b is the fold over a, then b |
| Crc.Crc32RegisterAppend | bootloader/src/flash/norflash.c:381 | folding b after an update over a is folding a+b from the seed |
| Crc.Crc32Empty | bootloader/src/flash/norflash.c:133-142 | the CRC-32 of no bytes is 0, which a zero-size loop leaves in place |
| Storage.Erased | bootloader/src/flash/norflash.c:338 | an erased range of n bytes is n bytes of 0xFF |
| Storage.Flash.ReadInto | bootloader/src/flash/flash_area.c:177 | `flash_area_read` succeeds exactly when the range lies in the partition; it then copies those bytes, and otherwise returns -EINVAL and leaves the buffer |
| Storage.Flash.Erase | bootloader/src/flash/flash_area.c:226 | `flash_area_erase` succeeds exactly for an in-partition range, sets it to 0xFF and changes no other partition; otherwise nothing changes |
| Storage.Flash.Write | bootloader/src/flash/flash_area.c:285 | `flash_area_write` succeeds exactly for an in-partition range, overwrites it and changes no other partition; otherwise nothing changes |
| Storage.Flash.DeviceErase | bootloader/src/flash/norflash.c:88 | a raw `flash_erase` on a NOR device erases the range when it fits, and nothing otherwise |
| Storage.Flash.DeviceWrite | bootloader/src/flash/norflash.c:96 | a raw `flash_write` on a NOR device overwrites the range when it fits, and nothing otherwise |
| Storage.Flash.constructor | bootloader/src/flash/norflash.c:33-36 | the flash starts with the given partitions and the two NOR devices |
| MetaDesc.StateOf | bootloader/src/flash/meta_desc.h:6-12 | a stored code names a state exactly when it is one of NONE=0, NEW=0x11, STABLE=0x12, BAD=0x13 |
| MetaDesc.StateCodeRoundTrip | bootloader/src/flash/meta_desc.h:6-12 | every state's code decodes back to the state |
| MetaDesc.Index | bootloader/src/flash/meta_desc.h:14-31 | each field has its declaration position, below the field count |
| MetaDesc.Offsets | bootloader/src/flash/meta_desc.h:33-34 | `OFFSET_OF` gives 0, 4, 8, 12, 16, 24, … 48 in declaration order (`download_len` at 36, `struct_ccrc` last at 48); every field ends within the 52-byte record |
| MetaDesc.OffsetFormula | bootloader/src/flash/meta_desc.h:33-34 | a field's offset is the sum of the preceding widths, with the 8-byte version as the fifth field |
| MetaDesc.FieldAt | bootloader/src/flash/meta_desc.h:14-31 | in the stored record, each field's bytes lie at its `OFFSET_OF` |
| MetaDesc.FieldBytes | bootloader/src/flash/meta_desc.h:14-31 | each field is stored in exactly its declared width |
| MetaDesc.WordAt | bootloader/src/flash/meta_desc.h:33-34 | a u32 load at a word field's offset gives that field; this is how `norflash.c` reads `download_len` |
| MetaDesc.EncodeMeta | bootloader/src/flash/meta_desc.h:14-31 | a record is stored in exactly 52 bytes |
| MetaDesc.DecodeEncodeMeta | bootloader/src/flash/meta_desc.h:14-31 | a stored record reads back as itself |
| MetaDesc.EncodeDecodeMeta | bootloader/src/flash/meta_desc.h:14-31 | 52 bytes that read as a record are exactly that record's bytes |
| MetaDesc.DecodedWords | bootloader/src/flash/meta_desc.h:14-31 | a decoded record's words and version come from their positions in the bytes |
| MetaDesc.CStringOfTerminated | bootloader/src/flash/meta_desc.c:12 | a NUL-free text followed by NUL reads back as that text |
| MetaDesc.StrCpy | bootloader/src/flash/meta_desc.c:12 | `strcpy` of a text shorter than 8 bytes leaves that text as the field's C string and keeps the bytes after its NUL |
| MetaDesc.Ascii | bootloader/src/app/boot.c:19 | a text literal becomes its character codes, one byte each |
| MetaDesc.MetaDescInit | bootloader/src/flash/meta_desc.c:5-22 | magic is 0x1A2B3C4D; the state is NONE; address, size, CRC, fail count, sequence number, `download_len`, `target_crc` and `is_program` are 0; the version reads "NULL"; `struct_ccrc` is below 2^16 |
| MetaDesc.InitSealHolds | bootloader/src/flash/meta_desc.c:20-21 | for any covered prefix that ends before `struct_ccrc`, the stored seal is the CRC-16 of that prefix of the initialised record |
| MetaDesc.PrefixIgnoresCcrc | bootloader/src/flash/meta_desc.c:20 | changing `struct_ccrc` does not change the bytes its CRC covers |
| FlashArea.DecodeArgInfo | bootloader/src/flash/flash_area.c:24-77 | the arg-info record is found exactly when 16 bytes can be read and the first word is 0x1A2B3C4D; its fields are the words at 4, 8 and 12 |
| FlashArea.ArgRecordRoundTrip | bootloader/src/flash/flash_area.c:95-109 | a record written as four words reads back as itself, whatever follows it |
| FlashArea.FourWords | bootloader/src/flash/flash_area.c:37-71 | the first 16 bytes are the four words read at 0, 4, 8 and 12 |
| FlashArea.DiffInfoReadBack | bootloader/src/flash/flash_area.c:95-109 | after `bl_diff_info_copy`, `bl_flash_get_arginfo` yields the application's absolute base, fwsize and fwcrc |
| FlashArea.DiffInfoCopy | bootloader/src/flash/flash_area.c:79-121 | succeeds exactly when both partitions open and the record fits; then arg_info holds the record followed by 0xFF; when a partition does not open nothing changes; when the record does not fit arg_info is left erased |
| FlashArea.PackArgInfo | bootloader/src/flash/flash_area.c:102-107 | four `put_u32_inc` calls fill the 16-byte buffer with magic, address, size and CRC, and leave the cursor at 16 |
| FlashArea.ArgRecordAfterErase | bootloader/src/flash/flash_area.c:95-109 | a record written over an erased partition is followed by 0xFF bytes |
| FlashArea.GetDeviceFlashInfo | bootloader/src/flash/flash_area.c:123-157 | when all three partitions open, each base is `flash_base + fa_off` and each size is `fa_size`; if any open fails, the record is untouched |
| FlashArea.FlashRead | bootloader/src/flash/flash_area.c:159-184 | inside the application partition, the buffer's first size bytes become the partition's bytes at `address - base`; nothing after them is touched; a range past the partition's end leaves the buffer unchanged |
| FlashArea.ReadRound | bootloader/src/flash/flash_area.c:174-181 | each round of the read loop keeps the loop's progress predicate |
| FlashArea.ReadCompletes | bootloader/src/flash/flash_area.c:177 | re-reading the tail of a range that is already complete keeps it complete |
| FlashArea.RouteExact | bootloader/src/flash/flash_area.c:207-224 | when nothing wraps, the 32-bit range test accepts exactly the ranges inside the chosen partition |
| FlashArea.RouteAdmitsWrappedRange | bootloader/src/flash/flash_area.c:215 | a size whose end wraps (0xFFFFFFFF bytes at app_base+1) passes the 32-bit test, and the flash layer then refuses it |
| FlashArea.RouteAdmitsEmpty | bootloader/src/flash/flash_area.c:274 | size 0 passes the test, since `address + 0 - 1` wraps down |
| FlashArea.FlashErase | bootloader/src/flash/flash_area.c:186-243 | returns 0 exactly when the range passes the test and the flash layer; then only the routed partition is erased at `address - start`; -1 otherwise, with no change |
| FlashArea.FlashProgram | bootloader/src/flash/flash_area.c:245-302 | returns 0 exactly when the range passes the test and the flash layer; then only the routed partition is written at `address - start`; -1 otherwise, with no change |
| Chunks.AreaCrc | bootloader/src/flash/norflash.c:133-142 | the block-by-block CRC-32 loop over `[start, start+size)` equals the one-shot CRC-32 of that range |
| Chunks.CrcRound | bootloader/src/flash/norflash.c:377-384 | one round of the CRC loop extends the checksummed prefix by the chunk read |
| Chunks.CrcExtend | bootloader/src/flash/norflash.c:381 | appending the next chunk's update gives the CRC of the longer range |
| Chunks.CrcDone | bootloader/src/flash/norflash.c:384 | when nothing remains, the register is the CRC of the whole range |
| Chunks.CopyArea | bootloader/src/flash/norflash.c:527-535 | the block copy loop leaves dst's first size bytes equal to src's, and changes no other partition |
| Chunks.CopyChunk | bootloader/src/flash/norflash.c:530-532 | a read and write of one chunk copies that chunk at the same offset |
| Chunks.CopyRound | bootloader/src/flash/norflash.c:528-535 | each round extends the copied prefix |
| Chunks.PrefixCrc | bootloader/src/app/hpatchlite.c:325-330 | the chunked CRC over the first size bytes equals the one-shot CRC |
| Chunks.EraseWhole | bootloader/src/flash/norflash.c:525 | `flash_area_erase(fa, 0, fa_size)` sets the whole partition to 0xFF and nothing else |
| Chunks.ErasedThenStored | bootloader/src/flash/norflash.c:525-535 | data written at the start of an erased partition is followed by 0xFF |
| Chunks.FillFrom | bootloader/src/flash/norflash.c:525-535 | erase the whole of dst, then copy size bytes from src to its start |
| Chunks.FilledChecks | bootloader/src/app/hpatchlite.c:351-354 | a filled partition has the source's CRC-32 over the copied size |
| NorFlash.StoredWord | bootloader/src/flash/norflash.c:204-205 | the word read at a field's offset of a stored record is that field |
| NorFlash.ReadWord | bootloader/src/flash/norflash.c:205 | a 4-byte read succeeds exactly in bounds and returns the stored word |
| NorFlash.ReadDesc | bootloader/src/flash/norflash.c:414-426 | the 1024-byte descriptor read yields `firmware_addr` and `firmware_size` at their offsets when the meta partition holds 1024 bytes |
| NorFlash.PointerWritten | bootloader/src/flash/norflash.c:81-106 | after a set, the device's first word is the pointer, the rest of its first 64 KiB is erased, and the rest of the device is unchanged |
| NorFlash.SetPartitionPointer | bootloader/src/flash/norflash.c:81-106 | writes `flashes[0]` only; a device smaller than 64 KiB is left as it was |
| NorFlash.ReadPointer | bootloader/src/flash/norflash.c:62-79 | a 4-byte read at offset 0 gives the u32 those bytes encode; a failed read gives 0 |
| NorFlash.GetPartitionPointerAsWritten | bootloader/src/flash/norflash.c:62-79 | the getter as written returns the u32 stored at the start of `flashes[1]` |
| NorFlash.GetPartitionPointer | bootloader/src/flash/norflash.c:62-79 | the corrected getter returns the u32 stored at the start of `flashes[0]`, the device the setter writes |
| NorFlash.AlignUp | bootloader/src/flash/norflash.c:265 | `(write_len + sector_size - 1) & ~(sector_size - 1)` in 32 bits never exceeds the wrapped sum it masks |
| NorFlash.PointerRoundTrip | bootloader/src/flash/norflash.c:62-106 | reading the device the setter writes returns the pointer just set |
| NorFlash.PointerMismatch | bootloader/src/flash/norflash.c:69 | as written, a set leaves what the getter reads unchanged; with `flashes[1]` erased it reads 0xFFFFFFFF |
| NorFlash.AlignUpLeast | bootloader/src/flash/norflash.c:265 | for a power-of-two sector size and no wrap, `aligned_start` is the least multiple of the sector size that is at least `write_len` |
| NorFlash.RoundDown | bootloader/src/flash/norflash.c:265 | masking with `~(s-1)` rounds down to a multiple of s, by less than s |
| NorFlash.AlignUpZero | bootloader/src/flash/norflash.c:265 | `write_len` 0 aligns to 0 |
| NorFlash.EraseFrom | bootloader/src/flash/norflash.c:267-291 | bytes below the aligned start are kept; those from it to the slot end are erased |
| NorFlash.EraseKeepsWritten | bootloader/src/flash/norflash.c:263-291 | the resumable erase keeps the written bytes `[0, write_len)` and erases everything from the next sector; `write_len` 0 erases the whole slot |
| NorFlash.EraseDownloadSlot | bootloader/src/flash/norflash.c:188-297 | returns -ENOENT/-EINVAL when the meta record cannot be opened or read; -1 without erasing when `download_len` exceeds the slot; -ENOMEM when the CRC buffer is not granted; otherwise 0, with exactly `[aligned_start, fa_size)` erased |
| NorFlash.EraseBeyond | bootloader/src/flash/norflash.c:221-291 | the part after the `download_len` read, with the same outcomes |
| NorFlash.EraseTail | bootloader/src/flash/norflash.c:267-291 | erasing from the aligned start always reports 0, and erases nothing when the start is at or past the end |
| NorFlash.SlotOffset | bootloader/src/flash/norflash.c:313 | the slot offset is `address - 0x08010000`; below that base it wraps past any partition |
| NorFlash.ProgramDownloadSlot | bootloader/src/flash/norflash.c:299-325 | returns 0 exactly when the slot opens and the data fits at the offset, and the slot then holds it; otherwise -ENOENT/-EINVAL with no change |
| NorFlash.ProgramBelowBaseRefused | bootloader/src/flash/norflash.c:313-317 | an address below the application base is refused by the flash layer |
| NorFlash.ProgramMetaSlot | bootloader/src/flash/norflash.c:327-349 | the whole meta region is erased and the record written at 0; the result is the write's code alone |
| NorFlash.MetaStored | bootloader/src/flash/norflash.c:338-342 | the meta partition after the commit has its old size |
| NorFlash.MetaSlotReadBack | bootloader/src/flash/norflash.c:204-205 | a committed record reads back, and its `download_len` is where the slot erase loads it |
| NorFlash.DownloadSlotVerify | bootloader/src/flash/norflash.c:351-390 | returns 1 when the slot cannot be opened or no buffer is granted; otherwise, for a range inside the slot, the CRC-32 of slot bytes `[addr-0x08010000, +size)` |
| NorFlash.ProgramThenVerify | bootloader/src/flash/norflash.c:299-390 | verifying what was just programmed gives the CRC-32 of that data |
| NorFlash.Restored | bootloader/src/flash/norflash.c:158-176 | a restored application starts with the image and keeps the rest |
| NorFlash.RestoredChecks | bootloader/src/flash/norflash.c:144-176 | a restored application carries the CRC the backup was checked against |
| NorFlash.VerifyExternalFirmware | bootloader/src/flash/norflash.c:108-186 | false with no change when there is no buffer, no record or no backup, or when the backup CRC differs; false never changes anything; any other result means the backup matched the record and the application was restored over fwsize bytes, and such a result comes whenever the buffer, record and both partitions are there and the backup's fwsize bytes fit the application and carry the recorded CRC; the result is `ZeroDivision` exactly when fwsize is 0 |
| NorFlash.RecoverApp | bootloader/src/flash/norflash.c:152-176 | the erase and copy of the recovery: fails with no change when the image does not fit the application |
| NorFlash.StoreTwice | bootloader/src/flash/norflash.c:169 | writing over a block just written at the same place keeps only the second |
| NorFlash.LandsInApp | bootloader/src/flash/flash_area.c:207-224 | a range inside the application partition passes both range tests and lands at its offset from the base |
| NorFlash.DownloadSlotToIntflash | bootloader/src/flash/norflash.c:392-458 | -1 exactly when a partition does not open or a buffer is not granted, otherwise 0 whatever the erase and program results; only internal partitions change; an image that fits the application lands at `firmware_addr` |
| NorFlash.ProgramImage | bootloader/src/flash/norflash.c:440-450 | the erase and copy loop install the image when it fits the application |
| NorFlash.EraseImage | bootloader/src/flash/norflash.c:440 | the loop's starting state after `bl_flash_erase` |
| NorFlash.EraseThenNothing | bootloader/src/flash/norflash.c:440-442 | after the erase, before any chunk, the programmed prefix is empty |
| NorFlash.ProgramChunk | bootloader/src/flash/norflash.c:445-447 | one chunk read from the slot and programmed at `firmware_addr + offset` |
| NorFlash.ProgramInternal | bootloader/src/flash/flash_area.c:245-302 | `bl_flash_program` changes at most an internal partition |
| NorFlash.ProgramRound | bootloader/src/flash/norflash.c:443-450 | each round of the loop extends the programmed prefix |
| NorFlash.ProgramRoundApp | bootloader/src/flash/norflash.c:443-450 | the application partition's side of a round |
| NorFlash.ProgramDone | bootloader/src/flash/norflash.c:450-457 | at loop end the erased range holds the whole image |
| NorFlash.SelectSlotToActiveBackup | bootloader/src/flash/norflash.c:460-547 | -ENOENT exactly when a partition does not open; -EINVAL exactly when arg_info is too short for the DIFF size; a buffer failure returns 0 with no change; when staged, the backup holds the first size bytes of the download slot (FULL, `firmware_size`) or of diff_fw (DIFF, arg_info offset 8) |
| HPatchLite.PatchCtx.constructor | bootloader/src/app/hpatchlite.c:173-175 | the zeroed context: offsets and fill 0, a 256-byte buffer |
| HPatchLite.PatchCtx.Take | bootloader/src/app/hpatchlite.c:86-89 | the `memcpy` into the buffer raises the fill by n and appends exactly those bytes to the stream |
| HPatchLite.PatchCtx.WriteBlock | bootloader/src/app/hpatchlite.c:92-99 | a full buffer is programmed at the write offset; the offset advances by 256 and the fill returns to 0; a refused write changes nothing |
| HPatchLite.PatchCtx.WriteNew | bootloader/src/app/hpatchlite.c:77-102 | on success the stream grows by exactly the data, in order, and the programmed part of diff_fw is the stream's head in whole buffers; it fails only when diff_fw is too small |
| HPatchLite.PatchCtx.CopyRound | bootloader/src/app/hpatchlite.c:82-99 | one loop round consumes a nonempty part of the data, in order |
| HPatchLite.PatchCtx.Flush | bootloader/src/app/hpatchlite.c:141-154 | with an empty buffer nothing changes (a second flush is a no-op); otherwise the padded buffer is written and the offset advances by the fill only, ending at the stream's length; a failed write returns -EIO with no change |
| HPatchLite.PatchCtx.Pad | bootloader/src/app/hpatchlite.c:144 | the free part of the buffer becomes 0xFF and the filled part is kept |
| HPatchLite.PatchCtx.Settled | bootloader/src/app/hpatchlite.c:150-151 | after a flush, the context again describes the stream in order |
| HPatchLite.PatchCtx.CbReadDiff | bootloader/src/app/hpatchlite.c:42-51 | a zero-length request succeeds and changes nothing; a successful read copies the bytes at the read offset and advances it by the length; a failed read reports 0 bytes and keeps the offset |
| HPatchLite.BufferLands | bootloader/src/app/hpatchlite.c:144-150 | the padded last buffer, written after the whole buffers, leaves the stream followed by 0xFF |
| HPatchLite.PaddedOf | bootloader/src/app/hpatchlite.c:141-154 | whole buffers plus a partial one take one extra buffer of diff_fw |
| HPatchLite.PaddedCovers | bootloader/src/app/hpatchlite.c:141-154 | the padded length is never less than the stream |
| HPatchLite.FlattenPrefix | bootloader/src/app/hpatchlite.c:255 | a prefix of the delivered blocks is no longer than all of them |
| HPatchLite.Feed | bootloader/src/app/hpatchlite.c:255 | the write callbacks for the library's blocks deliver exactly their concatenation in order, unless diff_fw is too small |
| HPatchLite.FeedBlock | bootloader/src/app/hpatchlite.c:77-102 | one block's callback extends the delivered prefix |
| HPatchLite.RunPatch | bootloader/src/app/hpatchlite.c:238-267 | diff_fw is erased first; too few buffers gives -ENOMEM; otherwise 0 exactly when the library succeeds and the padded image fits, and diff_fw then holds the image followed by 0xFF; -EIO otherwise |
| HPatchLite.Finish | bootloader/src/app/hpatchlite.c:256-263 | the final flush succeeds exactly when the image, in whole buffers, fits |
| HPatchLite.FlushFits | bootloader/src/app/hpatchlite.c:141-154 | the flush's write fits exactly when the padded length fits |
| HPatchLite.StartFirmwarePatch | bootloader/src/app/hpatchlite.c:156-279 | a non-"DOTA" header returns FULL before anything is erased; open failures give -ENOMEM/-ENODEV/-EFTYPE/-EIO as `Prepare` orders them; only on 0 are size (the low 32 bits of the library's size) and the header's `new_crc` written, with diff_fw holding the image |
| HPatchLite.OpenPatch | bootloader/src/app/hpatchlite.c:185-199 | reads the 64-byte header; the patch stream starts right after it |
| HPatchLite.OpenTuz | bootloader/src/app/hpatchlite.c:204-231 | the tinyuz branch skips 4 more bytes; allocation, skip and open failures give -ENOMEM/-EIO in order |
| HPatchLite.FlashCopyToInternal | bootloader/src/app/hpatchlite.c:281-314 | the application is erased; -ENOMEM when the buffer is not granted; otherwise it holds the first n bytes of diff_fw followed by 0xFF |
| HPatchLite.VerifyInternalFirmware | bootloader/src/app/hpatchlite.c:316-339 | returns 0 exactly when the CRC-32 of the application's first fw_size bytes equals crc, and -EFAULT otherwise |
| HPatchLite.OtaUpdateTask | bootloader/src/app/hpatchlite.c:341-367 | patch, copy, verify and record, in that order, stopping at the first nonzero result with arg_info untouched: a header that stops the patch gives `Prepare`'s code with nothing changed; after a "DOTA" header it lets through, the result is -ENOMEM without the patch buffers, -EIO when the patch or its flush fails, -ENOMEM without the copy buffer, and otherwise 0 or -EFAULT, -EFAULT exactly when the copied image's CRC-32 differs from the header's; never the full-package flag then; 0 means the image is installed and verified, and recorded when arg_info can hold it (a failed record still returns 0) |
| HPatchLite.UpdateDone | bootloader/src/app/hpatchlite.c:348-366 | the four steps' effects compose into an installed, checked and recorded image |
| HPatchLite.FrameDone | bootloader/src/app/hpatchlite.c:348-359 | each step keeps to its partition, so together they keep the others |
| HPatchLite.Recorded | bootloader/src/app/hpatchlite.c:359 | a written record names the application base, the new size and the CRC |
| HPatchLite.ArgStep | bootloader/src/flash/flash_area.c:79-121 | `bl_diff_info_copy` changes arg_info alone |
| HPatchLite.Installed | bootloader/src/app/hpatchlite.c:351-357 | the application holds the rebuilt image, whose CRC matches the header |
| Receiver.Le16IsBitos | bootloader/src/app/boot.c:487 | the LE16 decode of the length is `get_u16` |
| Receiver.Le16RoundTrip | bootloader/src/app/boot.c:137 | a stored u16 loads back as itself |
| Receiver.Check | bootloader/src/app/boot.c:505-520 | below index len+6 the packet is kept and nothing reported; at len+6 a request is reported exactly when the LE16 at `data[len+4]` equals the CRC-16 of `data[0..len+4)`, and a mismatch resets the packet |
| Receiver.StepMismatchResets | bootloader/src/app/boot.c:498-520 | a byte in DATA or VERIFY that completes the frame with a CRC that does not match resets the packet and reports nothing |
| Receiver.Step | bootloader/src/app/boot.c:460-528 | true only in VERIFY, on the byte that makes index == len+6, with a matching CRC |
| Receiver.StepKeepsGood | bootloader/src/app/boot.c:460-528 | every byte received while no request is pending keeps the packet invariant (IDLE index 0 or 1; header fields decoded at index 4; length within the limit) |
| Receiver.IndexBelowLimit | bootloader/src/app/boot.c:488-507 | while no request is pending, the write index stays below limit+6 |
| Receiver.CorrectedStaysInBuffer | bootloader/src/app/boot.c:462-494 | with limit 5106, every write `data[index++]` is inside the 5112-byte buffer (declared at line 59) |
| Receiver.FeedOverrun | bootloader/src/app/boot.c:462-494 | under a limit that admits a frame longer than the 5112-byte buffer, feeding the rest of such a frame from any point of it reaches a byte to be stored at index 5112 |
| Receiver.AsWrittenOverruns | bootloader/src/app/boot.c:462-494 | with limit 5108, feeding a request with a 5108-byte payload from the reset state reaches a write past the 5112-byte buffer |
| Receiver.AsWrittenOversizeEndsInVerify | bootloader/src/app/boot.c:488-494 | as written, an oversized length resets the packet and then moves it to VERIFY |
| Receiver.CorrectedOversizeEndsIdle | bootloader/src/app/boot.c:488-494 | corrected, an oversized length leaves the receiver reset and IDLE |
| Receiver.Request | bootloader/src/app/boot.c:460-528 | a client request frame has length+6 bytes |
| Receiver.Feed | bootloader/src/app/boot.c:460-528 | feeding bytes yields one result per byte |
| Receiver.StepHeader | bootloader/src/app/boot.c:465-496 | each of the first four frame bytes is taken in and reports nothing |
| Receiver.StepBody | bootloader/src/app/boot.c:498-519 | a payload byte or the first CRC byte is stored and reports nothing (DATA falls through to VERIFY) |
| Receiver.StepLast | bootloader/src/app/boot.c:505-517 | the last byte of a well-formed frame completes the request with its opcode, length and bytes |
| Receiver.FeedRest | bootloader/src/app/boot.c:460-528 | from any point of a well-formed frame, the remaining bytes report nothing until the last one |
| Receiver.FeedNext | bootloader/src/app/boot.c:465-496 | the header case of FeedRest |
| Receiver.FeedPayload | bootloader/src/app/boot.c:498-519 | the payload case of FeedRest |
| Receiver.LastOnly | bootloader/src/app/boot.c:517-527 | n false results followed by one true |
| Receiver.FeedLast | bootloader/src/app/boot.c:517 | a completing byte with nothing after it |
| Receiver.FeedMore | bootloader/src/app/boot.c:527 | a silent byte in front of a completing run |
| Receiver.RequestWellFormed | bootloader/src/app/boot.c:505-510 | a client frame carries its length and a matching CRC-16, and its payload at offset 4 |
| Receiver.RequestAccepted | bootloader/src/app/boot.c:460-528 | from the reset state, a client frame is accepted on its last byte only, with the opcode, length and payload where the handlers read them |
| Receiver.ClearedFramed | bootloader/src/app/boot.c:450-458 | the reset packet satisfies the receiver invariant and the framing invariant |
| Receiver.StepKeepsFramed | bootloader/src/app/boot.c:460-528 | corrected, every byte keeps the framing invariant: past IDLE `data[0]` is 0xAA, past START the opcode is `data[1]`, past OPCODE the length is the LE16 at `data[2]` |
| Receiver.CompletionIsWellFormed | bootloader/src/app/boot.c:460-528 | corrected, a byte reported as completing a request leaves a well-formed frame in the buffer: start byte, opcode, length, payload and matching CRC-16 |
| Receiver.AsWrittenAcceptsNonFrame | bootloader/src/app/boot.c:488-494 | as written, the ten bytes `AA 20 FF FF 00 00 00 00 00 00` are reported as a request on the last byte, with opcode 0xFF, length 0 and no start byte in the buffer |
| Receiver.ZerosVerify | bootloader/src/app/boot.c:498-519 | as written, six zeros fed to the reset packet moved to VERIFY report only on the sixth byte, since the CRC-16 of four zeros is 0 |
| Receiver.CorrectedRefusesNonFrame | bootloader/src/app/boot.c:488-494 | corrected, the same ten bytes report nothing and leave the receiver reset |
| Receiver.IdleZeros | bootloader/src/app/boot.c:465-472 | corrected, an idle receiver fed any number of zero bytes stays reset and reports nothing |
| Receiver.Packet.constructor | bootloader/src/app/boot.c:104 | the zero-initialised static packet |
| Receiver.Packet.Reset | bootloader/src/app/boot.c:450-458 | IDLE, opcode 0xFF, length, index and CRC 0, and data zeroed |
| Receiver.Packet.Receive | bootloader/src/app/boot.c:460-528 | the in-place handler performs `Step` on the packet |
| Receiver.Packet.CheckFrame | bootloader/src/app/boot.c:505-520 | the in-place VERIFY case performs `Check` |
| Boot.ResponseRoundTrip | bootloader/src/app/boot.c:129-143 | the response is len+7 bytes; its CRC-16 over the first len+5 bytes sits at len+5; the frame parses back as the response |
| Boot.ParsedIsFrame | bootloader/src/app/boot.c:129-143 | whatever parses as a response is exactly that response's frame |
| Boot.Le16OfAt | bootloader/src/app/boot.c:137 | two bytes are the LE16 form of the value they hold |
| Boot.MtuAnswer | bootloader/src/app/boot.c:17-18 | the advertised transfer size is 4104 = 4096+8, sent as bytes 0x08, 0x10 |
| Boot.U32AtIsGet | bootloader/src/app/boot.c:79-97 | the request structs' u32 fields are `get_u32` loads |
| Boot.WithinExact | bootloader/src/app/boot.c:262-263 | without wrap-around, the handlers' range test is exact containment |
| Boot.WithinAdmitsWrappedRange | bootloader/src/app/boot.c:262-263 | a range whose end wraps past 2^32 passes the 32-bit test |
| Boot.RoutedAvoidsBoot | bootloader/src/app/boot.c:254-289 | on a disjoint layout, a nonempty range routed to app or arg misses the boot span |
| Boot.VerifyArgAsWrittenAdmitsAnyEnd | bootloader/src/app/boot.c:384-385 | as written, VERIFY's arg branch takes address 0xF0000000 although the range is far outside arg_info |
| Boot.VerifyArgCorrected | bootloader/src/app/boot.c:384-385 | the intended test is containment, and it implies the as-written one whenever the span is nonempty |
| Boot.ProgramLengthWraps | bootloader/src/app/boot.c:297 | as written in 32-bit arithmetic, length 4 with size 0xFFFFFFFC passes the length check |
| Boot.ProgramLengthBounds | bootloader/src/app/boot.c:297 | the intended check agrees with the 32-bit one when the sum does not wrap, and keeps the data inside the packet |
| Boot.Peek | bootloader/src/app/boot.c:387 | a raw memory read of the internal flash gives size bytes; an empty range gives none |
| Boot.PeekIn | bootloader/src/app/boot.c:554 | a read inside one partition gives size bytes |
| Boot.Bootloader.constructor | bootloader/src/app/boot.c:99-105 | the zero-initialised statics: a zero descriptor, a zero layout, nothing sent |
| Boot.Bootloader.Respond | bootloader/src/app/boot.c:129-143 | exactly one frame `0xAA, opcode, err, len, payload, CRC` is sent |
| Boot.Bootloader.RespondAck | bootloader/src/app/boot.c:145-148 | an OK response with no payload is sent |
| Boot.Append | bootloader/src/app/boot.c:134-140 | each `put_*_inc` appends its bytes at the cursor |
| Boot.Bootloader.Query | bootloader/src/app/boot.c:150-183 | OK with the board name exactly when the length is 8 and both expected addresses match; otherwise an UNKNOWN answer |
| Boot.Bootloader.Inquiry | bootloader/src/app/boot.c:185-205 | subcode 0 answers "v1.0.1", subcode 1 answers the u16 4104, and any other subcode sends nothing |
| Boot.Bootloader.Erase | bootloader/src/app/boot.c:243-290 | a wrong length or a start in the boot span gets UNKNOWN with no change; an app range records address, size and version and erases the slot past `download_len`; an arg range is erased in place; otherwise nothing |
| Boot.Bootloader.EraseApp | bootloader/src/app/boot.c:262-277 | the descriptor is updated before the slot erase; ACK on success, UNKNOWN otherwise |
| Boot.Bootloader.EraseArg | bootloader/src/app/boot.c:279-289 | `bl_flash_erase` answered with ACK or UNKNOWN |
| Boot.Bootloader.Program | bootloader/src/app/boot.c:292-349 | the length must be 8+size (corrected, see Findings); a start in boot gets UNKNOWN; app ranges go to the download slot, arg ranges to internal flash; otherwise nothing |
| Boot.Bootloader.ProgramApp | bootloader/src/app/boot.c:312-335 | `download_len` += size (32-bit), state NEW and `is_program` 1 are set before the slot write, so they stay changed when it fails; the meta commit follows a successful write; ACK only when both succeed |
| Boot.Bootloader.ProgramArg | bootloader/src/app/boot.c:337-348 | `bl_flash_program` answered with ACK or UNKNOWN |
| Boot.Bootloader.Verify | bootloader/src/app/boot.c:351-397 | a wrong length sends nothing; an app range compares the slot CRC and, on a match, zeroes `download_len`, commits and ACKs; otherwise the arg branch (corrected test) compares the raw CRC |
| Boot.Bootloader.VerifyApp | bootloader/src/app/boot.c:361-383 | a mismatch sends nothing; a match zeroes `download_len` and ACKs only when the commit succeeds |
| Boot.Bootloader.Boot | bootloader/src/app/boot.c:214-241 | ACK first; the check is `ota_update_task`'s result (the header's code after a failed patch, the patch, copy or verify code after a "DOTA" header, arg_info untouched on any failure); 0 means the image was patched, copied, verified and recorded and is then staged as the active backup; FULL copies the download slot into the application range the descriptor names and stages it, or stays with nothing more changed when that copy cannot start; any other result jumps with no further change; it never resets |
| Boot.FullOnlyWithoutDota | bootloader/src/app/boot.c:221-232 | BOOT copies the download slot into internal flash only when the download slot's header is not "DOTA"; a diff package whose patch, copy or verify failed jumps without that copy |
| Boot.Bootloader.PktHandler | bootloader/src/app/boot.c:399-448 | true exactly for the eight opcodes; RESET exactly gives a system reset; only BOOT may jump; READ, RESET and unknown opcodes change nothing; QUERY, INQUIRY, ERASE, PROGRAM, VERIFY and BOOT each have exactly the effect of their handler |
| Boot.ProgramThenVerifyAcks | bootloader/src/app/boot.c:312-383 | a chunk PROGRAM wrote to the download slot passes a VERIFY of the same range with its own CRC-32: both are acknowledged, `download_len` is cleared and the slot keeps the chunk |
| Boot.Bootloader.BootMain | bootloader/src/app/boot.c:581-592 | the layout is loaded; the bootloader stays exactly when trapped or the button was pressed, and otherwise jumps |
| Boot.Bootloader.SysInit | bootloader/src/app/boot.c:594-602 | a valid internal image jumps without change unless the button is pressed; without the button, a recoverable backup also leads to a jump; a jump after a failed check means the backup was restored; staying without the button changes nothing |
| Boot.SlotCheck | bootloader/src/app/boot.c:365 | the CRC VERIFY compares is the slot's CRC-32 whenever that is defined |
| Boot.EraseDownload | bootloader/src/app/boot.c:270 | the slot erase succeeds exactly when the slot is erasable, and then erases past `download_len` |
| Boot.VerifyInternal | bootloader/src/app/boot.c:546-568 | true exactly when the arg-info record is valid and the CRC-32 of the internal bytes it names matches |
| Boot.VerifyFirmware | bootloader/src/app/boot.c:570-579 | the internal check first (no change when it passes); otherwise the backup recovery, true exactly when it restored the image: a failed internal check with a recoverable backup gives true, and false changes nothing |
| Boot.UpdatedIsInternalValid | bootloader/src/app/boot.c:546-568 | a successful update whose image fits and whose record has room leaves an internal image that the start-of-day check accepts |

## Left out

- Floating-point helpers: the `float`/`double` `get_`/`put_` variants of `bitos.h` are floating point and are not modelled.
- Device-level failures: a flash read, erase or write fails only when its range leaves the partition (-EINVAL) or the partition is absent. Device-level -EIO on an in-bounds request is not modelled.
- Mutexes: `k_mutex_lock`/`unlock` around the flash operations are taken as making each operation atomic. The mutex left locked on early returns of `flash_device_init` is concurrency and is not modelled. `norflash_init`/`flash_device_init` are not modelled either.
- Thread glue: `work_queue.c` (threads, message queue, semaphore) is concurrency. Its "handle, then `bl_pkt_reset`" loop is taken as the caller's contract. `Receiver.Packet.Receive` therefore requires the index to be inside the buffer. `Boot.Bootloader.PktHandler` requires only a 5112-byte packet buffer whose length leaves room for the 4 header bytes, plus the meta partition.
- `FlashArea.FlashRead`: for an address below the application base, `address - base` wraps, and the contract says nothing about the buffer's first size bytes when that offset plus size exceeds 2^32. The code then refuses the first round and, with the offset wrapped past zero, reads the application's first bytes into the later part of the buffer; that case is not stated.
- `Boot.Bootloader.Program` and `Boot.Bootloader.Verify` implement the corrected length test and the corrected arg-range test of the Findings table, not the code as written. Where they differ, the model refuses: PROGRAM answers UNKNOWN where the code's wrapped length passes and it goes on with a size far beyond the packet, and VERIFY answers nothing at address 0xF0000000 with size 0 and crc 0, which the code ACKs. The as-written tests are `Boot.ProgramLengthWraps` and `Boot.VerifyArgAsWrittenAdmitsAnyEnd`.
- Platform control transfer: `goto_app_main` (MSP/PSP set and jump), `NVIC_SystemReset`, and `boot_main`'s semaphore wait are returned as `Outcome` values. The button press is a parameter.
- Hardware wrappers: `bl_uart.c`, `bl_button.c` and `bl_led.c`, `bl_print_log`, and every `LOG_*` call are left out. `bl_upgrade_packet_send` is the `sent` log of frames.
- Host tooling: `update.py` is not part of this model.
- Patch library: the HPatchLite library (`hpatch_lite_open`, `hpatch_lite_patch`), the tinyuz decoder and `cb_read_old`/`cb_read_old_tuz` are not part of this model. What they report and write is the `Producer` parameter.
- `cb_write_new_tuz`: it has the same body as `cb_write_new` apart from how it finds the context, so both are `HPatchLite.PatchCtx.WriteNew`.
- Package flags: `FULL_PACKAGE_FLAG` and `DIFF_PACKAGE_FLAG` come from `hpatchlite.h`, which is not part of this model. They are taken as 1 and 0.
- Heap: `k_malloc` is a count of requests the heap still satisfies.
- Uninitialised memory: the header read into an uninitialised struct when the download slot is shorter than 64 bytes is left unconstrained.
- Raw memory CRCs: the CRC over raw memory (`crc32_ieee` on an absolute address, in VERIFY's arg branch and in the internal firmware check) reads the internal partitions. `Boot.Peek` gives the bytes only for a range inside one partition. Other addresses (across partitions or outside flash) give no value, and the check then fails.
- Descriptor: `meta_desc` in `boot.c` is a zero-initialised static that no function loads from flash. The model starts it at zero and never loads it.
- CRC-16 prefix length: the byte count `&meta->is_program - meta` in `meta_desc_init` is not a well-defined byte count. `MetaDesc.MetaDescInit` takes the covered prefix length as a parameter, and `MetaDesc.InitSealHolds` holds for every prefix that ends before `struct_ccrc`.
- `NorFlash.DownloadSlotVerify`: an open or allocation failure returns 1, which cannot be told apart from a CRC of 1. The contract states the CRC only when the slot opened and a buffer was granted.
- `Boot.Bootloader.Boot` follows `bl_boot_handler`: it jumps to the application even when `ota_update_task` failed or the backup staging failed.
- Boot span check: ERASE and PROGRAM check only the start address against the boot span, as the code does. A range that starts below the boot span and runs into it is not refused there, and it is not sent to either branch unless it lies in app or arg.
- `NorFlash.ProgramMetaSlot`, `Boot.Bootloader.Program`, `Boot.Bootloader.Verify` and `Boot.Bootloader.PktHandler` require the meta partition to exist, because the source uses the partition after an open whose failure it only logs (norflash.c lines 334-336).
- Flash geometry: erase is modelled per byte and a write overwrites what was there. Real NOR and internal flash erase whole pages or sectors (which is why `download_slot_erase` rounds its start up to a sector at norflash.c line 265) and programming can only clear bits of erased bytes. The model does not capture a write to bytes that were not erased, or an erase that reaches bytes outside the requested range within the same sector.
- `FlashArea.DiffInfoCopy`: the `k_malloc(16)` for the record (flash_area.c line 102) is not checked in the source, and the model treats it as granted. The buffer is not freed on the success path (flash_area.c lines 117-120), a leak the model does not track.
- `BL_ERR_OVERFLOW` is declared but no handler sends it.
- Unused state: `FWPSN` is never entered, and no handler reads the `crc` field of the packet.
- `FlashArea.FlashRead` follows the code. Every round reads the whole remaining count at the current offset into the current buffer position, so each read ends exactly where the request ends. The range is re-read up to `size / 4096` times, but nothing past the caller's range is read or written. The model proves this rather than an overrun.
- Division by zero: `fwsize == 0` in `bl_verify_external_norflash_firmware` reaches the division at norflash.c line 173. `NorFlash.VerifyExternalFirmware` reports it as `ZeroDivision`. Through `bl_verify_firmware` it is not reached, because an empty internal image passes the internal check first, and `Boot.VerifyFirmware` proves that.

## Findings

| source | as written | input that shows it | evidently intended | confidence | as-written member | corrected member |
|---|---|---|---|---|---|---|
| bootloader/src/app/boot.c:462-494 | the length guard admits up to `sizeof data - 4` = 5108, but a complete frame stores length+6 bytes in the 5112-byte buffer (declared at line 59) | a frame announcing length 5108 reaches index 5112 before completing, so the next `data[index++]` writes one past the buffer | a limit of 5106 (`sizeof data - 6`) | high, not executed | Receiver.AsWrittenOverruns | Receiver.CorrectedStaysInBuffer |
| bootloader/src/app/boot.c:488-494 | after `bl_pkt_reset` for an oversized length, the `length == 0` test runs on the reset length | header bytes announcing a length above the limit leave the receiver in VERIFY with index 0 instead of IDLE | the reset ends the step in IDLE | high, not executed | Receiver.AsWrittenOversizeEndsInVerify | Receiver.CorrectedOversizeEndsIdle |
| bootloader/src/app/boot.c:488-494 | the packet left in VERIFY by an oversized header completes as soon as six more bytes end with the CRC-16 of the first four | `AA 20 FF FF` followed by six zeros is reported as a request with opcode 0xFF and no start byte in the buffer | only a well-formed frame is reported | high, not executed | Receiver.AsWrittenAcceptsNonFrame | Receiver.CompletionIsWellFormed |
| bootloader/src/flash/norflash.c:62-106 | `set_norflash_partition_pointer` writes `flashes[0]` but `get_norflash_partition_pointer` reads `flashes[1]` | any pointer set reads back as whatever `flashes[1]` holds (0xFFFFFFFF when erased) | the getter reads the device the setter writes | medium, not executed | NorFlash.PointerMismatch | NorFlash.PointerRoundTrip |
| bootloader/src/app/boot.c:297 | `sizeof(bl_program_info_t) + program->size` is computed in 32-bit `size_t` and wraps | length 4 with size 0xFFFFFFFC passes the check, and the handler then uses a size far beyond the packet | the payload length equals 8+size in unbounded arithmetic | high, not executed | Boot.ProgramLengthWraps | Boot.ProgramLengthBounds |
| bootloader/src/app/boot.c:384-385 | the second conjunct of VERIFY's arg branch is the constant `arg_base + arg_size`, with no `address + size <=` | address 0xF0000000 with arg_info at 0x0800C000 (16 KiB) is checked as an arg range | `address + size <= arg_base + arg_size`, as in ERASE and PROGRAM | high, not executed | Boot.VerifyArgAsWrittenAdmitsAnyEnd | Boot.VerifyArgCorrected |

=== FILE: arith.dfy ===
/** Machine words of the target (32-bit ARM Cortex-M) and the C operators the
    bootloader applies to them: unsigned wrap-around, `&` and `~`. Dafny's
    integers are unbounded, so every `uint32_t` expression of the source that
    can leave the range is written with `Wrap32`. */
module Arith {

  type Byte = x: int | 0 <= x < 0x100
  type U16 = x: int | 0 <= x < 0x1_0000
  type U32 = x: int | 0 <= x < 0x1_0000_0000

  const WORD: nat := 0x1_0000_0000

  /** Reduction of an integer result to `uint32_t`, as C does for unsigned arithmetic. */
  function Wrap32(x: int): (r: U32)
    ensures 0 <= x < WORD ==> r == x
  {
    x % WORD
  }

  /** `~x` on `uint32_t`. */
  function Not32(x: U32): (r: U32)
    ensures r + x == 0xFFFF_FFFF
  {
    0xFFFF_FFFF - x
  }

  function Pow2(n: nat): (r: nat)
    ensures r > 0
  {
    if n == 0 then 1 else 2 * Pow2(n - 1)
  }

  lemma {:induction false} Pow2Mono(k: nat, n: nat)
    requires k <= n
    ensures Pow2(k) <= Pow2(n)
    decreases n
  {
    if k < n { Pow2Mono(k, n - 1); }
  }

  lemma Pow2Of32()
    ensures Pow2(32) == WORD
  {
    assert Pow2(8) == 0x100;
    assert Pow2(16) == 0x1_0000;
    assert Pow2(24) == 0x100_0000;
  }

  /** Bitwise `&` of two non-negative integers, bit by bit from the least significant. */
  function BitAnd(a: nat, b: nat): (r: nat)
    decreases a
  {
    if a == 0 || b == 0 then 0
    else 2 * BitAnd(a / 2, b / 2) + (if a % 2 == 1 && b % 2 == 1 then 1 else 0)
  }

  lemma {:induction false} BitAndBound(a: nat, b: nat)
    ensures BitAnd(a, b) <= a
    decreases a
  {
    if a != 0 && b != 0 { BitAndBound(a / 2, b / 2); }
  }

  /** `&` with all-ones below bit n keeps a number that fits in n bits. */
  lemma {:induction false} AndOnes(v: nat, n: nat)
    requires v < Pow2(n)
    ensures BitAnd(v, Pow2(n) - 1) == v
    decreases n
  {
    if v != 0 { AndOnes(v / 2, n - 1); }
  }

  lemma MulNonneg(a: int, b: int)
    requires a >= 0 && b >= 0
    ensures a * b >= 0
  {}

  lemma MulDistSub(a: int, b: int, d: int)
    ensures a * d - b * d == (a - b) * d
  {}

  lemma MulAssoc2(x: int, p: int)
    ensures 2 * (x * p) == x * (2 * p)
  {}

  /** Quotient and remainder are determined by `x == q * d + r` with `0 <= r < d`. */
  lemma DivUnique(x: int, d: int, q: int, r: int)
    requires d > 0 && 0 <= r < d && x == q * d + r
    ensures x / d == q && x % d == r
  {
    var q', r' := x / d, x % d;
    MulDistSub(q', q, d);
    if q' > q { MulNonneg(q' - q - 1, d); MulDistSub(q' - q, 1, d); }
    if q' < q { MulNonneg(q - q' - 1, d); MulDistSub(q - q', 1, d); MulDistSub(q, q', d); }
  }

  lemma DivHalf(v: nat, k: nat)
    requires k > 0
    ensures (v / 2) / Pow2(k - 1) == v / Pow2(k)
  {
    var P := Pow2(k - 1);
    var q, r := v / (2 * P), v % (2 * P);
    assert v == 2 * (q * P + r / 2) + r % 2;
    DivUnique(v, 2, q * P + r / 2, r % 2);
    DivUnique(v / 2, P, q, r / 2);
  }

  /** Masking with `~(2^k - 1)` (as an n-bit word) rounds down to a multiple of 2^k. */
  lemma {:induction false} AndMask(v: nat, n: nat, k: nat)
    requires k <= n && v < Pow2(n)
    ensures Pow2(k) <= Pow2(n)
    ensures BitAnd(v, Pow2(n) - Pow2(k)) == v / Pow2(k) * Pow2(k)
    decreases k, 1
  {
    Pow2Mono(k, n);
    if k == 0 {
      AndOnes(v, n);
      DivMulOne(v, Pow2(k));
    } else if v == 0 {
      DivMulOne(v, Pow2(k));
    } else {
      AndMaskStep(v, n, k);
    }
  }

  /** Rounding down to a multiple of 1, or rounding 0, changes nothing. */
  lemma DivMulOne(v: nat, p: nat)
    requires p > 0 && (p == 1 || v == 0)
    ensures v / p * p == v
  {}

  lemma {:induction false} AndMaskStep(v: nat, n: nat, k: nat)
    requires 0 < k <= n && 0 < v < Pow2(n)
    ensures Pow2(k) <= Pow2(n)
    ensures BitAnd(v, Pow2(n) - Pow2(k)) == v / Pow2(k) * Pow2(k)
    decreases k, 0
  {
    Pow2Mono(k, n);
    var b := Pow2(n) - Pow2(k);
    assert b / 2 == Pow2(n - 1) - Pow2(k - 1) && b % 2 == 0;
    AndMask(v / 2, n - 1, k - 1);
    BitAndEven(v, b);
    RoundDownHalf(v, k, BitAnd(v / 2, b / 2));
  }

  /** `&` with an even number clears bit 0 and works on the halves. */
  lemma BitAndEven(v: nat, b: nat)
    requires b % 2 == 0
    ensures BitAnd(v, b) == 2 * BitAnd(v / 2, b / 2)
  {}

  /** Doubling v / 2 rounded down to a multiple of 2^(k-1) rounds v down to a multiple of 2^k. */
  lemma RoundDownHalf(v: nat, k: nat, h: int)
    requires k > 0 && h == (v / 2) / Pow2(k - 1) * Pow2(k - 1)
    ensures 2 * h == v / Pow2(k) * Pow2(k)
  {
    var P := Pow2(k - 1);
    DivHalf(v, k);
    var q := v / Pow2(k);
    assert h == q * P;
    MulAssoc2(q, P);
  }

  /** A number and its complement within n bits share no set bit. */
  lemma {:induction false} AndComplement(a: nat, n: nat)
    requires a < Pow2(n)
    ensures BitAnd(a, Pow2(n) - 1 - a) == 0
    decreases n
  {
    if a != 0 && Pow2(n) - 1 - a != 0 {
      var b := Pow2(n) - 1 - a;
      assert n > 0;
      assert b / 2 == Pow2(n - 1) - 1 - a / 2 && (a % 2 == 1 ==> b % 2 == 0);
      AndComplement(a / 2, n - 1);
    }
  }
}

=== FILE: bitos.dfy ===
/** The byte-cursor helpers of `bitos.h`: scalar loads and stores at a byte
    position of a buffer, the `_inc` variants that also advance the cursor,
    and the byte-block copies. The target is little-endian, so a scalar is
    stored as its little-endian bytes, and a signed scalar as its two's
    complement. A cursor is a byte index into the buffer. */
module Bitos {
  import opened Arith

  /** The integer types the helpers are instantiated for (the floating-point
      ones are not part of this model). */
  datatype Scalar = Uint8 | Uint16 | Uint32 | Int8 | Int16 | Int32

  function Width(k: Scalar): (w: nat)
    ensures w == 1 || w == 2 || w == 4
  {
    match k
    case Uint8 | Int8 => 1
    case Uint16 | Int16 => 2
    case Uint32 | Int32 => 4
  }

  predicate Signed(k: Scalar)
  {
    k.Int8? || k.Int16? || k.Int32?
  }

  function Pow256(w: nat): (r: nat)
    ensures r > 0
  {
    if w == 0 then 1 else 256 * Pow256(w - 1)
  }

  lemma Pow256Widths()
    ensures Pow256(1) == 0x100 && Pow256(2) == 0x1_0000 && Pow256(4) == 0x1_0000_0000
  {
    assert Pow256(3) == 0x100_0000;
  }

  /** The values a scalar of kind k can hold. */
  predicate Fits(k: Scalar, v: int)
  {
    var m := Pow256(Width(k));
    if Signed(k) then -(m / 2) <= v < m / 2 else 0 <= v < m
  }

  /** Little-endian digits of v in base 256, w of them. */
  function LE(v: nat, w: nat): seq<Byte>
    decreases w
  {
    if w == 0 then [] else [v % 256] + LE(v / 256, w - 1)
  }

  /** The number whose little-endian digits are s. */
  function FromLE(s: seq<Byte>): nat
    decreases |s|
  {
    if s == [] then 0 else s[0] + 256 * FromLE(s[1..])
  }

  lemma {:induction false} FromLEBound(s: seq<Byte>)
    ensures FromLE(s) < Pow256(|s|)
    decreases |s|
  {
    if s != [] { FromLEBound(s[1..]); }
  }

  lemma {:induction false} LERoundTrip(v: nat, w: nat)
    requires v < Pow256(w)
    ensures |LE(v, w)| == w && FromLE(LE(v, w)) == v
    decreases w
  {
    if w > 0 {
      LERoundTrip(v / 256, w - 1);
      assert LE(v, w)[1..] == LE(v / 256, w - 1);
    }
  }

  lemma {:induction false} FromLERoundTrip(s: seq<Byte>)
    ensures LE(FromLE(s), |s|) == s
    decreases |s|
  {
    if s != [] { FromLERoundTrip(s[1..]); }
  }

  /** The bytes a store of v as a k writes. */
  function Encode(k: Scalar, v: int): (r: seq<Byte>)
    requires Fits(k, v)
    ensures |r| == Width(k)
  {
    var m := Pow256(Width(k));
    LERoundTrip(if v < 0 then v + m else v, Width(k));
    LE(if v < 0 then v + m else v, Width(k))
  }

  /** The value a load of a k reads from bytes s. */
  function Decode(k: Scalar, s: seq<Byte>): (r: int)
    requires |s| == Width(k)
    ensures Fits(k, r)
  {
    FromLEBound(s);
    var m := Pow256(Width(k));
    var u := FromLE(s);
    if Signed(k) && u >= m / 2 then u - m else u
  }

  lemma DecodeEncode(k: Scalar, v: int)
    requires Fits(k, v)
    ensures Decode(k, Encode(k, v)) == v
  {
    Pow256Widths();
    var m := Pow256(Width(k));
    LERoundTrip(if v < 0 then v + m else v, Width(k));
  }

  lemma EncodeDecode(k: Scalar, s: seq<Byte>)
    requires |s| == Width(k)
    ensures Encode(k, Decode(k, s)) == s
  {
    Pow256Widths();
    FromLEBound(s);
    FromLERoundTrip(s);
  }

  /** The four bytes of a `uint32_t` as the target stores it. */
  function Word(v: U32): (r: seq<Byte>)
    ensures |r| == 4
  {
    Pow256Widths();
    LERoundTrip(v, 4);
    LE(v, 4)
  }

  /** Word is the 32-bit store's encoding, so a 32-bit load reads it back. */
  lemma WordRoundTrip(v: U32)
    ensures Word(v) == Encode(Uint32, v)
    ensures Decode(Uint32, Word(v)) == v
  {
    Pow256Widths();
    DecodeEncode(Uint32, v);
  }

  lemma SliceOfAppend(a: seq<Byte>, b: seq<Byte>, i: nat, j: nat)
    requires i <= j <= |b|
    ensures (a + b)[|a| + i..|a| + j] == b[i..j]
  {}

  lemma SliceOfPrefix(a: seq<Byte>, b: seq<Byte>, i: nat, j: nat)
    requires i <= j <= |a|
    ensures (a + b)[i..j] == a[i..j]
  {}

  /** A run of `uint32_t` values as stored one after another. */
  function Words(ws: seq<U32>): (r: seq<Byte>)
    ensures |r| == 4 * |ws|
    decreases |ws|
  {
    if ws == [] then [] else Word(ws[0]) + Words(ws[1..])
  }

  /** The `uint32_t` values stored in b, four bytes each. */
  function WordsIn(b: seq<Byte>): (ws: seq<U32>)
    requires |b| % 4 == 0
    ensures 4 * |ws| == |b|
    decreases |b|
  {
    if b == [] then [] else
      Pow256Widths();
      FromLEBound(b[..4]);
      [FromLE(b[..4])] + WordsIn(b[4..])
  }

  lemma {:induction false} WordsAppend(a: seq<U32>, b: seq<U32>)
    ensures Words(a + b) == Words(a) + Words(b)
    decreases |a|
  {
    if a == [] {
      assert a + b == b;
    } else {
      assert (a + b)[1..] == a[1..] + b;
      WordsAppend(a[1..], b);
    }
  }


  /** Word i of a run sits at byte 4 * i. */
  lemma {:induction false} WordsSlice(ws: seq<U32>, i: nat)
    requires i < |ws|
    ensures Words(ws)[4 * i..4 * i + 4] == Word(ws[i])
    decreases i
  {
    var w := Word(ws[0]);
    var rest := Words(ws[1..]);
    assert Words(ws) == w + rest;
    if i == 0 {
      assert (w + rest)[..4] == w;
    } else {
      WordsSlice(ws[1..], i - 1);
      SliceOfAppend(w, rest, 4 * i - 4, 4 * i);
    }
  }

  lemma Words1(a: U32)
    ensures Words([a]) == Word(a)
  {
    assert [a][1..] == [];
  }

  lemma Words2(a: U32, b: U32)
    ensures Words([a, b]) == Word(a) + Word(b)
  {
    assert [a, b][1..] == [b];
    Words1(b);
  }

  lemma Words3(a: U32, b: U32, c: U32)
    ensures Words([a, b, c]) == Word(a) + (Word(b) + Word(c))
  {
    assert [a, b, c][1..] == [b, c];
    Words2(b, c);
  }

  /** A run of four words is their four encodings back to back. */
  lemma Words4(a: U32, b: U32, c: U32, d: U32)
    ensures Words([a, b, c, d]) == Word(a) + (Word(b) + (Word(c) + Word(d)))
  {
    assert [a, b, c, d][1..] == [b, c, d];
    Words3(b, c, d);
  }

  lemma {:induction false} WordsInWords(ws: seq<U32>)
    ensures WordsIn(Words(ws)) == ws
    decreases |ws|
  {
    if ws != [] {
      var b := Words(ws);
      assert b[..4] == Word(ws[0]) && b[4..] == Words(ws[1..]);
      WordRoundTrip(ws[0]);
      Pow256Widths();
      WordsInWords(ws[1..]);
    }
  }

  lemma {:induction false} WordsWordsIn(b: seq<Byte>)
    requires |b| % 4 == 0
    ensures Words(WordsIn(b)) == b
    decreases |b|
  {
    if b != [] {
      Pow256Widths();
      FromLEBound(b[..4]);
      FromLERoundTrip(b[..4]);
      WordsWordsIn(b[4..]);
      assert b == b[..4] + b[4..];
    }
  }

  /** s with the block b written at position p: what every store into a buffer does. */
  function Store(s: seq<Byte>, p: nat, b: seq<Byte>): (r: seq<Byte>)
    requires p + |b| <= |s|
    ensures |r| == |s|
    ensures r[p..p + |b|] == b
    ensures forall i :: 0 <= i < |s| && !(p <= i < p + |b|) ==> r[i] == s[i]
  {
    s[..p] + b + s[p + |b|..]
  }

  /** `get_X(ptr)`: the k stored at byte p of buf. */
  function Get(k: Scalar, buf: seq<Byte>, p: nat): (r: int)
    requires p + Width(k) <= |buf|
    ensures Fits(k, r)
    ensures Encode(k, r) == buf[p..p + Width(k)]
  {
    EncodeDecode(k, buf[p..p + Width(k)]);
    Decode(k, buf[p..p + Width(k)])
  }

  /** `get_X_inc(&ptr)`: the value whose encoding fills the buffer from the old
      cursor to the new one, which lies `sizeof X` further on. */
  function GetInc(k: Scalar, buf: seq<Byte>, p: nat): (r: (int, nat))
    requires p + Width(k) <= |buf|
    ensures r.1 == p + Width(k) <= |buf|
    ensures Fits(k, r.0) && Encode(k, r.0) == buf[p..r.1]
  {
    (Get(k, buf, p), p + Width(k))
  }

  /** A load after a store at the same position returns the stored value. */
  lemma GetAfterPut(k: Scalar, s: seq<Byte>, p: nat, v: int)
    requires Fits(k, v) && p + Width(k) <= |s|
    ensures Get(k, Store(s, p, Encode(k, v)), p) == v
  {
    DecodeEncode(k, v);
  }

  /** A store at a disjoint position leaves an earlier store readable. */
  lemma GetAfterDisjointPut(k: Scalar, j: Scalar, s: seq<Byte>, p: nat, q: nat, v: int)
    requires Fits(j, v) && p + Width(k) <= |s| && q + Width(j) <= |s|
    requires p + Width(k) <= q || q + Width(j) <= p
    ensures Get(k, Store(s, q, Encode(j, v)), p) == Get(k, s, p)
  {
    var t := Store(s, q, Encode(j, v));
    assert t[p..p + Width(k)] == s[p..p + Width(k)];
  }

  /** `put_X(ptr, value)`. */
  method Put(k: Scalar, buf: array<Byte>, p: nat, v: int)
    requires p + Width(k) <= buf.Length && Fits(k, v)
    modifies buf
    ensures buf[..] == Store(old(buf[..]), p, Encode(k, v))
  {
    var e := Encode(k, v);
    forall i | 0 <= i < |e| {
      buf[p + i] := e[i];
    }
    assert buf[..] == Store(old(buf[..]), p, e);
  }

  /** `put_X_inc(&ptr, value)`: stores at the old cursor and returns the advanced one. */
  method PutInc(k: Scalar, buf: array<Byte>, p: nat, v: int) returns (q: nat)
    requires p + Width(k) <= buf.Length && Fits(k, v)
    modifies buf
    ensures q == p + Width(k)
    ensures buf[..] == Store(old(buf[..]), p, Encode(k, v))
  {
    Put(k, buf, p, v);
    q := p + Width(k);
  }

  /** `put_u32_inc(&ptr, value)`, stated with the word's bytes. */
  method PutWordInc(buf: array<Byte>, p: nat, v: U32) returns (q: nat)
    requires p + 4 <= buf.Length
    modifies buf
    ensures q == p + 4
    ensures buf[..] == Store(old(buf[..]), p, Word(v))
  {
    WordRoundTrip(v);
    q := PutInc(Uint32, buf, p, v);
  }

  /** `put_bytes(ptr, buffer, size)`: the block src lands at p. */
  method PutBytes(buf: array<Byte>, p: nat, src: seq<Byte>)
    requires p + |src| <= buf.Length
    modifies buf
    ensures buf[..] == Store(old(buf[..]), p, src)
  {
    forall i | 0 <= i < |src| {
      buf[p + i] := src[i];
    }
    assert buf[..] == Store(old(buf[..]), p, src);
  }

  method PutBytesInc(buf: array<Byte>, p: nat, src: seq<Byte>) returns (q: nat)
    requires p + |src| <= buf.Length
    modifies buf
    ensures q == p + |src|
    ensures buf[..] == Store(old(buf[..]), p, src)
  {
    PutBytes(buf, p, src);
    q := p + |src|;
  }

  /** `get_bytes(ptr, buffer, size)`: the size bytes of src at p land at the start of dst. */
  method GetBytes(src: array<Byte>, p: nat, dst: array<Byte>, size: nat)
    requires p + size <= src.Length && size <= dst.Length
    modifies dst
    ensures dst[..] == Store(old(dst[..]), 0, old(src[p..p + size]))
  {
    ghost var block := src[p..p + size];
    forall i | 0 <= i < size {
      dst[i] := src[p + i];
    }
    assert dst[..] == Store(old(dst[..]), 0, block);
  }

  method GetBytesInc(src: array<Byte>, p: nat, dst: array<Byte>, size: nat) returns (q: nat)
    requires p + size <= src.Length && size <= dst.Length
    modifies dst
    ensures q == p + size
    ensures dst[..] == Store(old(dst[..]), 0, old(src[p..p + size]))
  {
    GetBytes(src, p, dst, size);
    q := p + size;
  }

  /** Two cursor stores in a row lay their encodings out back to back. */
  lemma {:induction false} StoreConsecutive(s: seq<Byte>, p: nat, a: seq<Byte>, b: seq<Byte>)
    requires p + |a| + |b| <= |s|
    ensures Store(Store(s, p, a), p + |a|, b) == Store(s, p, a + b)
  {
    assert Store(Store(s, p, a), p + |a|, b) == s[..p] + (a + b) + s[p + |a| + |b|..];
  }

  /** A store right after a known prefix replaces the start of what follows it. */
  lemma StoreAfter(pre: seq<Byte>, rest: seq<Byte>, e: seq<Byte>)
    requires |e| <= |rest|
    ensures Store(pre + rest, |pre|, e) == pre + (e + rest[|e|..])
  {
    var s := pre + rest;
    assert s[..|pre|] == pre;
    assert s[|pre| + |e|..] == rest[|e|..];
  }

  /** Four consecutive four-byte stores from the start fill a 16-byte buffer. */
  lemma FourStores(s0: seq<Byte>, e0: seq<Byte>, e1: seq<Byte>, e2: seq<Byte>, e3: seq<Byte>)
    requires |s0| == 16 && |e0| == 4 && |e1| == 4 && |e2| == 4 && |e3| == 4
    ensures Store(Store(Store(Store(s0, 0, e0), 4, e1), 8, e2), 12, e3) == e0 + (e1 + (e2 + e3))
  {
    StoreAfter([], s0, e0);
    assert [] + s0 == s0;
    var r1 := s0[4..];
    assert Store(s0, 0, e0) == e0 + r1;
    StoreAfter(e0, r1, e1);
    var r2 := r1[4..];
    StoreAfter(e0 + e1, r2, e2);
    assert e0 + (e1 + r2) == (e0 + e1) + r2;
    var r3 := r2[4..];
    StoreAfter(e0 + e1 + e2, r3, e3);
    assert (e0 + e1) + (e2 + r3) == (e0 + e1 + e2) + r3;
    assert r3[4..] == [];
    assert (e0 + e1 + e2) + (e3 + []) == e0 + (e1 + (e2 + e3));
  }
}

=== FILE: boot.dfy ===
/** The command dispatcher of the bootloader: the response frame, the handlers
    of the eight opcodes, the BOOT hand-over and the start-of-day decision
    (`boot.c`). The receiver state machine of the same file is in module
    Receiver. */
module Boot {
  import opened Arith
  import opened Wrappers
  import opened Bitos
  import opened Crc
  import opened Storage
  import opened Chunks
  import opened MetaDesc
  import opened FlashArea
  import opened NorFlash
  import opened HPatchLite
  import opened Receiver

  const MTU_SIZE: nat := 4096
  /** `BL_MAX_TRANSFER_MTUSIZE`: the MTU plus the 8 bytes of a PROGRAM header. */
  const MAX_TRANSFER_MTU: U16 := 4104
  /** The size of `response_buf`. */
  const RESPONSE_SIZE: nat := 4104

  const OPCODE_INQUIRY: Byte := 0x10
  const OPCODE_QUERY: Byte := 0x40
  const OPCODE_READ: Byte := 0x12
  const OPCODE_PROGRAM: Byte := 0x20
  const OPCODE_ERASE: Byte := 0x21
  const OPCODE_VERIFY: Byte := 0x22
  const OPCODE_RESET: Byte := 0x81
  const OPCODE_BOOT: Byte := 0x82

  const ERR_OK: Byte := 0
  const ERR_OVERFLOW: Byte := 1
  const ERR_UNKNOWN: Byte := 2

  /** `BL_BOOT_VERSION`, the text "v1.0.1". */
  const BOOT_VERSION: seq<Byte> := [0x76, 0x31, 0x2E, 0x30, 0x2E, 0x31]

  // ----- Response frames -----

  /** What one call of `bl_response` reports. */
  datatype Response = Response(err: Byte, opcode: Byte, payload: seq<Byte>)

  /** `bl_response_ack(opcode)`: success with no payload. */
  function Ack(opcode: Byte): Response
  {
    Response(ERR_OK, opcode, [])
  }

  /** A refusal with no payload. */
  function Nak(opcode: Byte): Response
  {
    Response(ERR_UNKNOWN, opcode, [])
  }

  /** The bytes `bl_response` sends: start byte, opcode, status, the payload
      length and the payload, then the CRC-16 of all of those. */
  function Frame(r: Response): seq<Byte>
    requires |r.payload| < 0x1_0000
  {
    var head := [START_BYTE, r.opcode, r.err] + Le16(|r.payload|) + r.payload;
    head + Le16(Crc16(0, head))
  }

  /** How the host reads a response frame back. */
  function ParseResponse(b: seq<Byte>): Option<Response>
  {
    if |b| < 7 || b[0] != START_BYTE then None
    else
      var len: nat := Le16At(b, 3);
      if |b| != len + 7 || Le16At(b, len + 5) != Crc16(0, b[..len + 5]) then None
      else Some(Response(b[2], b[1], b[5..len + 5]))
  }

  /** Every response frame is 7 bytes longer than its payload, with the
      CRC-16 of its first 5 + len bytes at the end, and parses back to the
      response it was built from. */
  lemma ResponseRoundTrip(r: Response)
    requires |r.payload| < 0x1_0000
    ensures |Frame(r)| == |r.payload| + 7
    ensures Le16At(Frame(r), |r.payload| + 5) == Crc16(0, Frame(r)[..|r.payload| + 5])
    ensures ParseResponse(Frame(r)) == Some(r)
  {
    var len := |r.payload|;
    var head := [START_BYTE, r.opcode, r.err] + Le16(len) + r.payload;
    var frame := Frame(r);
    assert frame[..len + 5] == head;
    Le16RoundTrip(len, [START_BYTE, r.opcode, r.err], r.payload + Le16(Crc16(0, head)));
    assert [START_BYTE, r.opcode, r.err] + Le16(len) + (r.payload + Le16(Crc16(0, head))) == frame;
    Le16RoundTrip(Crc16(0, head), head, []);
    assert head + Le16(Crc16(0, head)) + [] == frame;
    assert frame[5..len + 5] == r.payload;
  }

  /** Whatever parses as a response is exactly that response's frame. */
  lemma ParsedIsFrame(b: seq<Byte>, r: Response)
    requires ParseResponse(b) == Some(r)
    ensures |r.payload| < 0x1_0000 && Frame(r) == b
  {
    var len: nat := Le16At(b, 3);
    var head := [START_BYTE, r.opcode, r.err] + Le16(len) + r.payload;
    Le16OfAt(b, 3);
    assert b[..len + 5] == head;
    Le16OfAt(b, len + 5);
    assert b == b[..len + 5] + b[len + 5..];
  }

  /** The two bytes at p are the little-endian form of the `uint16_t` they hold. */
  lemma Le16OfAt(b: seq<Byte>, p: nat)
    requires p + 2 <= |b|
    ensures Le16(Le16At(b, p)) == b[p..p + 2]
  {
    var v := Le16At(b, p);
    DivUnique(v, 256, b[p + 1] as int, b[p] as int);
  }

  /** The INQUIRY answer for subcode 1 carries 4104, the largest request
      payload a host may send, 8 bytes more than the MTU. */
  lemma MtuAnswer()
    ensures MAX_TRANSFER_MTU == MTU_SIZE + 8
    ensures Le16(MAX_TRANSFER_MTU) == [0x08, 0x10]
    ensures Le16At(Le16(MAX_TRANSFER_MTU), 0) == MAX_TRANSFER_MTU
  {
    Le16RoundTrip(MAX_TRANSFER_MTU, [], []);
  }

  // ----- Address routing -----

  /** The `uint32_t` a handler reads at byte p of the packet: two
      little-endian halves, the low one first. */
  function U32At(b: seq<Byte>, p: nat): U32
    requires p + 4 <= |b|
  {
    Le16At(b, p) + 0x1_0000 * Le16At(b, p + 2)
  }

  /** U32At is `get_u32` of the byte helpers. */
  lemma U32AtIsGet(b: seq<Byte>, p: nat)
    requires p + 4 <= |b|
    ensures U32At(b, p) == Get(Uint32, b, p)
  {
    Pow256Widths();
    var s := b[p..p + 4];
    assert FromLE(s) == s[0] + 256 * FromLE(s[1..]);
    assert FromLE(s[1..]) == s[1] + 256 * FromLE(s[2..]);
    assert FromLE(s[2..]) == s[2] + 256 * FromLE(s[3..]);
    assert FromLE(s[3..]) == s[3] + 256 * FromLE(s[4..]);
  }

  /** The self-protection test of ERASE and PROGRAM: the start address lies in
      the boot span, its end computed in `uint32_t`. The size is not looked at. */
  predicate StartsInBoot(d: DeviceInfo, address: U32)
  {
    address >= d.bootBase && address < Wrap32(d.bootBase + d.bootSize)
  }

  /** The handlers' test that `[address, address + size)` lies in the span of
      span bytes at base; both end addresses are computed in `uint32_t`. */
  predicate Within(base: U32, span: U32, address: U32, size: U32)
  {
    address >= base && Wrap32(address + size) <= Wrap32(base + span)
  }

  /** When neither end address wraps, the test is exactly containment. */
  lemma WithinExact(base: U32, span: U32, address: U32, size: U32)
    requires base + span < WORD && address + size < WORD
    ensures Within(base, span, address, size) <==> base <= address && address + size <= base + span
  {
    assert Wrap32(base + span) == base + span;
    assert Wrap32(address + size) == address + size;
  }

  /** A range whose end passes 2^32 wraps to a small end address and passes
      the test although it runs past the application span. */
  lemma WithinAdmitsWrappedRange()
    ensures Within(0x0801_0000, 0x7_0000, 0xFFFF_FF00, 0x200)
    ensures 0xFFFF_FF00 + 0x200 > 0x0801_0000 + 0x7_0000
  {
    assert Wrap32(0xFFFF_FF00 + 0x200) == 0x100;
  }

  /** The three internal spans of a layout do not wrap and do not overlap. */
  predicate Disjoint(d: DeviceInfo)
  {
    d.bootBase + d.bootSize < WORD && d.argBase + d.argSize < WORD && d.appBase + d.appSize < WORD &&
    (d.bootBase + d.bootSize <= d.appBase || d.appBase + d.appSize <= d.bootBase) &&
    (d.bootBase + d.bootSize <= d.argBase || d.argBase + d.argSize <= d.bootBase)
  }

  /** On such a layout, a request ERASE or PROGRAM routes to the application
      or the arg span never touches a byte of the boot span. */
  lemma RoutedAvoidsBoot(d: DeviceInfo, address: U32, size: U32)
    requires Disjoint(d) && address + size < WORD && size > 0
    requires Within(d.appBase, d.appSize, address, size) || Within(d.argBase, d.argSize, address, size)
    ensures address + size <= d.bootBase || d.bootBase + d.bootSize <= address
  {
    WithinExact(d.appBase, d.appSize, address, size);
    WithinExact(d.argBase, d.argSize, address, size);
  }

  /** The arg-branch test of VERIFY as written: its second conjunct is the
      end of the arg span, which is true whenever it is not 0. */
  predicate VerifyArgAsWritten(d: DeviceInfo, address: U32)
  {
    address >= d.argBase && Wrap32(d.argBase + d.argSize) != 0
  }

  /** As written, the test sends any address at or above the arg base to the
      raw CRC, whatever the size and however far past the arg span. */
  lemma VerifyArgAsWrittenAdmitsAnyEnd(d: DeviceInfo, size: U32)
    requires d.argBase == 0x0800_C000 && d.argSize == 0x4000 && size < 0x1000_0000
    ensures VerifyArgAsWritten(d, 0xF000_0000)
    ensures !Within(d.argBase, d.argSize, 0xF000_0000, size)
  {}

  /** The test VERIFY evidently means, the one ERASE and PROGRAM use, is
      exactly containment in the arg span when nothing wraps, and it implies
      the as-written test whenever the span is not empty. */
  lemma VerifyArgCorrected(d: DeviceInfo, address: U32, size: U32)
    requires d.argBase + d.argSize < WORD && address + size < WORD
    ensures Within(d.argBase, d.argSize, address, size) <==>
            d.argBase <= address && address + size <= d.argBase + d.argSize
    ensures d.argSize > 0 && Within(d.argBase, d.argSize, address, size) ==> VerifyArgAsWritten(d, address)
  {
    WithinExact(d.argBase, d.argSize, address, size);
  }

  /** PROGRAM's length test as written: `sizeof(bl_program_info_t) + size`
      is a 32-bit `size_t`. */
  predicate ProgramLengthAsWritten(length: nat, size: U32)
  {
    length == Wrap32(8 + size)
  }

  /** PROGRAM's length test as meant: the payload is the 8-byte header and
      exactly size data bytes. */
  predicate ProgramLength(length: nat, size: U32)
  {
    length == 8 + size
  }

  /** As written, a 4-byte payload whose size field is 0xFFFF_FFFC passes the
      test, and the handler goes on with a size far beyond the packet. */
  lemma ProgramLengthWraps()
    ensures ProgramLengthAsWritten(4, 0xFFFF_FFFC)
    ensures !ProgramLength(4, 0xFFFF_FFFC)
    ensures 12 + 0xFFFF_FFFC > DATA_SIZE
  {}

  /** The two tests agree whenever the sum does not wrap, and the meant test
      keeps the data inside a packet whose payload fits the buffer. */
  lemma ProgramLengthBounds(length: nat, size: U32)
    requires length + 4 <= DATA_SIZE
    ensures ProgramLength(length, size) ==> ProgramLengthAsWritten(length, size) && 12 + size <= DATA_SIZE
    ensures 8 + size < WORD ==> (ProgramLength(length, size) <==> ProgramLengthAsWritten(length, size))
  {}

  // ----- What the handlers do to the partitions -----

  /** The internal partitions after `bl_flash_erase` or `bl_flash_program` of
      data at address: the target partition rewritten when the request lands,
      everything unchanged otherwise. */
  ghost predicate InternalWritten(a0: map<PartId, Area>, a1: map<PartId, Area>, flashBase: U32, address: U32, data: seq<Byte>)
    requires |data| < WORD
  {
    if Lands(flashBase, a0, address, |data|) then
      var t := Target(flashBase, a0[AppPart], address);
      var o := Route(flashBase, a0[AppPart], a0[ArgPart], address, |data|).value;
      a1 == a0[t := Area(a0[t].off, Store(a0[t].bytes, o, data))]
    else a1 == a0
  }

  /** Whether the stored `download_len` can be read. */
  ghost predicate SlotDescribed(areas: map<PartId, Area>)
  {
    MetaPart in areas && OffsetOf(DownloadLen) + 4 <= |areas[MetaPart].bytes| && DownloadPart in areas
  }

  /** `download_len` as the meta partition stores it. */
  ghost function StoredLength(areas: map<PartId, Area>): int
    requires SlotDescribed(areas)
  {
    Get(Uint32, areas[MetaPart].bytes, OffsetOf(DownloadLen))
  }

  /** Whether `nor_flash_erase_download_slot` succeeds: the stored length
      lies in the slot and, when there is something to keep, the buffer for
      its CRC is allocated. */
  ghost predicate SlotErasable(areas: map<PartId, Area>, allocs: nat)
  {
    SlotDescribed(areas) && StoredLength(areas) <= |areas[DownloadPart].bytes| &&
    (StoredLength(areas) == 0 || allocs > 0)
  }

  /** The download slot erased from the first sector boundary at or above the
      stored length, which keeps the bytes already downloaded. */
  ghost function SlotErased(areas: map<PartId, Area>, page: Option<U32>): map<PartId, Area>
    requires SlotDescribed(areas)
  {
    var dl := areas[DownloadPart];
    areas[DownloadPart := Area(dl.off, EraseFrom(dl.bytes, AlignUp(StoredLength(areas), SectorSize(page))))]
  }

  /** The descriptor after PROGRAM counts a chunk for the application. */
  function Counted(m: Meta, size: U32): Meta
  {
    m.(downloadLen := Wrap32(m.downloadLen + size), state := New, isProgram := 1)
  }

  /** What the application branch of PROGRAM does: the descriptor counts the
      chunk and marks a new image first; a refused slot write is answered
      UNKNOWN and leaves the flash as it was; otherwise the slot holds the data
      and the meta partition the new descriptor, and the chunk is acknowledged
      when the descriptor fits. */
  ghost predicate ProgrammedApp(s0: seq<seq<Byte>>, s1: seq<seq<Byte>>, m0: Meta, m1: Meta,
                                a0: map<PartId, Area>, a1: map<PartId, Area>, address: U32, data: seq<Byte>)
  {
    |data| < WORD && m1 == Counted(m0, |data|) && MetaPart in a0 &&
    if !(DownloadPart in a0 && InArea(|a0[DownloadPart].bytes|, SlotOffset(address), |data|)) then
      s1 == s0 + [Frame(Nak(OPCODE_PROGRAM))] && a1 == a0
    else
      var dl := a0[DownloadPart];
      a1 == a0[DownloadPart := Area(dl.off, Store(dl.bytes, SlotOffset(address), data))]
              [MetaPart := Area(a0[MetaPart].off, MetaStored(|a0[MetaPart].bytes|, m1))] &&
      s1 == (if META_SIZE <= |a0[MetaPart].bytes| then s0 + [Frame(Ack(OPCODE_PROGRAM))] else s0)
  }

  /** A request refused with UNKNOWN and no other effect. */
  ghost predicate Refused(opcode: Byte, s0: seq<seq<Byte>>, s1: seq<seq<Byte>>, m0: Meta, m1: Meta,
                          a0: map<PartId, Area>, a1: map<PartId, Area>)
  {
    s1 == s0 + [Frame(Nak(opcode))] && m1 == m0 && a1 == a0
  }

  /** A request with no answer and no effect. */
  ghost predicate Ignored(s0: seq<seq<Byte>>, s1: seq<seq<Byte>>, m0: Meta, m1: Meta,
                          a0: map<PartId, Area>, a1: map<PartId, Area>)
  {
    s1 == s0 && m1 == m0 && a1 == a0
  }

  /** What the application branch of ERASE does: the descriptor records the
      range and the version text; the download slot is erased past what it
      already holds and the erase acknowledged, or it is refused with UNKNOWN
      and nothing erased. */
  ghost predicate ErasedApp(s0: seq<seq<Byte>>, s1: seq<seq<Byte>>, m0: Meta, m1: Meta,
                            a0: map<PartId, Area>, a1: map<PartId, Area>, address: U32, size: U32, env: Env)
  {
    m1 == m0.(firmwareAddr := address, firmwareSize := size, version := StrCpy(m0.version, BOOT_VERSION)) &&
    if SlotErasable(a0, env.eraseAllocs) then
      s1 == s0 + [Frame(Ack(OPCODE_ERASE))] && a1 == SlotErased(a0, env.page)
    else
      s1 == s0 + [Frame(Nak(OPCODE_ERASE))] && a1 == a0
  }

  /** What the arg branch of ERASE (data all erased bytes) and PROGRAM does:
      internal flash written through `bl_flash_erase` or `bl_flash_program`,
      acknowledged when the request lands and refused with UNKNOWN otherwise. */
  ghost predicate WroteArg(opcode: Byte, s0: seq<seq<Byte>>, s1: seq<seq<Byte>>, m0: Meta, m1: Meta,
                           a0: map<PartId, Area>, a1: map<PartId, Area>, flashBase: U32, address: U32, data: seq<Byte>)
  {
    |data| < WORD && m1 == m0 && InternalWritten(a0, a1, flashBase, address, data) &&
    s1 == s0 + [Frame(if Lands(flashBase, a0, address, |data|) then Ack(opcode) else Nak(opcode))]
  }

  /** The bytes at `[address, address + size)` of the internal flash as the
      CPU reads them: nothing for size 0, and otherwise bytes only when the
      range lies inside one internal partition. */
  function Peek(flashBase: U32, areas: map<PartId, Area>, address: U32, size: U32): (r: Option<seq<Byte>>)
    ensures r.Some? ==> |r.value| == size
    ensures size == 0 ==> r == Some([])
  {
    if size == 0 then Some([])
    else
      var a := PeekIn(flashBase, areas, AppPart, address, size);
      if a.Some? then a
      else
        var b := PeekIn(flashBase, areas, ArgPart, address, size);
        if b.Some? then b else PeekIn(flashBase, areas, BootPart, address, size)
  }

  /** The bytes at `[address, address + size)` when they lie inside partition p. */
  function PeekIn(flashBase: U32, areas: map<PartId, Area>, p: PartId, address: U32, size: U32): (r: Option<seq<Byte>>)
    ensures r.Some? ==> |r.value| == size
  {
    if p in areas && Base(flashBase, areas[p]) <= address &&
       address - Base(flashBase, areas[p]) + size <= |areas[p].bytes|
    then
      var o := address - Base(flashBase, areas[p]);
      Some(areas[p].bytes[o..o + size])
    else None
  }

  /** `bl_verify_internal_flash_firmware`: the arg-info record is there and
      the CRC-32 of the internal bytes it describes matches it. */
  predicate InternalValid(flashBase: U32, areas: map<PartId, Area>)
  {
    var info := if ArgPart in areas then DecodeArgInfo(areas[ArgPart].bytes) else None;
    info.Some? &&
    var mem := Peek(flashBase, areas, info.value.addr, info.value.size);
    mem.Some? && Crc32(mem.value) as int == info.value.crc
  }

  // ----- The dispatcher -----

  // ----- What each request does -----

  /** QUERY: the board name answers a handshake naming the layout's
      application and arg bases, UNKNOWN anything else. */
  predicate QueryHandled(d: DeviceInfo, board: seq<Byte>, s0: seq<seq<Byte>>, s1: seq<seq<Byte>>,
                         length: nat, data: seq<Byte>)
    requires 12 <= |data| && |board| < 0x1_0000
  {
    s1 == s0 + [Frame(
      if length == 8 && U32At(data, 8) == d.argBase && U32At(data, 4) == d.appBase
      then Response(ERR_OK, OPCODE_QUERY, board) else Nak(OPCODE_QUERY))]
  }

  /** INQUIRY: subcode 0 gets the version text, subcode 1 the transfer size,
      any other subcode no answer. */
  predicate InquiryHandled(s0: seq<seq<Byte>>, s1: seq<seq<Byte>>, data: seq<Byte>)
    requires 5 <= |data|
  {
    s1 == s0 + (if data[4] == 0 then [Frame(Response(ERR_OK, OPCODE_INQUIRY, BOOT_VERSION))]
                else if data[4] == 1 then [Frame(Response(ERR_OK, OPCODE_INQUIRY, Le16(MAX_TRANSFER_MTU)))]
                else [])
  }

  /** ERASE: a wrong length or a start in the boot span is refused; a range in
      the application span erases the download slot, one in the arg span is
      erased in internal flash; anything else gets no answer. */
  ghost predicate EraseHandled(d: DeviceInfo, s0: seq<seq<Byte>>, s1: seq<seq<Byte>>, m0: Meta, m1: Meta,
                               a0: map<PartId, Area>, a1: map<PartId, Area>, flashBase: U32,
                               length: nat, data: seq<Byte>, env: Env)
    requires 12 <= |data|
  {
    var address, size := U32At(data, 4), U32At(data, 8);
    if length != 8 || StartsInBoot(d, address) then
      Refused(OPCODE_ERASE, s0, s1, m0, m1, a0, a1)
    else if Within(d.appBase, d.appSize, address, size) then
      ErasedApp(s0, s1, m0, m1, a0, a1, address, size, env)
    else if Within(d.argBase, d.argSize, address, size) then
      WroteArg(OPCODE_ERASE, s0, s1, m0, m1, a0, a1, flashBase, address, Erased(size))
    else
      Ignored(s0, s1, m0, m1, a0, a1)
  }

  /** PROGRAM: a length that does not match the header's size or a start in
      the boot span is refused; a chunk for the application span goes to the
      download slot, one for the arg span to internal flash; anything else gets
      no answer. */
  ghost predicate ProgramHandled(d: DeviceInfo, s0: seq<seq<Byte>>, s1: seq<seq<Byte>>, m0: Meta, m1: Meta,
                                 a0: map<PartId, Area>, a1: map<PartId, Area>, flashBase: U32,
                                 length: nat, data: seq<Byte>)
    requires |data| == DATA_SIZE && length + 4 <= DATA_SIZE
  {
    var address, size := U32At(data, 4), U32At(data, 8);
    if !ProgramLength(length, size) || StartsInBoot(d, address) then
      Refused(OPCODE_PROGRAM, s0, s1, m0, m1, a0, a1)
    else if Within(d.appBase, d.appSize, address, size) then
      ProgrammedApp(s0, s1, m0, m1, a0, a1, address, data[12..12 + size])
    else if Within(d.argBase, d.argSize, address, size) then
      WroteArg(OPCODE_PROGRAM, s0, s1, m0, m1, a0, a1, flashBase, address, data[12..12 + size])
    else
      Ignored(s0, s1, m0, m1, a0, a1)
  }

  /** VERIFY: a wrong length gets no answer; a range in the application span
      is checked against the download slot, anything else against the arg
      span of internal flash. */
  ghost predicate VerifyHandled(d: DeviceInfo, s0: seq<seq<Byte>>, s1: seq<seq<Byte>>, m0: Meta, m1: Meta,
                                a0: map<PartId, Area>, a1: map<PartId, Area>, flashBase: U32,
                                length: nat, data: seq<Byte>, env: Env)
    requires 16 <= |data|
  {
    var address, size, crc := U32At(data, 4), U32At(data, 8), U32At(data, 12);
    if length != 12 then
      Ignored(s0, s1, m0, m1, a0, a1)
    else if Within(d.appBase, d.appSize, address, size) then
      CheckedApp(s0, s1, m0, m1, a0, a1, address, size, crc, env.verifyAllocs)
    else
      CheckedArg(s0, s1, m0, m1, a0, a1, flashBase, d, address, size, crc)
  }

  /** What `download_slot_to_intflash` leaves once it returned 0: only
      internal flash changed, and when the descriptor can be read and its range
      lies in the application partition, that range holds the download slot's
      first `firmware_size` bytes. */
  ghost predicate SlotInstalled(a0: map<PartId, Area>, a1: map<PartId, Area>, flashBase: U32)
  {
    InternalOnly(a0, a1) &&
    (MetaPart in a0 && DESC_SIZE <= |a0[MetaPart].bytes| ==>
      var addr := Get(Uint32, a0[MetaPart].bytes, OffsetOf(FirmwareAddr));
      var size := Get(Uint32, a0[MetaPart].bytes, OffsetOf(FirmwareSize));
      IntoApp(a0, flashBase, addr, size) ==> a1 == NorFlash.Installed(a0, flashBase, addr, size))
  }

  /** What `select_slot_to_active_backup_partition(flag)` leaves: nothing
      changed when it cannot reach its copy; otherwise only the active backup
      changed, and it holds the image of the package, `firmware_size` bytes of
      the download slot for a full one and the arg-info size of the diff_fw slot
      for a diff one, followed by erased bytes. */
  ghost predicate Staged(a0: map<PartId, Area>, a1: map<PartId, Area>, flag: int, allocs: nat)
  {
    if !StagesBackup(a0, flag, allocs) then a1 == a0
    else
      Only(a0, a1, BackupPart) &&
      (flag == FULL_PACKAGE_FLAG && DESC_SIZE <= |a0[MetaPart].bytes| ==>
        Filled(a0, a1, DownloadPart, BackupPart, Get(Uint32, a0[MetaPart].bytes, OffsetOf(FirmwareSize)))) &&
      (flag == DIFF_PACKAGE_FLAG ==> Filled(a0, a1, DiffFwPart, BackupPart, Get(Uint32, a0[ArgPart].bytes, 8)))
  }

  /** What BOOT does to the partitions, with updated the partitions after
      `ota_update_task` returned check and installed those after the copy of a
      full package. A failed patch returns the code the header decided and
      changes nothing; a package it lets through ends in 0 or a negative code
      of the patch, the copy or the verify; any nonzero result leaves arg_info
      alone. A diff package
      (0) has been patched, copied, verified and recorded, then staged as the
      active backup. A full package (1) is copied to internal flash and staged,
      unless the copy cannot start, which keeps the bootloader running with
      nothing more changed. Every other result jumps to the application with no
      further change. Control never goes to a system reset. */
  ghost predicate BootRan(a0: map<PartId, Area>, a1: map<PartId, Area>, flashBase: U32, env: Env,
                          next: Outcome, check: int, updated: map<PartId, Area>, installed: map<PartId, Area>)
  {
    (HeaderReadable(a0, env.patchAllocs) && Prepare(a0, env.prod, env.patchAllocs) != 0 ==>
      check == Prepare(a0, env.prod, env.patchAllocs) && updated == a0) &&
    (HeaderReadable(a0, env.patchAllocs) && Prepare(a0, env.prod, env.patchAllocs) == 0 ==>
      UpdateCode(a0, updated, env.prod, env.patchAllocs, env.copyAllocs, check)) &&
    (check != 0 ==> updated.Keys == a0.Keys && (ArgPart in a0 ==> updated[ArgPart] == a0[ArgPart])) &&
    next != SystemReset &&
    if check == DIFF_PACKAGE_FLAG then
      next == JumpToApp && Updated(a0, updated, flashBase, env.prod) &&
      Staged(updated, a1, DIFF_PACKAGE_FLAG, env.backupAllocs)
    else if check == FULL_PACKAGE_FLAG then
      var stuck := MetaPart !in updated || DownloadPart !in updated || env.slotAllocs < 2;
      (next == Stay <==> stuck) &&
      if stuck then a1 == updated
      else SlotInstalled(updated, installed, flashBase) && Staged(installed, a1, FULL_PACKAGE_FLAG, env.backupAllocs)
    else
      next == JumpToApp && a1 == updated
  }

  /** BOOT copies the download slot into internal flash only for a package
      without the "DOTA" header: a diff package whose patch, copy or verify
      fails jumps to the application without that copy. */
  lemma FullOnlyWithoutDota(a0: map<PartId, Area>, a1: map<PartId, Area>, flashBase: U32, env: Env,
                            next: Outcome, check: int, updated: map<PartId, Area>, installed: map<PartId, Area>)
    requires BootRan(a0, a1, flashBase, env, next, check, updated, installed)
    requires env.patchAllocs > 0 && PatchParts(a0) && HEADER_SIZE <= |a0[DownloadPart].bytes|
    requires check == FULL_PACKAGE_FLAG
    ensures a0[DownloadPart].bytes[..4] != DOTA
  {
  }

  /** Where control goes after a packet or at start of day: stay in the
      bootloader waiting for commands, reset the system, or jump to the
      application. */
  datatype Outcome = Stay | SystemReset | JumpToApp

  /** What the handlers receive from outside the model: how many heap requests
      each operation's calls to `k_malloc` get satisfied, the page the flash
      driver reports for the download slot, and the patch library's behaviour. */
  datatype Env = Env(eraseAllocs: nat, page: Option<U32>, verifyAllocs: nat,
                     prod: Producer, patchAllocs: nat, copyAllocs: nat,
                     slotAllocs: nat, backupAllocs: nat, firmwareAllocs: nat)

  /** The bootloader's globals: the descriptor `meta_desc`, the layout
      `device_flash_info`, the response buffer, and the frames sent so far. */
  class Bootloader {
    var meta: Meta
    var device: DeviceInfo
    /** Every frame passed to `bl_upgrade_packet_send`, in order. */
    var sent: seq<seq<Byte>>
    const responseBuf: array<Byte>
    /** `CONFIG_BOARD` without its NUL. */
    const board: seq<Byte>

    ghost predicate Valid()
      reads this
    {
      responseBuf.Length == RESPONSE_SIZE && |board| + 7 <= RESPONSE_SIZE
    }

    /** The zero-initialised statics: nothing is loaded into the descriptor. */
    constructor (board: seq<Byte>)
      requires |board| + 7 <= RESPONSE_SIZE
      ensures Valid() && fresh(responseBuf) && this.board == board && sent == []
      ensures meta == Meta(0, 0, 0, 0, [0, 0, 0, 0, 0, 0, 0, 0], 0, Unset, 0, 0, 0, 0, 0)
      ensures device == DeviceInfo(0, 0, 0, 0, 0, 0)
    {
      meta := Meta(0, 0, 0, 0, [0, 0, 0, 0, 0, 0, 0, 0], 0, Unset, 0, 0, 0, 0, 0);
      device := DeviceInfo(0, 0, 0, 0, 0, 0);
      sent := [];
      responseBuf := new Byte[RESPONSE_SIZE](_ => 0);
      this.board := board;
    }

    /** `bl_response(err, opcode, payload)`: the frame is assembled in the
        response buffer through an advancing cursor and sent. */
    method Respond(err: Byte, opcode: Byte, payload: seq<Byte>)
      requires Valid() && |payload| + 7 <= RESPONSE_SIZE
      modifies this`sent, responseBuf
      ensures Valid()
      ensures sent == old(sent) + [Frame(Response(err, opcode, payload))]
    {
      var p := Append(responseBuf, 0, [START_BYTE], []);
      p := Append(responseBuf, p, [opcode], [START_BYTE]);
      p := Append(responseBuf, p, [err], [START_BYTE, opcode]);
      p := Append(responseBuf, p, Le16(|payload|), [START_BYTE, opcode, err]);
      p := Append(responseBuf, p, payload, [START_BYTE, opcode, err] + Le16(|payload|));
      var head := [START_BYTE, opcode, err] + Le16(|payload|) + payload;
      var crc := Crc16(0, responseBuf[..p]);
      p := Append(responseBuf, p, Le16(crc), head);
      sent := sent + [responseBuf[..p]];
    }

    /** `bl_response_ack(opcode)`. */
    method RespondAck(opcode: Byte)
      requires Valid()
      modifies this`sent, responseBuf
      ensures Valid() && sent == old(sent) + [Frame(Ack(opcode))]
    {
      Respond(ERR_OK, opcode, []);
    }

    /** `bl_query_handler`: the handshake. The host names the application and
        arg bases it expects; the board name answers a match, UNKNOWN anything
        else. */
    method Query(length: nat, data: seq<Byte>)
      requires Valid() && 12 <= |data|
      modifies this`sent, responseBuf
      ensures Valid()
      ensures QueryHandled(device, board, old(sent), sent, length, data)
    {
      if length != 8 {
        Respond(ERR_UNKNOWN, OPCODE_QUERY, []);
        return;
      }
      var expectApp, expectArg := U32At(data, 4), U32At(data, 8);
      if expectArg != device.argBase {
        Respond(ERR_UNKNOWN, OPCODE_QUERY, []);
        return;
      }
      if expectApp != device.appBase {
        Respond(ERR_UNKNOWN, OPCODE_QUERY, []);
        return;
      }
      Respond(ERR_OK, OPCODE_QUERY, board);
    }

    /** `bl_inquiry_handler`: subcode 0 asks for the version text, subcode 1
        for the transfer size; any other subcode gets no answer. */
    method Inquiry(data: seq<Byte>)
      requires Valid() && 5 <= |data|
      modifies this`sent, responseBuf
      ensures Valid()
      ensures InquiryHandled(old(sent), sent, data)
    {
      var subcode := data[4];
      if subcode == 0 {
        Respond(ERR_OK, OPCODE_INQUIRY, BOOT_VERSION);
      } else if subcode == 1 {
        Respond(ERR_OK, OPCODE_INQUIRY, Le16(MAX_TRANSFER_MTU));
      }
    }

    /** `bl_erase_handler`. A range in the application span is recorded in the
        descriptor, which also takes the version text, and the download slot is
        erased past what it already holds; a range in the arg span is erased in
        internal flash; a start in the boot span or a wrong length is refused;
        anything else gets no answer. */
    method Erase(f: Flash, length: nat, data: seq<Byte>, env: Env)
      requires Valid() && f.Valid() && 12 <= |data|
      modifies this`sent, this`meta, responseBuf, f
      ensures Valid() && f.Valid() && f.flashBase == old(f.flashBase) && f.devices == old(f.devices)
      ensures EraseHandled(device, old(sent), sent, old(meta), meta, old(f.areas), f.areas, f.flashBase, length, data, env)
    {
      var address, size := U32At(data, 4), U32At(data, 8);
      if length != 8 {
        Respond(ERR_UNKNOWN, OPCODE_ERASE, []);
      } else if StartsInBoot(device, address) {
        Respond(ERR_UNKNOWN, OPCODE_ERASE, []);
      } else if Within(device.appBase, device.appSize, address, size) {
        EraseApp(f, address, size, env);
      } else if Within(device.argBase, device.argSize, address, size) {
        EraseArg(f, address, size);
      }
    }

    /** The application branch of `bl_erase_handler`. */
    method EraseApp(f: Flash, address: U32, size: U32, env: Env)
      requires Valid() && f.Valid()
      modifies this`sent, this`meta, responseBuf, f
      ensures Valid() && f.Valid() && f.flashBase == old(f.flashBase) && f.devices == old(f.devices)
      ensures ErasedApp(old(sent), sent, old(meta), meta, old(f.areas), f.areas, address, size, env)
    {
      meta := meta.(firmwareAddr := address, firmwareSize := size, version := StrCpy(meta.version, BOOT_VERSION));
      var ok := EraseDownload(f, env.eraseAllocs, env.page);
      if !ok {
        Respond(ERR_UNKNOWN, OPCODE_ERASE, []);
        return;
      }
      RespondAck(OPCODE_ERASE);
    }

    /** The arg branch of `bl_erase_handler`. */
    method EraseArg(f: Flash, address: U32, size: U32)
      requires Valid() && f.Valid()
      modifies this`sent, responseBuf, f
      ensures Valid() && f.Valid() && f.flashBase == old(f.flashBase) && f.devices == old(f.devices)
      ensures WroteArg(OPCODE_ERASE, old(sent), sent, meta, meta, old(f.areas), f.areas, f.flashBase, address, Erased(size))
    {
      var rc := FlashErase(f, address, size);
      if rc != 0 {
        Respond(ERR_UNKNOWN, OPCODE_ERASE, []);
        return;
      }
      RespondAck(OPCODE_ERASE);
    }

    /** `bl_program_handler`, with the length test taken without wrap-around.
        A chunk for the application span is counted in the descriptor, written
        to the download slot and the descriptor stored; a chunk for the arg span
        is written to internal flash; a start in the boot span or a wrong length
        is refused; anything else gets no answer. */
    method Program(f: Flash, length: nat, data: seq<Byte>)
      requires Valid() && f.Valid() && MetaPart in f.areas
      requires |data| == DATA_SIZE && length + 4 <= DATA_SIZE
      modifies this`sent, this`meta, responseBuf, f
      ensures Valid() && f.Valid() && f.flashBase == old(f.flashBase) && f.devices == old(f.devices)
      ensures ProgramHandled(device, old(sent), sent, old(meta), meta, old(f.areas), f.areas, f.flashBase, length, data)
    {
      var address, size := U32At(data, 4), U32At(data, 8);
      if length != 8 + size as int {
        Respond(ERR_UNKNOWN, OPCODE_PROGRAM, []);
        return;
      }
      ProgramLengthBounds(length, size);
      var payload := data[12..12 + size];
      if StartsInBoot(device, address) {
        Respond(ERR_UNKNOWN, OPCODE_PROGRAM, []);
      } else if Within(device.appBase, device.appSize, address, size) {
        ProgramApp(f, address, payload);
      } else if Within(device.argBase, device.argSize, address, size) {
        ProgramArg(f, address, payload);
      }
    }

    /** The application branch of `bl_program_handler`: the descriptor changes
        before the slot write, so it stays changed when the write is refused. */
    method ProgramApp(f: Flash, address: U32, payload: seq<Byte>)
      requires Valid() && f.Valid() && MetaPart in f.areas && |payload| < WORD
      modifies this`sent, this`meta, responseBuf, f
      ensures Valid() && f.Valid() && f.flashBase == old(f.flashBase) && f.devices == old(f.devices)
      ensures ProgrammedApp(old(sent), sent, old(meta), meta, old(f.areas), f.areas, address, payload)
    {
      meta := Counted(meta, |payload|);
      var ret := ProgramDownloadSlot(f, address, payload);
      if ret != 0 {
        Respond(ERR_UNKNOWN, OPCODE_PROGRAM, []);
        return;
      }
      ret := ProgramMetaSlot(f, meta);
      if ret != 0 {
        return;
      }
      RespondAck(OPCODE_PROGRAM);
    }

    /** The arg branch of `bl_program_handler`. */
    method ProgramArg(f: Flash, address: U32, payload: seq<Byte>)
      requires Valid() && f.Valid() && |payload| < WORD
      modifies this`sent, responseBuf, f
      ensures Valid() && f.Valid() && f.flashBase == old(f.flashBase) && f.devices == old(f.devices)
      ensures WroteArg(OPCODE_PROGRAM, old(sent), sent, meta, meta, old(f.areas), f.areas, f.flashBase, address, payload)
    {
      var rc := FlashProgram(f, address, |payload|, payload);
      if rc != 0 {
        Respond(ERR_UNKNOWN, OPCODE_PROGRAM, []);
        return;
      }
      RespondAck(OPCODE_PROGRAM);
    }

    /** `bl_verify_handler`, with the arg-span test completed. A range in the
        application span is checked against the CRC-32 of the download slot and,
        on a match, the descriptor's download length is cleared and stored; a
        range in the arg span is checked against the internal bytes. Only a
        match is answered. */
    method Verify(f: Flash, length: nat, data: seq<Byte>, env: Env)
      requires Valid() && f.Valid() && MetaPart in f.areas && 16 <= |data|
      modifies this`sent, this`meta, responseBuf, f
      ensures Valid() && f.Valid() && f.flashBase == old(f.flashBase) && f.devices == old(f.devices)
      ensures VerifyHandled(device, old(sent), sent, old(meta), meta, old(f.areas), f.areas, f.flashBase, length, data, env)
    {
      if length != 12 {
        return;
      }
      var address, size, crc := U32At(data, 4), U32At(data, 8), U32At(data, 12);
      if Within(device.appBase, device.appSize, address, size) {
        VerifyApp(f, address, size, crc, env.verifyAllocs);
      } else if Within(device.argBase, device.argSize, address, size) {
        var mem := Peek(f.flashBase, f.areas, address, size);
        if mem.Some? && Crc32(mem.value) as int == crc {
          RespondAck(OPCODE_VERIFY);
        }
      }
    }

    /** The application branch of `bl_verify_handler`. */
    method VerifyApp(f: Flash, address: U32, size: U32, crc: U32, allocs: nat)
      requires Valid() && f.Valid() && MetaPart in f.areas
      modifies this`sent, this`meta, responseBuf, f
      ensures Valid() && f.Valid() && f.flashBase == old(f.flashBase) && f.devices == old(f.devices)
      ensures CheckedApp(old(sent), sent, old(meta), meta, old(f.areas), f.areas, address, size, crc, allocs)
    {
      var c := SlotCheck(f, address, size, allocs);
      if c as int != crc {
        assert AppVerified(old(sent), sent, old(meta), meta, old(f.areas), f.areas, false);
        return;
      }
      meta := meta.(downloadLen := 0);
      var ret := ProgramMetaSlot(f, meta);
      if ret == 0 {
        RespondAck(OPCODE_VERIFY);
      }
      assert AppVerified(old(sent), sent, old(meta), meta, old(f.areas), f.areas, true);
    }

    /** `bl_boot_handler`: acknowledge, run the update, copy a full package to
        internal flash and stage the active backup, then jump to the
        application. check is what `ota_update_task` returned. Only a full
        package whose copy cannot start keeps the bootloader running. */
    method Boot(f: Flash, env: Env) returns (next: Outcome, check: int, ghost updated: map<PartId, Area>,
                                              ghost installed: map<PartId, Area>)
      requires Valid() && f.Valid()
      modifies this`sent, responseBuf, f
      ensures Valid() && f.Valid() && f.flashBase == old(f.flashBase) && f.devices == old(f.devices)
      ensures sent == old(sent) + [Frame(Ack(OPCODE_BOOT))]
      ensures BootRan(old(f.areas), f.areas, f.flashBase, env, next, check, updated, installed)
    {
      RespondAck(OPCODE_BOOT);
      check := OtaUpdateTask(f, env.prod, env.patchAllocs, env.copyAllocs);
      updated, installed := f.areas, f.areas;
      var ret := 0;
      if check != 0 && check == FULL_PACKAGE_FLAG {
        ret := DownloadSlotToIntflash(f, env.slotAllocs);
        installed := f.areas;
        if ret != 0 {
          return Stay, check, updated, installed;
        }
        ret := SelectSlotToActiveBackup(f, FULL_PACKAGE_FLAG, env.backupAllocs);
      } else if check == DIFF_PACKAGE_FLAG {
        ret := SelectSlotToActiveBackup(f, DIFF_PACKAGE_FLAG, env.backupAllocs);
      }
      next := JumpToApp;
    }

    /** `bl_pkt_handler`: run the handler of the packet's opcode. The result is
        whether the opcode is one of the eight known ones, and where control
        goes next. READ is accepted and does nothing. */
    method PktHandler(f: Flash, pkt: Packet, env: Env)
      returns (handled: bool, next: Outcome, ghost check: int, ghost updated: map<PartId, Area>,
               ghost installed: map<PartId, Area>)
      requires Valid() && f.Valid() && MetaPart in f.areas
      requires pkt.data.Length == DATA_SIZE && pkt.length + 4 <= DATA_SIZE
      modifies this`sent, this`meta, responseBuf, f
      ensures Valid() && f.Valid() && f.flashBase == old(f.flashBase) && f.devices == old(f.devices)
      ensures handled <==> pkt.opcode in {OPCODE_QUERY, OPCODE_INQUIRY, OPCODE_ERASE, OPCODE_READ,
                                          OPCODE_PROGRAM, OPCODE_RESET, OPCODE_BOOT, OPCODE_VERIFY}
      ensures next == SystemReset <==> pkt.opcode == OPCODE_RESET
      ensures next == JumpToApp ==> pkt.opcode == OPCODE_BOOT
      ensures pkt.opcode !in {OPCODE_QUERY, OPCODE_INQUIRY, OPCODE_ERASE, OPCODE_PROGRAM, OPCODE_BOOT, OPCODE_VERIFY} ==>
        sent == old(sent) && meta == old(meta) && f.areas == old(f.areas)
      ensures pkt.opcode in {OPCODE_QUERY, OPCODE_INQUIRY, OPCODE_BOOT} ==> meta == old(meta)
      ensures pkt.opcode in {OPCODE_QUERY, OPCODE_INQUIRY} ==> f.areas == old(f.areas)
      ensures pkt.opcode == OPCODE_QUERY ==> QueryHandled(device, board, old(sent), sent, pkt.length, old(pkt.data[..]))
      ensures pkt.opcode == OPCODE_INQUIRY ==> InquiryHandled(old(sent), sent, old(pkt.data[..]))
      ensures pkt.opcode == OPCODE_ERASE ==>
        EraseHandled(device, old(sent), sent, old(meta), meta, old(f.areas), f.areas, f.flashBase, pkt.length,
                     old(pkt.data[..]), env)
      ensures pkt.opcode == OPCODE_PROGRAM ==>
        ProgramHandled(device, old(sent), sent, old(meta), meta, old(f.areas), f.areas, f.flashBase, pkt.length,
                       old(pkt.data[..]))
      ensures pkt.opcode == OPCODE_VERIFY ==>
        VerifyHandled(device, old(sent), sent, old(meta), meta, old(f.areas), f.areas, f.flashBase, pkt.length,
                      old(pkt.data[..]), env)
      ensures pkt.opcode == OPCODE_BOOT ==>
        sent == old(sent) + [Frame(Ack(OPCODE_BOOT))] &&
        BootRan(old(f.areas), f.areas, f.flashBase, env, next, check, updated, installed)
    {
      var data := pkt.data[..];
      var opcode, length := pkt.opcode, pkt.length;
      handled, next := true, Stay;
      check, updated, installed := 0, f.areas, f.areas;
      if opcode == OPCODE_QUERY {
        Query(length, data);
      } else if opcode == OPCODE_INQUIRY {
        Inquiry(data);
      } else if opcode == OPCODE_ERASE {
        Erase(f, length, data, env);
      } else if opcode == OPCODE_READ {
      } else if opcode == OPCODE_PROGRAM {
        Program(f, length, data);
      } else if opcode == OPCODE_RESET {
        next := SystemReset;
      } else if opcode == OPCODE_BOOT {
        next, check, updated, installed := Boot(f, env);
      } else if opcode == OPCODE_VERIFY {
        Verify(f, length, data, env);
      } else {
        handled := false;
      }
    }

    /** `boot_main(trap)`: read the layout, then stay when asked to or when the
        button was pressed within the wait, and jump to the application
        otherwise. */
    method BootMain(f: Flash, trap: bool, button: bool) returns (next: Outcome)
      requires f.Valid()
      modifies this`device
      ensures device == GetDeviceFlashInfo(f, old(device))
      ensures next == Stay <==> trap || button
      ensures next == JumpToApp <==> !trap && !button
    {
      device := GetDeviceFlashInfo(f, device);
      var t := trap;
      if button {
        t := true;
      }
      next := if t then Stay else JumpToApp;
    }

    /** The start-of-day path of `sys_init_thread`: check the firmware, then
        `boot_main` with a trap exactly when the check failed. */
    method SysInit(f: Flash, env: Env, button: bool) returns (next: Outcome)
      requires f.Valid()
      modifies this`device, f
      ensures f.Valid() && f.flashBase == old(f.flashBase) && f.devices == old(f.devices)
      ensures device == GetDeviceFlashInfo(f, old(device))
      ensures next != SystemReset && (button ==> next == Stay)
      ensures !button && InternalValid(old(f.flashBase), old(f.areas)) ==> next == JumpToApp && f.areas == old(f.areas)
      ensures next == JumpToApp && !InternalValid(old(f.flashBase), old(f.areas)) ==>
        BackupRecovered(old(f.areas), f.areas, env.firmwareAllocs)
      ensures !button && BackupRecoverable(old(f.areas), env.firmwareAllocs) ==> next == JumpToApp
      ensures next == Stay && !button ==> f.areas == old(f.areas)
    {
      var ok := VerifyFirmware(f, env.firmwareAllocs);
      next := BootMain(f, !ok, button);
    }
  }

  /** What a successful recovery from the active backup leaves: the backup
      prefix the arg-info record describes carries its CRC-32 and has been
      copied over the application. */
  ghost predicate BackupRecovered(a0: map<PartId, Area>, a1: map<PartId, Area>, allocs: nat)
  {
    allocs > 0 && ArgPart in a0 && DecodeArgInfo(a0[ArgPart].bytes).Some? && BackupPart in a0 &&
    var info, bk := DecodeArgInfo(a0[ArgPart].bytes).value, a0[BackupPart].bytes;
    (info.size <= |bk| ==> Crc32(bk[..info.size]) as int == info.crc) && AppRestored(a0, a1, info.size)
  }

  /** The CRC-32 `download_slot_verify` is known to return: 1 when the slot
      cannot be opened or no buffer is allocated, the CRC-32 of the range when
      it lies in the slot, and nothing known when the reads fail. */
  ghost function SlotCrc(areas: map<PartId, Area>, address: U32, size: U32, allocs: nat): Option<int>
  {
    if DownloadPart !in areas || allocs == 0 then Some(1)
    else
      var o := SlotOffset(address);
      if o + size <= |areas[DownloadPart].bytes| then Some(Crc32(areas[DownloadPart].bytes[o..o + size]) as int)
      else None
  }

  /** What the application branch of VERIFY does when the CRC matched or not:
      nothing on a mismatch; on a match, the descriptor's download length is
      cleared and the descriptor stored, and the match is answered when the
      descriptor fits. */
  ghost predicate AppVerified(s0: seq<seq<Byte>>, s1: seq<seq<Byte>>, m0: Meta, m1: Meta,
                              a0: map<PartId, Area>, a1: map<PartId, Area>, matched: bool)
  {
    if !matched then a1 == a0 && m1 == m0 && s1 == s0
    else
      MetaPart in a0 && m1 == m0.(downloadLen := 0) &&
      a1 == a0[MetaPart := Area(a0[MetaPart].off, MetaStored(|a0[MetaPart].bytes|, m1))] &&
      s1 == (if META_SIZE <= |a0[MetaPart].bytes| then s0 + [Frame(Ack(OPCODE_VERIFY))] else s0)
  }

  /** The application branch of VERIFY: it acts as on a match or as on a
      mismatch, and as the slot's known CRC-32 says whenever that is known. */
  ghost predicate CheckedApp(s0: seq<seq<Byte>>, s1: seq<seq<Byte>>, m0: Meta, m1: Meta,
                             a0: map<PartId, Area>, a1: map<PartId, Area>, address: U32, size: U32, crc: U32, allocs: nat)
  {
    var known := SlotCrc(a0, address, size, allocs);
    (AppVerified(s0, s1, m0, m1, a0, a1, true) || AppVerified(s0, s1, m0, m1, a0, a1, false)) &&
    (known.Some? ==> AppVerified(s0, s1, m0, m1, a0, a1, known.value == crc))
  }

  /** The arg branch of VERIFY, with the span test completed, and what is left
      after it: only a range in the arg span whose internal bytes carry the
      expected CRC-32 is answered, and nothing changes. */
  ghost predicate CheckedArg(s0: seq<seq<Byte>>, s1: seq<seq<Byte>>, m0: Meta, m1: Meta,
                             a0: map<PartId, Area>, a1: map<PartId, Area>, flashBase: U32, d: DeviceInfo,
                             address: U32, size: U32, crc: U32)
  {
    var mem := Peek(flashBase, a0, address, size);
    m1 == m0 && a1 == a0 &&
    s1 == s0 + (if Within(d.argBase, d.argSize, address, size) && mem.Some? && Crc32(mem.value) as int == crc
                then [Frame(Ack(OPCODE_VERIFY))] else [])
  }

  /** A chunk PROGRAM wrote to the download slot passes a VERIFY of the same
      range with its own CRC-32: the chunk is acknowledged, then the check is,
      and the descriptor's download length is cleared; the slot keeps the chunk. */
  lemma ProgramThenVerifyAcks(s0: seq<seq<Byte>>, s1: seq<seq<Byte>>, s2: seq<seq<Byte>>,
                              m0: Meta, m1: Meta, m2: Meta,
                              a0: map<PartId, Area>, a1: map<PartId, Area>, a2: map<PartId, Area>,
                              address: U32, data: seq<Byte>, allocs: nat)
    requires ProgrammedApp(s0, s1, m0, m1, a0, a1, address, data)
    requires DownloadPart in a0 && InArea(|a0[DownloadPart].bytes|, SlotOffset(address), |data|)
    requires META_SIZE <= |a0[MetaPart].bytes| && allocs > 0
    requires CheckedApp(s1, s2, m1, m2, a1, a2, address, |data|, Crc32(data) as int, allocs)
    ensures s1 == s0 + [Frame(Ack(OPCODE_PROGRAM))] && s2 == s1 + [Frame(Ack(OPCODE_VERIFY))]
    ensures m2 == Counted(m0, |data|).(downloadLen := 0)
    ensures a2[DownloadPart].bytes[SlotOffset(address)..SlotOffset(address) + |data|] == data
  {
    var o := SlotOffset(address);
    ProgramThenVerify(a0[DownloadPart].bytes, address, data);
    assert a1[DownloadPart].bytes == Store(a0[DownloadPart].bytes, o, data);
    assert SlotCrc(a1, address, |data|, allocs) == Some(Crc32(data) as int);
  }

  /** `download_slot_verify` as VERIFY sees it: the CRC-32 it returns, which
      is the one SlotCrc names whenever that is known. */
  method SlotCheck(f: Flash, address: U32, size: U32, allocs: nat) returns (c: bv32)
    requires f.Valid()
    ensures SlotCrc(f.areas, address, size, allocs).Some? ==> SlotCrc(f.areas, address, size, allocs).value == c as int
  {
    c := DownloadSlotVerify(f, address, size, allocs);
  }

  /** `nor_flash_erase_download_slot` as ERASE sees it: whether it returned 0. */
  method EraseDownload(f: Flash, allocs: nat, page: Option<U32>) returns (ok: bool)
    requires f.Valid()
    modifies f
    ensures f.Valid() && f.flashBase == old(f.flashBase) && f.devices == old(f.devices)
    ensures ok == SlotErasable(old(f.areas), allocs)
    ensures ok ==> f.areas == SlotErased(old(f.areas), page)
    ensures !ok ==> f.areas == old(f.areas)
  {
    var ret := EraseDownloadSlot(f, allocs, page);
    ok := ret == 0;
  }

  /** `bl_verify_internal_flash_firmware`: the arg-info record and the CRC-32
      of the internal bytes it describes. */
  method VerifyInternal(f: Flash) returns (ok: bool)
    ensures ok == InternalValid(f.flashBase, f.areas)
  {
    var info := GetArgInfo(f);
    if info.None? {
      return false;
    }
    var mem := Peek(f.flashBase, f.areas, info.value.addr, info.value.size);
    ok := mem.Some? && Crc32(mem.value) as int == info.value.crc;
  }

  /** `bl_verify_firmware`: the internal image first, then recovery from the
      active backup. An empty image never reaches the division by zero in
      the recovery's progress computation: its CRC-32 is 0, so either the
      internal check passes or the backup check fails. */
  method VerifyFirmware(f: Flash, allocs: nat) returns (ok: bool)
    requires f.Valid()
    modifies f
    ensures f.Valid() && f.flashBase == old(f.flashBase) && f.devices == old(f.devices)
    ensures InternalValid(old(f.flashBase), old(f.areas)) ==> ok && f.areas == old(f.areas)
    ensures ok && !InternalValid(old(f.flashBase), old(f.areas)) ==> BackupRecovered(old(f.areas), f.areas, allocs)
    ensures !ok ==> f.areas == old(f.areas)
    ensures !InternalValid(old(f.flashBase), old(f.areas)) && BackupRecoverable(old(f.areas), allocs) ==> ok
  {
    ok := VerifyInternal(f);
    if ok {
      return;
    }
    Crc32Empty();
    var r := VerifyExternalFirmware(f, allocs);
    if r == ZeroDivision {
      assert false;
    }
    ok := r == Recovery(true);
  }

  /** A successful BOOT of a diff package leaves an internal image that the
      next start of day accepts: when the image fits the application and
      arg_info has room for the record, the record names the image and its
      CRC-32, and the internal check passes. */
  lemma UpdatedIsInternalValid(a0: map<PartId, Area>, a1: map<PartId, Area>, flashBase: U32, prod: Producer)
    requires Updated(a0, a1, flashBase, prod)
    requires Wrap32(prod.newSize) <= |a1[AppPart].bytes| && ArgPart in a0 && |a0[ArgPart].bytes| >= ARG_INFO_BYTE_NUMBER
    ensures InternalValid(flashBase, a1)
  {
    var size, app := Wrap32(prod.newSize), a1[AppPart].bytes;
    var rec := ArgRecord(Base(flashBase, a1[AppPart]), size, Crc32(app[..size]) as int);
    assert DecodeArgInfo(a1[ArgPart].bytes) == Some(rec);
    if size > 0 {
      assert PeekIn(flashBase, a1, AppPart, rec.addr, size) == Some(app[..size]);
    }
  }

  /** A `put_*_inc` of x at the cursor p, just after the bytes acc: the
      buffer then starts with acc followed by x. */
  method Append(buf: array<Byte>, p: nat, x: seq<Byte>, ghost acc: seq<Byte>) returns (q: nat)
    requires p == |acc| && p + |x| <= buf.Length && buf[..p] == acc
    modifies buf
    ensures q == p + |x| && buf[..q] == acc + x
  {
    q := PutBytesInc(buf, p, x);
    assert buf[..q] == Store(old(buf[..]), p, x)[..q];
  }
}

=== FILE: chunks.dfy ===
/** The two chunk loops the flash code repeats: a CRC-32 over a range of a
    partition, read through a heap buffer block by block, and a copy from one
    partition to another at the same offsets. Both are the `do { ... } while
    (remaining > 0)` form of `norflash.c`, so the first round runs even for an
    empty range; a round of zero bytes reads and writes nothing, which makes
    the `while` loops of `hpatchlite.c` behave the same. Read and write
    results are not checked by the source, so a read outside the partition
    leaves stale buffer contents, and the contracts speak about ranges that
    lie inside the partitions. */
module Chunks {
  import opened Arith
  import opened Bitos
  import opened Crc
  import opened Storage

  /** `crc32_ieee_update` over `[start, start + size)` of partition p, block bytes at a time. */
  method AreaCrc(f: Flash, p: PartId, start: U32, size: U32, buf: array<Byte>, block: nat) returns (crc: bv32)
    requires f.Valid() && p in f.areas && 0 < block <= buf.Length
    modifies buf
    ensures start + size <= |f.areas[p].bytes| ==> crc == Crc32(f.areas[p].bytes[start..start + size])
  {
    ghost var data := f.areas[p].bytes;
    assert |data| < WORD;
    var offset: U32 := start;
    var remaining: U32 := size;
    crc := 0;
    if start + size <= |data| {
      Crc32Empty();
      assert data[start..start] == [];
    }
    var first := true;
    while first || remaining > 0
      invariant remaining <= size && |data| < WORD
      invariant CrcProgress(data, start, size, offset, remaining, crc)
      decreases remaining, first
    {
      var chunk := if remaining > block then block else remaining;
      ghost var was := buf[..];
      var rc := f.ReadInto(p, offset, buf, 0, chunk);
      CrcRound(data, start, size, offset, remaining, chunk, crc, buf[..], was);
      crc := Crc32Update(crc, buf[..chunk]);
      offset := Wrap32(offset + chunk);
      remaining := remaining - chunk;
      first := false;
    }
    CrcDone(data, start, size, offset, crc);
  }

  /** A range that starts at 0 is a prefix. */
  lemma FromStart(data: seq<Byte>, n: nat)
    requires n <= |data|
    ensures data[0..0 + n] == data[..n]
  {}

  /** What the CRC loop has done when the range lies inside the partition:
      offset has advanced by the bytes consumed, and crc covers them. */
  ghost predicate CrcProgress(data: seq<Byte>, start: nat, size: nat, offset: nat, remaining: nat, crc: bv32)
  {
    start + size <= |data| ==>
      remaining <= size && offset == start + (size - remaining) && crc == Crc32(data[start..offset])
  }

  /** When no bytes remain, the checksum covers the whole range. */
  lemma CrcDone(data: seq<Byte>, start: nat, size: nat, offset: nat, crc: bv32)
    requires CrcProgress(data, start, size, offset, 0, crc)
    ensures start + size <= |data| ==> crc == Crc32(data[start..start + size])
  {
    if start + size <= |data| {
      assert data[start..offset] == data[start..start + size];
    }
  }

  /** One round of the CRC loop: the chunk read at offset extends the checksum
      of `[start, offset)` to `[start, offset + chunk)`. */
  lemma CrcRound(data: seq<Byte>, start: nat, size: nat, offset: nat, remaining: nat, chunk: nat, prev: bv32, now: seq<Byte>, was: seq<Byte>)
    requires |data| < WORD && chunk <= remaining && chunk <= |was| == |now|
    requires CrcProgress(data, start, size, offset, remaining, prev)
    requires start + size <= |data| ==> now == Store(was, 0, data[offset..offset + chunk])
    ensures chunk <= |now|
    ensures CrcProgress(data, start, size, Wrap32(offset + chunk), remaining - chunk, Crc32Update(prev, now[..chunk]))
  {
    if start + size <= |data| {
      assert now[..chunk] == data[offset..offset + chunk] by {
        assert now[..chunk] == now[0..chunk];
      }
      CrcExtend(data, start, offset, chunk, prev);
      assert Wrap32(offset + chunk) == offset + chunk;
    }
  }

  /** Appending the next chunk to the checksummed range. */
  lemma CrcExtend(data: seq<Byte>, start: nat, offset: nat, chunk: nat, prev: bv32)
    requires start <= offset && offset + chunk <= |data|
    requires prev == Crc32(data[start..offset])
    ensures Crc32Update(prev, data[offset..offset + chunk]) == Crc32(data[start..offset + chunk])
  {
    var a, b := data[start..offset], data[offset..offset + chunk];
    assert a + b == data[start..offset + chunk];
    Crc32UpdateAppend(0, a, b);
  }

  /** Copies `[0, size)` of partition src to the same offsets of partition dst,
      block bytes at a time. Only dst changes, and when the range lies inside
      both partitions dst's first size bytes become src's. */
  method CopyArea(f: Flash, src: PartId, dst: PartId, size: U32, buf: array<Byte>, block: nat)
    requires f.Valid() && src in f.areas && dst in f.areas && src != dst && 0 < block <= buf.Length
    modifies f, buf
    ensures f.Valid() && f.flashBase == old(f.flashBase) && f.devices == old(f.devices)
    ensures dst in f.areas && |f.areas[dst].bytes| == |old(f.areas[dst].bytes)|
    ensures f.areas == old(f.areas)[dst := Area(old(f.areas[dst].off), f.areas[dst].bytes)]
    ensures size <= |old(f.areas[src].bytes)| && size <= |old(f.areas[dst].bytes)| ==>
      f.areas[dst].bytes == Store(old(f.areas[dst].bytes), 0, old(f.areas[src].bytes)[..size])
  {
    ghost var areas0 := f.areas;
    ghost var from := f.areas[src].bytes;
    assert from[..0] == [] && Store(areas0[dst].bytes, 0, []) == areas0[dst].bytes;
    var offset: U32 := 0;
    var remaining: U32 := size;
    var first := true;
    while first || remaining > 0
      invariant f.Valid() && f.flashBase == old(f.flashBase) && f.devices == old(f.devices)
      invariant remaining <= size && offset == size - remaining
      invariant Copied(f.areas, areas0, src, dst, size, offset)
      decreases remaining, first
    {
      var chunk := if remaining > block then block else remaining;
      ghost var cur := f.areas;
      CopyChunk(f, src, dst, offset, chunk, buf);
      var next := offset + chunk;
      CopyRound(cur, f.areas, areas0, src, dst, size, offset, chunk, next);
      offset := next;
      remaining := remaining - chunk;
      first := false;
    }
  }

  /** What the copy loop has done: only dst has changed, keeping its offset and
      length, and when the range fits both partitions its first offset bytes
      are src's. */
  ghost predicate Copied(areas: map<PartId, Area>, areas0: map<PartId, Area>, src: PartId, dst: PartId, size: nat, offset: nat)
  {
    src in areas0 && dst in areas0 && src != dst && dst in areas &&
    |areas[dst].bytes| == |areas0[dst].bytes| &&
    areas == areas0[dst := Area(areas0[dst].off, areas[dst].bytes)] &&
    (size <= |areas0[src].bytes| && size <= |areas0[dst].bytes| ==>
      offset <= size && areas[dst].bytes == Store(areas0[dst].bytes, 0, areas0[src].bytes[..offset]))
  }

  /** One round of the copy loop: `flash_area_read` of chunk bytes at offset
      of src into the buffer, then `flash_area_write` of them at the same
      offset of dst. Only dst can change; when the chunk lies inside both
      partitions it now holds src's bytes there. */
  method CopyChunk(f: Flash, src: PartId, dst: PartId, offset: U32, chunk: nat, buf: array<Byte>)
    requires f.Valid() && src in f.areas && dst in f.areas && src != dst && chunk <= buf.Length
    modifies f, buf
    ensures f.Valid() && f.flashBase == old(f.flashBase) && f.devices == old(f.devices)
    ensures dst in f.areas && |f.areas[dst].bytes| == |old(f.areas[dst].bytes)|
    ensures f.areas == old(f.areas)[dst := Area(old(f.areas[dst].off), f.areas[dst].bytes)]
    ensures InArea(|old(f.areas[src].bytes)|, offset, chunk) && InArea(|old(f.areas[dst].bytes)|, offset, chunk) ==>
      f.areas[dst].bytes == Store(old(f.areas[dst].bytes), offset, old(f.areas[src].bytes)[offset..offset + chunk])
  {
    ghost var was := buf[..];
    var rc := f.ReadInto(src, offset, buf, 0, chunk);
    assert rc == 0 ==> buf[..chunk] == f.areas[src].bytes[offset..offset + chunk] by {
      assert buf[..chunk] == buf[0..chunk];
    }
    rc := f.Write(dst, offset, buf[..chunk]);
  }

  /** The copy loop's step: a round over `[offset, upto)` extends the copied prefix. */
  lemma CopyRound(before: map<PartId, Area>, after: map<PartId, Area>, areas0: map<PartId, Area>, src: PartId, dst: PartId,
                  size: nat, offset: nat, chunk: nat, upto: nat)
    requires Copied(before, areas0, src, dst, size, offset) && upto == offset + chunk <= size
    requires dst in after && |after[dst].bytes| == |before[dst].bytes|
    requires after == before[dst := Area(before[dst].off, after[dst].bytes)]
    requires InArea(|before[src].bytes|, offset, chunk) && InArea(|before[dst].bytes|, offset, chunk) ==>
      after[dst].bytes == Store(before[dst].bytes, offset, before[src].bytes[offset..offset + chunk])
    ensures Copied(after, areas0, src, dst, size, upto)
  {
    var from, to0 := areas0[src].bytes, areas0[dst].bytes;
    if size <= |from| && size <= |to0| {
      assert before[src] == areas0[src];
      StoreConsecutive(to0, 0, from[..offset], from[offset..upto]);
      assert from[..offset] + from[offset..upto] == from[..upto];
    }
  }

  /** The CRC-32 of the first size bytes of partition p, block bytes at a time. */
  method PrefixCrc(f: Flash, p: PartId, size: U32, buf: array<Byte>, block: nat) returns (crc: bv32)
    requires f.Valid() && p in f.areas && 0 < block <= buf.Length
    modifies buf
    ensures size <= |f.areas[p].bytes| ==> crc == Crc32(f.areas[p].bytes[..size])
  {
    crc := AreaCrc(f, p, 0, size, buf, block);
    if size <= |f.areas[p].bytes| {
      FromStart(f.areas[p].bytes, size);
    }
  }

  /** `flash_area_erase(fa, 0, fa->fa_size)`: the whole partition erased. */
  method EraseWhole(f: Flash, p: PartId)
    requires f.Valid() && p in f.areas
    modifies f
    ensures f.Valid() && f.flashBase == old(f.flashBase) && f.devices == old(f.devices)
    ensures f.areas == old(f.areas)[p := Area(old(f.areas[p].off), Erased(|old(f.areas[p].bytes)|))]
  {
    var n := |f.areas[p].bytes|;
    var rc := f.Erase(p, 0, n);
    assert Store(old(f.areas[p].bytes), 0, Erased(n)) == Erased(n);
  }

  /** Data stored at the start of an erased partition is followed by erased bytes. */
  lemma ErasedThenStored(n: nat, image: seq<Byte>)
    requires |image| <= n
    ensures Store(Erased(n), 0, image) == image + Erased(n - |image|)
  {
    assert Erased(n)[|image|..] == Erased(n - |image|);
  }

  /** Only partition dst has changed, and it keeps its offset and length. */
  ghost predicate Only(before: map<PartId, Area>, after: map<PartId, Area>, dst: PartId)
  {
    dst in before && dst in after &&
    |after[dst].bytes| == |before[dst].bytes| &&
    after == before[dst := Area(before[dst].off, after[dst].bytes)]
  }

  /** Changes confined to dst compose. */
  lemma OnlyTrans(a: map<PartId, Area>, b: map<PartId, Area>, c: map<PartId, Area>, dst: PartId)
    requires Only(a, b, dst) && Only(b, c, dst)
    ensures Only(a, c, dst)
  {}

  /** No change at all is confined to any partition there is. */
  lemma OnlySame(a: map<PartId, Area>, dst: PartId)
    requires dst in a
    ensures Only(a, a, dst)
  {
    assert a == a[dst := Area(a[dst].off, a[dst].bytes)];
  }

  /** Partition dst after it is erased and size bytes of src are copied to its
      start: when both hold that much, the image followed by erased bytes. */
  ghost predicate Filled(before: map<PartId, Area>, after: map<PartId, Area>, src: PartId, dst: PartId, size: nat)
  {
    Only(before, after, dst) && src in before &&
    (size <= |before[src].bytes| && size <= |before[dst].bytes| ==>
      after[dst].bytes == before[src].bytes[..size] + Erased(|before[dst].bytes| - size))
  }

  /** Erase all of dst, then copy size bytes of src to its start, block bytes at a time. */
  method FillFrom(f: Flash, src: PartId, dst: PartId, size: U32, buf: array<Byte>, block: nat)
    requires f.Valid() && src in f.areas && dst in f.areas && src != dst && 0 < block <= buf.Length
    modifies f, buf
    ensures f.Valid() && f.flashBase == old(f.flashBase) && f.devices == old(f.devices)
    ensures Filled(old(f.areas), f.areas, src, dst, size)
  {
    ghost var before := f.areas;
    EraseWhole(f, dst);
    CopyArea(f, src, dst, size, buf, block);
    if size <= |before[src].bytes| && size <= |before[dst].bytes| {
      ErasedThenStored(|before[dst].bytes|, before[src].bytes[..size]);
    }
  }

  /** A filled partition starts with the image, so its CRC-32 over size bytes is the image's. */
  lemma FilledChecks(before: map<PartId, Area>, after: map<PartId, Area>, src: PartId, dst: PartId, size: nat)
    requires Filled(before, after, src, dst, size) && size <= |before[src].bytes| && size <= |before[dst].bytes|
    ensures after[dst].bytes[..size] == before[src].bytes[..size]
    ensures Crc32(after[dst].bytes[..size]) == Crc32(before[src].bytes[..size])
  {
    assert (before[src].bytes[..size] + Erased(|before[dst].bytes| - size))[..size] == before[src].bytes[..size];
  }
}

=== FILE: crc.dfy ===
/** The two checksums the bootloader relies on, defined bit by bit:
    CRC-16 as in ITU-T V.41 (polynomial 0x1021, most significant bit first,
    caller-supplied seed, no reflection, no final inversion), which frames the
    serial protocol and seals the metadata record; and the IEEE 802.3 CRC-32
    (reflected polynomial 0xEDB88320, register and result inverted), which
    checks firmware images. The CRC-16 is exposed on integers and the CRC-32
    on 32-bit vectors, the `uint32_t` it is compared as; the updates are
    folds, so a checksum computed chunk by chunk equals the one-shot value. */
module Crc {
  import opened Arith

  function Crc16Shift(c: bv16, n: nat): bv16
    decreases n
  {
    if n == 0 then c
    else Crc16Shift(if c & 0x8000 != 0 then (c << 1) ^ 0x1021 else c << 1, n - 1)
  }

  /** One byte into the register: the byte enters the top, then eight shifts. */
  function Crc16Step(c: bv16, b: Byte): bv16
  {
    Crc16Shift(c ^ ((b as bv16) << 8), 8)
  }

  function Crc16Bits(c: bv16, data: seq<Byte>): bv16
    decreases |data|
  {
    if data == [] then c else Crc16Bits(Crc16Step(c, data[0]), data[1..])
  }

  /** `crc16_itu_t(seed, data, |data|)`. */
  function Crc16(seed: U16, data: seq<Byte>): U16
  {
    Crc16Bits(seed as bv16, data) as int
  }

  lemma {:induction false} Crc16BitsAppend(c: bv16, a: seq<Byte>, b: seq<Byte>)
    ensures Crc16Bits(Crc16Bits(c, a), b) == Crc16Bits(c, a + b)
    decreases |a|
  {
    if a == [] {
      assert a + b == b;
    } else {
      assert (a + b)[1..] == a[1..] + b;
      Crc16BitsAppend(Crc16Step(c, a[0]), a[1..], b);
    }
  }

  /** Feeding the data in two pieces, the second seeded with the first's result,
      gives the CRC of the whole. */
  lemma Crc16Append(seed: U16, a: seq<Byte>, b: seq<Byte>)
    ensures Crc16(Crc16(seed, a), b) == Crc16(seed, a + b)
  {
    Crc16BitsAppend(seed as bv16, a, b);
  }

  lemma {:induction false} Crc16BitsZeros(n: nat)
    ensures Crc16Bits(0, seq(n, _ => 0)) == 0
    decreases n
  {
    if n > 0 {
      var z: seq<Byte> := seq(n, _ => 0);
      assert z[1..] == seq(n - 1, _ => 0);
      assert Crc16Step(0, z[0]) == 0;
      Crc16BitsZeros(n - 1);
    }
  }

  /** A zero seed over all-zero bytes gives CRC 0: an all-zero frame carries a valid checksum. */
  lemma Crc16Zeros(n: nat)
    ensures Crc16(0, seq(n, _ => 0)) == 0
  {
    Crc16BitsZeros(n);
  }

  function Crc32Shift(c: bv32, n: nat): bv32
    decreases n
  {
    if n == 0 then c
    else Crc32Shift(if c & 1 == 1 then (c >> 1) ^ 0xEDB8_8320 else c >> 1, n - 1)
  }

  /** One byte into the register: the byte enters the bottom, then eight shifts. */
  function Crc32Step(c: bv32, b: Byte): bv32
  {
    Crc32Shift(c ^ (b as bv32), 8)
  }

  function Crc32Bits(c: bv32, data: seq<Byte>): bv32
    decreases |data|
  {
    if data == [] then c else Crc32Bits(Crc32Step(c, data[0]), data[1..])
  }

  /** `crc32_ieee_update(crc, data, |data|)`: the register holds the inverse of
      the running value. Values are `uint32_t`, kept as 32-bit vectors. */
  function Crc32Update(crc: bv32, data: seq<Byte>): bv32
  {
    !Crc32Bits(!crc, data)
  }

  /** `crc32_ieee(data, |data|)`. */
  function Crc32(data: seq<Byte>): bv32
  {
    Crc32Update(0, data)
  }

  lemma {:induction false} Crc32BitsAppend(c: bv32, a: seq<Byte>, b: seq<Byte>)
    ensures Crc32Bits(Crc32Bits(c, a), b) == Crc32Bits(c, a + b)
    decreases |a|
  {
    if a == [] {
      assert a + b == b;
    } else {
      assert (a + b)[1..] == a[1..] + b;
      Crc32BitsAppend(Crc32Step(c, a[0]), a[1..], b);
    }
  }

  /** Updating with a and then with b is updating with a + b, which makes every
      chunked CRC loop compute the one-shot CRC. */
  lemma {:induction false} Crc32UpdateAppend(crc: bv32, a: seq<Byte>, b: seq<Byte>)
    ensures Crc32Update(Crc32Update(crc, a), b) == Crc32Update(crc, a + b)
  {
    Crc32RegisterAppend(crc, a, b);
    Crc32UpdateRegister(Crc32Update(crc, a), b);
    Crc32UpdateRegister(crc, a + b);
  }

  /** An update is the register run from the inverted value, inverted back. */
  lemma Crc32UpdateRegister(crc: bv32, data: seq<Byte>)
    ensures Crc32Update(crc, data) == !Crc32Bits(!crc, data)
  {}

  /** The register after an update holds the inverse of its result. */
  lemma Crc32Register(crc: bv32, a: seq<Byte>)
    ensures !Crc32Update(crc, a) == Crc32Bits(!crc, a)
  {}

  /** Resuming the register from an update's result continues the run. */
  lemma Crc32RegisterAppend(crc: bv32, a: seq<Byte>, b: seq<Byte>)
    ensures Crc32Bits(!Crc32Update(crc, a), b) == Crc32Bits(!crc, a + b)
  {
    Crc32Register(crc, a);
    Crc32BitsAppend(!crc, a, b);
  }

  /** The CRC-32 of no data is 0, the value the chunk loops start from. */
  lemma Crc32Empty()
    ensures Crc32([]) == 0
  {
    assert Crc32Bits(!0, []) == !0;
  }
}

=== FILE: flash_area.dfy ===
/** `flash_area.c`: the internal-flash side of the bootloader. The arg-info
    record (`magic, address, size, crc`, four little-endian words at the start
    of the arg_info partition) that says which image the application
    partition holds; the partition layout handed to the packet handlers; and
    the address-based read, erase and program entry points, which route an
    absolute address to the application or the arg_info partition and check
    the range in `uint32_t` arithmetic before the flash layer checks it
    again. */
module FlashArea {
  import opened Arith
  import opened Wrappers
  import opened Bitos
  import opened Storage

  const ARG_INFO_BYTE_NUMBER: nat := 16
  const DEVICE_UPGRADE_VERIFY_MAGIC: U32 := 0x1A2B_3C4D
  /** The chunk size of `bl_flash_read`. */
  const READ_BLOCK: nat := 4096

  /** What the arg-info record describes: the image's address, size and CRC-32. */
  datatype ArgRecord = ArgRecord(addr: U32, size: U32, crc: U32)

  /** The record's words in storage order, magic first. */
  function ArgWords(r: ArgRecord): seq<U32>
  {
    [DEVICE_UPGRADE_VERIFY_MAGIC, r.addr, r.size, r.crc]
  }

  /** The absolute address of a partition: `flash_base + fa_off`, in `uint32_t`. */
  function Base(flashBase: U32, a: Area): U32
  {
    Wrap32(flashBase + a.off)
  }

  lemma FourWords(b: seq<Byte>)
    requires |b| >= 16
    ensures b[..16] == Words([Get(Uint32, b, 0), Get(Uint32, b, 4), Get(Uint32, b, 8), Get(Uint32, b, 12)])
  {
    var ws := [Get(Uint32, b, 0), Get(Uint32, b, 4), Get(Uint32, b, 8), Get(Uint32, b, 12)];
    WordRoundTrip(ws[0]);
    WordRoundTrip(ws[1]);
    WordRoundTrip(ws[2]);
    WordRoundTrip(ws[3]);
    Words4(ws[0], ws[1], ws[2], ws[3]);
    assert b[..16] == b[0..4] + (b[4..8] + (b[8..12] + b[12..16]));
  }

  /** The decode of `bl_flash_get_arginfo` over the arg_info partition's bytes:
      a read that runs past the partition fails, and a wrong magic stops
      before the other three words are read. */
  function DecodeArgInfo(b: seq<Byte>): (r: Option<ArgRecord>)
    ensures r.Some? <==> |b| >= ARG_INFO_BYTE_NUMBER && Get(Uint32, b, 0) == DEVICE_UPGRADE_VERIFY_MAGIC
    ensures r.Some? ==> b[..ARG_INFO_BYTE_NUMBER] == Words(ArgWords(r.value))
  {
    if |b| < 4 || Get(Uint32, b, 0) != DEVICE_UPGRADE_VERIFY_MAGIC then None
    else if |b| < 8 || |b| < 12 || |b| < 16 then None
    else
      FourWords(b);
      Some(ArgRecord(Get(Uint32, b, 4), Get(Uint32, b, 8), Get(Uint32, b, 12)))
  }

  /** `bl_flash_get_arginfo`: None when the partition cannot be opened or the record is not there. */
  function GetArgInfo(f: Flash): Option<ArgRecord>
    reads f
  {
    if ArgPart in f.areas then DecodeArgInfo(f.areas[ArgPart].bytes) else None
  }

  /** Any bytes after a stored record leave it readable. */
  lemma ArgRecordRoundTrip(r: ArgRecord, rest: seq<Byte>)
    ensures DecodeArgInfo(Words(ArgWords(r)) + rest) == Some(r)
  {
    var ws := ArgWords(r);
    var b := Words(ws) + rest;
    forall i | 0 <= i < 4
      ensures Get(Uint32, b, 4 * i) == ws[i]
    {
      WordsSlice(ws, i);
      assert b[4 * i..4 * i + 4] == Word(ws[i]);
      WordRoundTrip(ws[i]);
    }
    assert Get(Uint32, b, 0) == ws[0] && Get(Uint32, b, 4) == ws[1];
    assert Get(Uint32, b, 8) == ws[2] && Get(Uint32, b, 12) == ws[3];
  }

  /** The partitions once `bl_diff_info_copy` has committed the record for an
      image of fwsize bytes with CRC fwcrc: arg_info erased, then the record
      written at its start; every other partition as it was. */
  function ArgInfoCommitted(areas: map<PartId, Area>, flashBase: U32, fwsize: U32, fwcrc: U32): map<PartId, Area>
    requires ArgPart in areas && AppPart in areas && |areas[ArgPart].bytes| >= ARG_INFO_BYTE_NUMBER
  {
    var arg := areas[ArgPart];
    var rec := ArgRecord(Base(flashBase, areas[AppPart]), fwsize, fwcrc);
    areas[ArgPart := Area(arg.off, Words(ArgWords(rec)) + Erased(|arg.bytes| - ARG_INFO_BYTE_NUMBER))]
  }

  /** The committed record reads back: `bl_flash_get_arginfo` then finds the
      application's address, the size and the CRC that were passed in, and the
      partition keeps its length. */
  lemma DiffInfoReadBack(areas: map<PartId, Area>, flashBase: U32, fwsize: U32, fwcrc: U32)
    requires ArgPart in areas && AppPart in areas && |areas[ArgPart].bytes| >= ARG_INFO_BYTE_NUMBER
    ensures var after := ArgInfoCommitted(areas, flashBase, fwsize, fwcrc);
      after.Keys == areas.Keys && |after[ArgPart].bytes| == |areas[ArgPart].bytes| &&
      DecodeArgInfo(after[ArgPart].bytes) == Some(ArgRecord(Base(flashBase, areas[AppPart]), fwsize, fwcrc))
  {
    var rec := ArgRecord(Base(flashBase, areas[AppPart]), fwsize, fwcrc);
    ArgRecordRoundTrip(rec, Erased(|areas[ArgPart].bytes| - ARG_INFO_BYTE_NUMBER));
  }

  /** `bl_diff_info_copy`: erases arg_info and writes the record for an image of
      fwsize bytes with CRC fwcrc at the application partition's address. It
      fails when either partition cannot be opened, or when the record does
      not fit, in which case arg_info stays erased. */
  method DiffInfoCopy(f: Flash, fwsize: U32, fwcrc: U32) returns (ok: bool)
    requires f.Valid()
    modifies f
    ensures f.Valid() && f.flashBase == old(f.flashBase) && f.devices == old(f.devices)
    ensures ok <==> ArgPart in old(f.areas) && AppPart in old(f.areas) && |old(f.areas[ArgPart].bytes)| >= ARG_INFO_BYTE_NUMBER
    ensures ok ==> f.areas == ArgInfoCommitted(old(f.areas), f.flashBase, fwsize, fwcrc)
    ensures ArgPart !in old(f.areas) || AppPart !in old(f.areas) ==> f.areas == old(f.areas)
    ensures ArgPart in old(f.areas) && AppPart in old(f.areas) && |old(f.areas[ArgPart].bytes)| < ARG_INFO_BYTE_NUMBER ==>
      f.areas == old(f.areas)[ArgPart := Area(old(f.areas[ArgPart].off), Erased(|old(f.areas[ArgPart].bytes)|))]
  {
    if ArgPart !in f.areas || AppPart !in f.areas {
      return false;
    }
    ghost var before := f.areas;
    var arg := f.areas[ArgPart];
    var appBase := Base(f.flashBase, f.areas[AppPart]);
    var rc := f.Erase(ArgPart, 0, |arg.bytes|);
    StoreWhole(arg.bytes, Erased(|arg.bytes|));
    ghost var erased := before[ArgPart := Area(arg.off, Erased(|arg.bytes|))];
    assert f.areas == erased;
    var info := new Byte[ARG_INFO_BYTE_NUMBER];
    ghost var rec := ArgRecord(appBase, fwsize, fwcrc);
    var p := PackArgInfo(info, appBase, fwsize, fwcrc);
    assert info[..p] == Words(ArgWords(rec));
    rc := f.Write(ArgPart, 0, info[..p]);
    if rc != 0 {
      return false;
    }
    ArgRecordAfterErase(rec, |arg.bytes|);
    assert f.areas == erased[ArgPart := Area(arg.off, Words(ArgWords(rec)) + Erased(|arg.bytes| - ARG_INFO_BYTE_NUMBER))];
    ok := true;
  }

  /** The four `put_u32_inc` calls of `bl_diff_info_copy` into its 16-byte buffer. */
  method PackArgInfo(info: array<Byte>, addr: U32, size: U32, crc: U32) returns (p: nat)
    requires info.Length == ARG_INFO_BYTE_NUMBER
    modifies info
    ensures p == ARG_INFO_BYTE_NUMBER && info[..] == Words(ArgWords(ArgRecord(addr, size, crc)))
  {
    ghost var s0 := info[..];
    p := PutWordInc(info, 0, DEVICE_UPGRADE_VERIFY_MAGIC);
    ghost var s1 := info[..];
    p := PutWordInc(info, p, addr);
    ghost var s2 := info[..];
    p := PutWordInc(info, p, size);
    ghost var s3 := info[..];
    p := PutWordInc(info, p, crc);
    PackedWords(s0, s1, s2, s3, info[..], DEVICE_UPGRADE_VERIFY_MAGIC, addr, size, crc);
  }

  /** Four word stores from the start of a 16-byte buffer leave the four words in order. */
  lemma PackedWords(s0: seq<Byte>, s1: seq<Byte>, s2: seq<Byte>, s3: seq<Byte>, s4: seq<Byte>, a: U32, b: U32, c: U32, d: U32)
    requires |s0| == 16
    requires s1 == Store(s0, 0, Word(a)) && s2 == Store(s1, 4, Word(b))
    requires s3 == Store(s2, 8, Word(c)) && s4 == Store(s3, 12, Word(d))
    ensures s4 == Words([a, b, c, d])
  {
    FourStores(s0, Word(a), Word(b), Word(c), Word(d));
    Words4(a, b, c, d);
  }

  lemma StoreWhole(s: seq<Byte>, b: seq<Byte>)
    requires |b| == |s|
    ensures Store(s, 0, b) == b
  {}

  lemma ArgRecordAfterErase(r: ArgRecord, n: nat)
    requires n >= ARG_INFO_BYTE_NUMBER
    ensures Store(Erased(n), 0, Words(ArgWords(r))) == Words(ArgWords(r)) + Erased(n - ARG_INFO_BYTE_NUMBER)
  {
    assert Erased(n)[16..] == Erased(n - 16);
  }

  /** `device_flash_info_t`: the absolute spans of the three internal partitions. */
  datatype DeviceInfo = DeviceInfo(
    bootBase: U32, argBase: U32, appBase: U32,
    bootSize: U32, argSize: U32, appSize: U32)

  /** `get_device_flash_info(device)`: the record after the call. */
  function GetDeviceFlashInfo(f: Flash, device: DeviceInfo): (r: DeviceInfo)
    reads f
    requires f.Valid()
    ensures (BootPart !in f.areas || ArgPart !in f.areas || AppPart !in f.areas) ==> r == device
    ensures BootPart in f.areas && ArgPart in f.areas && AppPart in f.areas ==>
      r.bootBase == Base(f.flashBase, f.areas[BootPart]) && r.bootSize == |f.areas[BootPart].bytes| &&
      r.argBase == Base(f.flashBase, f.areas[ArgPart]) && r.argSize == |f.areas[ArgPart].bytes| &&
      r.appBase == Base(f.flashBase, f.areas[AppPart]) && r.appSize == |f.areas[AppPart].bytes|
  {
    if BootPart !in f.areas || ArgPart !in f.areas || AppPart !in f.areas then device
    else
      var boot, arg, app := f.areas[BootPart], f.areas[ArgPart], f.areas[AppPart];
      DeviceInfo(Base(f.flashBase, boot), Base(f.flashBase, arg), Base(f.flashBase, app),
                 |boot.bytes|, |arg.bytes|, |app.bytes|)
  }

  /** `bl_flash_read(address, buf, size)`. Every round reads the whole remaining
      count at the current offset into the current buffer position, so each
      read ends where the request ends: the buffer receives exactly the
      requested bytes (re-read up to size / 4096 times) and nothing after
      them is touched. Reads that fail leave the buffer as it was. */
  method FlashRead(f: Flash, address: U32, buf: array<Byte>, size: U32)
    requires f.Valid() && size <= buf.Length
    modifies buf
    ensures buf[size..] == old(buf[size..])
    ensures AppPart !in f.areas ==> buf[..] == old(buf[..])
    ensures AppPart in f.areas ==>
      var app := f.areas[AppPart];
      var start := Wrap32(address - Base(f.flashBase, app));
      (start + size <= |app.bytes| ==> buf[..size] == app.bytes[start..start + size]) &&
      (|app.bytes| < start + size <= WORD ==> buf[..] == old(buf[..]))
  {
    if AppPart !in f.areas {
      return;
    }
    var app := f.areas[AppPart];
    var offset: U32 := Wrap32(address - Base(f.flashBase, app));
    ghost var start := offset;
    ghost var init := buf[..];
    assert |app.bytes| < WORD;
    var at: nat := 0;
    var remaining: U32 := size;
    var first := true;
    while first || remaining > 0
      invariant at + remaining == size
      invariant start + size <= WORD && (first || remaining > 0) ==> offset == start + at
      invariant !first || at == 0
      invariant ReadProgress(buf[..], init, app.bytes, start, size, first)
      decreases remaining, first
    {
      var chunk := if remaining > READ_BLOCK then READ_BLOCK else remaining;
      ghost var before := buf[..];
      var rc := f.ReadInto(AppPart, offset, buf, at, remaining);
      ReadRound(init, before, buf[..], app.bytes, start, size, at, remaining, offset, rc == 0, first);
      offset := Wrap32(offset + chunk);
      at := at + chunk;
      remaining := remaining - chunk;
      first := false;
    }
  }

  /** What `bl_flash_read` has achieved on the buffer cur that held init: the
      bytes after the request are untouched; inside the partition the request
      is complete once a round has run; past the partition's end nothing
      changed. */
  ghost predicate ReadProgress(cur: seq<Byte>, init: seq<Byte>, data: seq<Byte>, start: nat, size: nat, first: bool)
    requires size <= |init| == |cur|
  {
    cur[size..] == init[size..] &&
    (start + size <= |data| && !first ==> cur[..size] == data[start..start + size]) &&
    (|data| < start + size <= WORD ==> cur == init)
  }

  /** One round of `bl_flash_read`: the read of the remaining len bytes at
      buffer position at, from partition offset offset. */
  lemma ReadRound(init: seq<Byte>, before: seq<Byte>, after: seq<Byte>, data: seq<Byte>,
                  start: nat, size: nat, at: nat, len: nat, offset: int, ok: bool, first: bool)
    requires at + len == size <= |init| && |before| == |init| && |data| < WORD
    requires (start + size <= WORD ==> offset == start + at) && (first ==> at == 0)
    requires ok <==> InArea(|data|, offset, len)
    requires ok ==> after == Store(before, at, data[offset..offset + len])
    requires !ok ==> after == before
    requires ReadProgress(before, init, data, start, size, first)
    ensures ReadProgress(after, init, data, start, size, false)
  {
    if ok {
      assert after[size..] == before[size..];
      if start + size <= |data| {
        assert offset == start + at;
        ReadCompletes(before, after, data[start..start + size], at);
      }
    }
  }

  /** A block whose first at bytes are already in place and whose remaining
      bytes are stored at at is complete. */
  lemma ReadCompletes(before: seq<Byte>, after: seq<Byte>, want: seq<Byte>, at: nat)
    requires at <= |want| <= |before|
    requires at > 0 ==> before[..|want|] == want
    requires after == Store(before, at, want[at..])
    ensures after[..|want|] == want
  {
    forall i | 0 <= i < |want|
      ensures after[i] == want[i]
    {
      if i < at {
        assert after[i] == before[i];
      } else {
        assert after[i] == after[at..|want|][i - at];
      }
    }
  }

  /** The partition `bl_flash_erase` and `bl_flash_program` act on: application
      from its start address upwards, arg_info below it. */
  function Target(flashBase: U32, app: Area, address: U32): PartId
  {
    if address >= Base(flashBase, app) then AppPart else ArgPart
  }

  /** The `uint32_t` range test of `bl_flash_erase` and `bl_flash_program`: the
      offset inside the target, or None when the request is rejected with -1. */
  function Route(flashBase: U32, app: Area, arg: Area, address: U32, size: U32): Option<nat>
  {
    var a := if Target(flashBase, app, address) == AppPart then app else arg;
    var start := Base(flashBase, a);
    var end := Wrap32(start + |a.bytes| - 1);
    if address < start || Wrap32(address + size - 1) > end then None
    else Some(address - start)
  }

  /** Whether a request reaches the medium: both partitions open, the range
      test passed and the flash layer's own bounds test passed. */
  predicate Lands(flashBase: U32, areas: map<PartId, Area>, address: U32, size: U32)
  {
    AppPart in areas && ArgPart in areas &&
    var r := Route(flashBase, areas[AppPart], areas[ArgPart], address, size);
    r.Some? && r.value + size <= |areas[Target(flashBase, areas[AppPart], address)].bytes|
  }

  /** For a partition that starts above address 0 and ends inside the address
      space, the two range tests together accept exactly the requests that lie
      inside the target partition, whatever the `uint32_t` test lets through. */
  lemma RouteExact(flashBase: U32, app: Area, arg: Area, address: U32, size: U32)
    requires var a := if Target(flashBase, app, address) == AppPart then app else arg;
      0 < Base(flashBase, a) && Base(flashBase, a) + |a.bytes| <= WORD
    ensures var a := if Target(flashBase, app, address) == AppPart then app else arg;
      var r := Route(flashBase, app, arg, address, size);
      (r.Some? && r.value + size <= |a.bytes|) <==>
      (Base(flashBase, a) <= address && address - Base(flashBase, a) + size <= |a.bytes|)
  {
    var a := if Target(flashBase, app, address) == AppPart then app else arg;
    var start := Base(flashBase, a);
    if start <= address && address - start + size <= |a.bytes| {
      assert Wrap32(address + size - 1) == address + size - 1;
    }
  }

  /** The `uint32_t` test alone admits a range that wraps past the end of the
      address space; only the flash layer's test then refuses it. */
  lemma RouteAdmitsWrappedRange(app: Area, arg: Area)
    requires app.off == 0x1_0000 && |app.bytes| == 0x7_0000
    ensures Route(0x0800_0000, app, arg, 0x0801_0001, 0xFFFF_FFFF) == Some(1)
    ensures !Lands(0x0800_0000, map[AppPart := app, ArgPart := arg], 0x0801_0001, 0xFFFF_FFFF)
  {}

  /** A zero-length request at the partition start passes the `uint32_t` test. */
  lemma RouteAdmitsEmpty(app: Area, arg: Area)
    requires app.off == 0x1_0000 && |app.bytes| == 0x7_0000
    ensures Lands(0x0800_0000, map[AppPart := app, ArgPart := arg], 0x0801_0000, 0)
  {}

  /** `bl_flash_erase(address, size)`. */
  method FlashErase(f: Flash, address: U32, size: U32) returns (rc: int)
    requires f.Valid()
    modifies f
    ensures f.Valid() && f.flashBase == old(f.flashBase) && f.devices == old(f.devices)
    ensures rc == 0 || rc == -1
    ensures rc == 0 <==> old(Lands(f.flashBase, f.areas, address, size))
    ensures rc == 0 ==> old(
      var t := Target(f.flashBase, f.areas[AppPart], address);
      var o := Route(f.flashBase, f.areas[AppPart], f.areas[ArgPart], address, size).value;
      f.areas[t := Area(f.areas[t].off, Store(f.areas[t].bytes, o, Erased(size)))]) == f.areas
    ensures rc != 0 ==> f.areas == old(f.areas)
  {
    if AppPart !in f.areas || ArgPart !in f.areas {
      return -1;
    }
    var t := Target(f.flashBase, f.areas[AppPart], address);
    var r := Route(f.flashBase, f.areas[AppPart], f.areas[ArgPart], address, size);
    if r.None? {
      return -1;
    }
    rc := f.Erase(t, r.value, size);
    if rc != 0 {
      return -1;
    }
  }

  /** `bl_flash_program(address, size, data)`. */
  method FlashProgram(f: Flash, address: U32, size: U32, data: seq<Byte>) returns (rc: int)
    requires f.Valid() && |data| == size
    modifies f
    ensures f.Valid() && f.flashBase == old(f.flashBase) && f.devices == old(f.devices)
    ensures rc == 0 || rc == -1
    ensures rc == 0 <==> old(Lands(f.flashBase, f.areas, address, size))
    ensures rc == 0 ==> old(
      var t := Target(f.flashBase, f.areas[AppPart], address);
      var o := Route(f.flashBase, f.areas[AppPart], f.areas[ArgPart], address, size).value;
      f.areas[t := Area(f.areas[t].off, Store(f.areas[t].bytes, o, data))]) == f.areas
    ensures rc != 0 ==> f.areas == old(f.areas)
  {
    if AppPart !in f.areas || ArgPart !in f.areas {
      return -1;
    }
    var t := Target(f.flashBase, f.areas[AppPart], address);
    var r := Route(f.flashBase, f.areas[AppPart], f.areas[ArgPart], address, size);
    if r.None? {
      return -1;
    }
    rc := f.Write(t, r.value, data);
    if rc != 0 {
      return -1;
    }
  }
}

=== FILE: hpatchlite.dfy ===
/** `hpatchlite.c`: the differential update. The HPatchLite library rebuilds
    the new image from the old application and the patch stored after a
    64-byte header in the download slot, and hands the image to a write
    callback that gathers it in a 256-byte buffer and programs the diff_fw
    slot one full buffer at a time. The rebuilt image is then copied into the
    application partition, its CRC-32 compared with the header's, and its
    arg_info record written. The library and the tinyuz decoder are not part
    of this model: what they report and the bytes they hand to the write
    callback are a `Producer`, and `allocs` is how many `k_malloc` requests
    the heap still satisfies. */
module HPatchLite {
  import opened Arith
  import opened Wrappers
  import opened Bitos
  import opened Crc
  import opened Storage
  import opened FlashArea
  import opened Chunks
  import NorFlash

  const WRITE_BUF_SIZE: nat := 256
  /** `sizeof(struct ota_custom_header)`: magic, version, new_size, new_crc and
      48 reserved bytes, packed. The patch stream starts right after it. */
  const HEADER_SIZE: nat := 64
  /** Where `new_crc` lies in the header. */
  const NEW_CRC_AT: nat := 12
  /** The magic of a differential package. */
  const DOTA: seq<Byte> := [0x44, 0x4F, 0x54, 0x41]
  /** `kCompressType_tuz`. */
  const COMPRESS_TUZ: int := 1
  /** The tinyuz stream's own header, skipped before the decoder opens. */
  const TUZ_SKIP: nat := 4
  /** The chunk of `flash_copy_to_internal`. */
  const COPY_BLOCK: nat := 4096
  /** `sizeof(verify_buf)` in `verify_internal_firmware`. */
  const VERIFY_BLOCK: nat := 1024

  /** The bytes a sequence of write callbacks delivers, in order. */
  function Flatten(blocks: seq<seq<Byte>>): seq<Byte>
  {
    if blocks == [] then [] else Flatten(blocks[..|blocks| - 1]) + blocks[|blocks| - 1]
  }

  /** A buffer holding the unwritten tail of the stream, padded, and stored at
      the write offset of a slot that holds the stream's head and erased bytes
      after it, leaves the whole stream followed by erased bytes. */
  lemma BufferLands(out: seq<Byte>, off: nat, k: nat, pad: nat)
    requires off <= |out| && |out| - off + pad <= k
    ensures off + k >= |out|
    ensures Store(out[..off] + Erased(k), off, out[off..] + Erased(pad)) == out + Erased(off + k - |out|)
  {
    var blk := out[off..] + Erased(pad);
    StoreAfter(out[..off], Erased(k), blk);
    assert Erased(k)[|blk|..] == Erased(k - |blk|);
    assert Erased(pad) + Erased(k - |blk|) == Erased(off + k - |out|);
    assert out[..off] + out[off..] == out;
  }

  /** `struct patch_ctx`: the write offset into diff_fw, the read offset into
      the download slot and the write buffer with its fill level. `out` is
      every byte handed to the write callback so far. */
  class PatchCtx {
    var writeAddrOffset: U32
    var readDiffOffset: U32
    const writeBuf: array<Byte>
    var bufFill: nat
    ghost var out: seq<Byte>

    /** The context right after `memset(p_main_ctx, 0, ...)`. */
    constructor ()
      ensures writeAddrOffset == 0 && readDiffOffset == 0 && bufFill == 0 && out == []
      ensures fresh(writeBuf) && writeBuf.Length == WRITE_BUF_SIZE
    {
      writeAddrOffset, readDiffOffset, bufFill, out := 0, 0, 0, [];
      writeBuf := new Byte[WRITE_BUF_SIZE](_ => 0);
    }

    /** The stream is laid out as the callbacks promise: the bytes before the
        write offset are at their own offsets of diff_fw, which is erased after
        them, and the rest wait at the head of the buffer. */
    ghost predicate Holds(f: Flash)
      reads this, writeBuf, f
    {
      writeBuf.Length == WRITE_BUF_SIZE && bufFill <= WRITE_BUF_SIZE && DiffFwPart in f.areas &&
      var diff := f.areas[DiffFwPart].bytes;
      |out| == writeAddrOffset + bufFill && writeAddrOffset <= |diff| &&
      diff == out[..writeAddrOffset] + Erased(|diff| - writeAddrOffset) &&
      writeBuf[..bufFill] == out[writeAddrOffset..]
    }

    /** `Holds` between callbacks, where the buffer is never left full. */
    ghost predicate Streamed(f: Flash)
      reads this, writeBuf, f
    {
      Holds(f) && bufFill < WRITE_BUF_SIZE
    }

    /** The `memcpy` of n bytes of data from p into the buffer at the fill level. */
    method Take(f: Flash, data: seq<Byte>, p: nat, n: nat)
      requires Streamed(f) && p + n <= |data| && n <= WRITE_BUF_SIZE - bufFill
      modifies this`bufFill, this`out, writeBuf
      ensures Holds(f) && bufFill == old(bufFill) + n
      ensures out == old(out) + data[p..p + n]
    {
      var d := data[p..p + n];
      ghost var b0 := writeBuf[..];
      PutBytes(writeBuf, bufFill, d);
      assert writeBuf[..bufFill + n] == b0[..bufFill] + d;
      assert (out + d)[writeAddrOffset..] == out[writeAddrOffset..] + d;
      assert (out + d)[..writeAddrOffset] == out[..writeAddrOffset];
      bufFill := bufFill + n;
      out := out + d;
    }

    /** A full buffer programmed at the write offset; the offset moves on and
        the buffer empties. A refused write changes nothing. */
    method WriteBlock(f: Flash) returns (ok: bool)
      requires f.Valid() && Holds(f) && bufFill == WRITE_BUF_SIZE
      modifies this`writeAddrOffset, this`bufFill, f
      ensures f.Valid() && f.flashBase == old(f.flashBase) && f.devices == old(f.devices)
      ensures Only(old(f.areas), f.areas, DiffFwPart)
      ensures ok <==> InArea(|old(f.areas[DiffFwPart].bytes)|, old(writeAddrOffset), WRITE_BUF_SIZE)
      ensures ok ==> Streamed(f) && writeAddrOffset == old(writeAddrOffset) + WRITE_BUF_SIZE && bufFill == 0
      ensures !ok ==> (Holds(f) && f.areas == old(f.areas) && writeAddrOffset == old(writeAddrOffset) &&
                       bufFill == WRITE_BUF_SIZE)
    {
      ghost var diff := f.areas[DiffFwPart].bytes;
      var rc := f.Write(DiffFwPart, writeAddrOffset, writeBuf[..]);
      if rc != 0 {
        OnlySame(f.areas, DiffFwPart);
        return false;
      }
      assert writeBuf[..] == out[writeAddrOffset..] + Erased(0);
      BufferLands(out, writeAddrOffset, |diff| - writeAddrOffset, 0);
      writeAddrOffset := writeAddrOffset + WRITE_BUF_SIZE;
      bufFill := 0;
      ok := true;
    }

    /** `cb_write_new` and `cb_write_new_tuz`, which do the same: the data
        joins the stream, a full buffer is programmed at once, and a refused
        program stops the callback with the buffer full. */
    method WriteNew(f: Flash, data: seq<Byte>) returns (ok: bool)
      requires f.Valid() && Streamed(f) && writeAddrOffset % WRITE_BUF_SIZE == 0
      modifies this`writeAddrOffset, this`bufFill, this`out, writeBuf, f
      ensures f.Valid() && f.flashBase == old(f.flashBase) && f.devices == old(f.devices)
      ensures Only(old(f.areas), f.areas, DiffFwPart)
      ensures ok ==> Streamed(f) && writeAddrOffset % WRITE_BUF_SIZE == 0 && out == old(out) + data
      ensures !ok ==> |f.areas[DiffFwPart].bytes| < |old(out)| + |data|
    {
      ghost var areas0 := f.areas;
      OnlySame(areas0, DiffFwPart);
      var len: nat := |data|;
      var p: nat := 0;
      while len > 0
        invariant p + len == |data|
        invariant f.Valid() && f.flashBase == old(f.flashBase) && f.devices == old(f.devices)
        invariant Streamed(f) && writeAddrOffset % WRITE_BUF_SIZE == 0 && out == old(out) + data[..p]
        invariant Only(areas0, f.areas, DiffFwPart)
      {
        ghost var mid := f.areas;
        var q;
        ok, q := CopyRound(f, data, p);
        OnlyTrans(areas0, mid, f.areas, DiffFwPart);
        if !ok {
          return false;
        }
        assert data[..q] == data[..p] + data[p..q];
        len := len - (q - p);
        p := q;
      }
      assert data[..p] == data;
      ok := true;
    }

    /** One round of the callback's loop: as much of data from p as the buffer
        has room for, then the program of a buffer that became full. */
    method CopyRound(f: Flash, data: seq<Byte>, p: nat) returns (ok: bool, q: nat)
      requires f.Valid() && Streamed(f) && writeAddrOffset % WRITE_BUF_SIZE == 0 && p < |data|
      modifies this`writeAddrOffset, this`bufFill, this`out, writeBuf, f
      ensures f.Valid() && f.flashBase == old(f.flashBase) && f.devices == old(f.devices)
      ensures Only(old(f.areas), f.areas, DiffFwPart)
      ensures ok ==> (Streamed(f) && writeAddrOffset % WRITE_BUF_SIZE == 0 &&
                      p < q <= |data| && out == old(out) + data[p..q])
      ensures !ok ==> |f.areas[DiffFwPart].bytes| < |old(out)| + |data| - p
    {
      var space := WRITE_BUF_SIZE - bufFill;
      var toCopy := if |data| - p < space then |data| - p else space;
      Take(f, data, p, toCopy);
      q := p + toCopy;
      ok := true;
      if bufFill == WRITE_BUF_SIZE {
        ok := WriteBlock(f);
      } else {
        OnlySame(f.areas, DiffFwPart);
      }
    }

    /** `flush_write_buffer`: a partly filled buffer is padded with erased
        bytes and programmed whole, and the write offset moves past the bytes
        it held, so the slot ends with the stream and erased bytes after it.
        An empty buffer makes it do nothing, so a second flush is harmless. */
    method Flush(f: Flash) returns (rc: int)
      requires f.Valid() && Streamed(f)
      modifies this`writeAddrOffset, this`bufFill, writeBuf, f
      ensures f.Valid() && f.flashBase == old(f.flashBase) && f.devices == old(f.devices)
      ensures Only(old(f.areas), f.areas, DiffFwPart)
      ensures rc == 0 || rc == -EIO
      ensures old(bufFill) == 0 ==> rc == 0 && f.areas == old(f.areas) && writeAddrOffset == old(writeAddrOffset)
      ensures rc == 0 <==> (old(bufFill) == 0 ||
                            InArea(|old(f.areas[DiffFwPart].bytes)|, old(writeAddrOffset), WRITE_BUF_SIZE))
      ensures rc == 0 ==> Streamed(f) && bufFill == 0 && writeAddrOffset == |out|
      ensures rc != 0 ==> f.areas == old(f.areas) && writeAddrOffset == old(writeAddrOffset)
    {
      OnlySame(f.areas, DiffFwPart);
      if bufFill > 0 {
        ghost var diff := f.areas[DiffFwPart].bytes;
        Pad();
        rc := f.Write(DiffFwPart, writeAddrOffset, writeBuf[..]);
        if rc != 0 {
          return -EIO;
        }
        BufferLands(out, writeAddrOffset, |diff| - writeAddrOffset, WRITE_BUF_SIZE - bufFill);
        writeAddrOffset := writeAddrOffset + bufFill;
        bufFill := 0;
        Settled(f);
      }
      rc := 0;
    }

    /** The `memset` of the free part of the buffer to erased bytes. */
    method Pad()
      requires writeBuf.Length == WRITE_BUF_SIZE && bufFill <= WRITE_BUF_SIZE
      modifies writeBuf
      ensures writeBuf[..] == old(writeBuf[..bufFill]) + Erased(WRITE_BUF_SIZE - bufFill)
    {
      PutBytes(writeBuf, bufFill, Erased(WRITE_BUF_SIZE - bufFill));
    }

    /** An empty buffer with the write offset at the end of a stream that lies
        at the start of diff_fw, erased bytes after it, is a stream in order. */
    lemma Settled(f: Flash)
      requires writeBuf.Length == WRITE_BUF_SIZE && bufFill == 0 && writeAddrOffset == |out|
      requires DiffFwPart in f.areas && Landed(f.areas[DiffFwPart].bytes, out)
      ensures Streamed(f)
    {
      assert out[..writeAddrOffset] == out && writeBuf[..bufFill] == out[writeAddrOffset..];
    }

    /** `cb_read_diff`: size bytes of the download slot at the read offset,
        which then moves past them. Asking for nothing succeeds at once; a
        failed read reports no bytes and leaves the offset. */
    method CbReadDiff(f: Flash, buf: array<Byte>, size: nat) returns (ok: bool, got: nat)
      requires f.Valid() && DownloadPart in f.areas && size <= buf.Length
      modifies this`readDiffOffset, buf
      ensures ok <==> size == 0 || InArea(|f.areas[DownloadPart].bytes|, old(readDiffOffset), size)
      ensures ok ==> got == size && readDiffOffset == old(readDiffOffset) + size
      ensures ok && size > 0 ==>
        buf[..] == Store(old(buf[..]), 0, f.areas[DownloadPart].bytes[old(readDiffOffset)..old(readDiffOffset) + size])
      ensures !ok ==> got == 0 && readDiffOffset == old(readDiffOffset)
      ensures !ok || size == 0 ==> buf[..] == old(buf[..])
    {
      if size == 0 {
        return true, 0;
      }
      var rc := f.ReadInto(DownloadPart, readDiffOffset, buf, 0, size);
      if rc != 0 {
        return false, 0;
      }
      readDiffOffset := readDiffOffset + size;
      ok, got := true, size;
    }
  }

  /** What the HPatchLite library and the tinyuz decoder do, taken as given:
      how many bytes `hpatch_lite_open` reads from the patch stream and whether
      it accepts them, the compression type and new size it reports, whether
      `tuz_TStream_open` succeeds, the blocks `hpatch_lite_patch` hands to the
      write callback in order, and whether it reports success when every
      write callback has succeeded. A refused write makes it fail. */
  datatype Producer = Producer(openReads: nat, accepts: bool, compressType: int, newSize: nat,
                               tuzOpened: bool, output: seq<seq<Byte>>, patched: bool)

  /** The partitions `start_firmware_patch` opens: the old image, the patch and the target. */
  ghost predicate PatchParts(areas: map<PartId, Area>)
  {
    AppPart in areas && DownloadPart in areas && DiffFwPart in areas
  }

  /** Once the partitions are open, the download slot holds a whole header. */
  ghost predicate HeaderReadable(areas: map<PartId, Area>, allocs: nat)
  {
    allocs > 0 && PatchParts(areas) ==> HEADER_SIZE <= |areas[DownloadPart].bytes|
  }

  /** The return code `start_firmware_patch` settles on before it erases
      diff_fw, or 0 when it goes on to the erase: no context, a partition
      missing, a full package, a patch the library does not open (its reads
      start right after the header), then for a tinyuz patch the decoder
      context, the 4-byte skip, the decoder buffer and the decoder's open. */
  ghost function Prepare(areas: map<PartId, Area>, prod: Producer, allocs: nat): (r: int)
    requires HeaderReadable(areas, allocs)
  {
    if allocs == 0 then -ENOMEM
    else if !PatchParts(areas) then -ENODEV
    else
      var dl := areas[DownloadPart].bytes;
      if dl[..4] != DOTA then NorFlash.FULL_PACKAGE_FLAG
      else if !prod.accepts || !(prod.openReads == 0 || InArea(|dl|, HEADER_SIZE, prod.openReads)) then -EFTYPE
      else if prod.compressType != COMPRESS_TUZ then 0
      else if allocs < 2 then -ENOMEM
      else if !InArea(|dl|, HEADER_SIZE + prod.openReads, TUZ_SKIP) then -EIO
      else if allocs < 3 then -ENOMEM
      else if !prod.tuzOpened then -EIO
      else 0
  }

  /** The heap requests made by the time the patch runs: the context and the
      temporary cache, and for a tinyuz patch the decoder context and buffer. */
  function Needed(prod: Producer): nat
  {
    if prod.compressType == COMPRESS_TUZ then 4 else 2
  }

  /** How much of diff_fw an image of n bytes occupies when it is programmed in
      whole 256-byte buffers, the last one padded. */
  function PaddedLength(n: nat): nat
  {
    (n + WRITE_BUF_SIZE - 1) / WRITE_BUF_SIZE * WRITE_BUF_SIZE
  }

  /** A stream of whole buffers and a partial one occupies the whole buffers
      and one more for the partial one, which is never less than the stream. */
  lemma PaddedOf(whole: nat, fill: nat)
    requires whole % WRITE_BUF_SIZE == 0 && fill < WRITE_BUF_SIZE
    ensures PaddedLength(whole + fill) == whole + (if fill == 0 then 0 else WRITE_BUF_SIZE)
  {
    var q := whole / WRITE_BUF_SIZE;
    var x := whole + fill + WRITE_BUF_SIZE - 1;
    if fill == 0 {
      DivUnique(x, WRITE_BUF_SIZE, q, WRITE_BUF_SIZE - 1);
    } else {
      DivUnique(x, WRITE_BUF_SIZE, q + 1, fill - 1);
    }
  }

  lemma PaddedCovers(n: nat)
    ensures n <= PaddedLength(n)
  {
    var q, r := n / WRITE_BUF_SIZE, n % WRITE_BUF_SIZE;
    PaddedOf(q * WRITE_BUF_SIZE, r);
  }

  lemma FlattenStep(blocks: seq<seq<Byte>>, i: nat)
    requires i < |blocks|
    ensures Flatten(blocks[..i + 1]) == Flatten(blocks[..i]) + blocks[i]
  {
    assert blocks[..i + 1][..i] == blocks[..i];
  }

  lemma {:induction false} FlattenPrefix(blocks: seq<seq<Byte>>, j: nat)
    requires j <= |blocks|
    ensures |Flatten(blocks[..j])| <= |Flatten(blocks)|
    decreases |blocks|
  {
    if j < |blocks| {
      var init := blocks[..|blocks| - 1];
      assert blocks[..j] == init[..j];
      FlattenPrefix(init, j);
    } else {
      assert blocks[..j] == blocks;
    }
  }

  /** `hpatch_lite_patch` handing its blocks to the write callback until one
      is refused, which makes the patch fail: the whole output joins the
      stream, or the stream outgrew diff_fw. */
  method Feed(ctx: PatchCtx, f: Flash, blocks: seq<seq<Byte>>) returns (ok: bool)
    requires f.Valid() && ctx.Streamed(f) && ctx.writeAddrOffset % WRITE_BUF_SIZE == 0
    modifies ctx`writeAddrOffset, ctx`bufFill, ctx`out, ctx.writeBuf, f
    ensures f.Valid() && f.flashBase == old(f.flashBase) && f.devices == old(f.devices)
    ensures Only(old(f.areas), f.areas, DiffFwPart)
    ensures ok ==> (ctx.Streamed(f) && ctx.writeAddrOffset % WRITE_BUF_SIZE == 0 &&
                    ctx.out == old(ctx.out) + Flatten(blocks))
    ensures !ok ==> |f.areas[DiffFwPart].bytes| < |old(ctx.out)| + |Flatten(blocks)|
  {
    ghost var areas0 := f.areas;
    OnlySame(areas0, DiffFwPart);
    var i := 0;
    while i < |blocks|
      invariant i <= |blocks|
      invariant f.Valid() && f.flashBase == old(f.flashBase) && f.devices == old(f.devices)
      invariant ctx.Streamed(f) && ctx.writeAddrOffset % WRITE_BUF_SIZE == 0
      invariant ctx.out == old(ctx.out) + Flatten(blocks[..i])
      invariant Only(areas0, f.areas, DiffFwPart)
    {
      ok := FeedBlock(ctx, f, blocks, i, old(ctx.out), areas0);
      if !ok {
        return false;
      }
      i := i + 1;
    }
    assert blocks[..i] == blocks;
    ok := true;
  }

  /** One round of `Feed`: block i to the write callback. */
  method FeedBlock(ctx: PatchCtx, f: Flash, blocks: seq<seq<Byte>>, i: nat,
                   ghost start: seq<Byte>, ghost areas0: map<PartId, Area>) returns (ok: bool)
    requires f.Valid() && ctx.Streamed(f) && ctx.writeAddrOffset % WRITE_BUF_SIZE == 0
    requires i < |blocks| && ctx.out == start + Flatten(blocks[..i]) && Only(areas0, f.areas, DiffFwPart)
    modifies ctx`writeAddrOffset, ctx`bufFill, ctx`out, ctx.writeBuf, f
    ensures f.Valid() && f.flashBase == old(f.flashBase) && f.devices == old(f.devices)
    ensures Only(areas0, f.areas, DiffFwPart)
    ensures ok ==> (ctx.Streamed(f) && ctx.writeAddrOffset % WRITE_BUF_SIZE == 0 &&
                    ctx.out == start + Flatten(blocks[..i + 1]))
    ensures !ok ==> |f.areas[DiffFwPart].bytes| < |start| + |Flatten(blocks)|
  {
    ghost var mid := f.areas;
    FlattenStep(blocks, i);
    ok := ctx.WriteNew(f, blocks[i]);
    OnlyTrans(areas0, mid, f.areas, DiffFwPart);
    if !ok {
      FlattenPrefix(blocks, i + 1);
    }
  }

  /** The slot holds the image at its start and erased bytes after it. */
  ghost predicate Landed(slot: seq<Byte>, img: seq<Byte>)
  {
    |img| <= |slot| && slot == img + Erased(|slot| - |img|)
  }

  /** From the erase of diff_fw to the flush: the erase, the temporary cache,
      the patch and the flush of the last partial buffer. It succeeds exactly
      when the library patches and the image, in whole buffers, fits in diff_fw,
      which then holds the image followed by erased bytes. */
  method RunPatch(ctx: PatchCtx, f: Flash, prod: Producer, allocs: nat) returns (ret: int)
    requires f.Valid() && DiffFwPart in f.areas
    requires ctx.writeBuf.Length == WRITE_BUF_SIZE && ctx.bufFill == 0 && ctx.out == []
    modifies ctx`writeAddrOffset, ctx`bufFill, ctx`out, ctx.writeBuf, f
    ensures f.Valid() && f.flashBase == old(f.flashBase) && f.devices == old(f.devices)
    ensures Only(old(f.areas), f.areas, DiffFwPart)
    ensures allocs < Needed(prod) ==>
      ret == -ENOMEM && f.areas[DiffFwPart].bytes == Erased(|old(f.areas[DiffFwPart].bytes)|)
    ensures allocs >= Needed(prod) ==>
      (ret == 0 || ret == -EIO) &&
      (ret == 0 <==> prod.patched && PaddedLength(|Flatten(prod.output)|) <= |old(f.areas[DiffFwPart].bytes)|)
    ensures ret == 0 ==> Landed(f.areas[DiffFwPart].bytes, Flatten(prod.output))
  {
    ghost var areas0 := f.areas;
    ghost var n := |areas0[DiffFwPart].bytes|;
    EraseWhole(f, DiffFwPart);
    ctx.writeAddrOffset := 0;
    ctx.Settled(f);
    ghost var erased := f.areas;
    if allocs < Needed(prod) {
      return -ENOMEM;
    }
    var img := Flatten(prod.output);
    var fed := Feed(ctx, f, prod.output);
    OnlyTrans(areas0, erased, f.areas, DiffFwPart);
    if !fed {
      PaddedCovers(|img|);
      return -EIO;
    }
    if !prod.patched {
      return -EIO;
    }
    ret := Finish(ctx, f, img, areas0);
  }

  /** The flush after a successful patch: it succeeds exactly when the image,
      in whole buffers, fits in diff_fw. */
  method Finish(ctx: PatchCtx, f: Flash, img: seq<Byte>, ghost areas0: map<PartId, Area>) returns (ret: int)
    requires f.Valid() && ctx.Streamed(f) && ctx.writeAddrOffset % WRITE_BUF_SIZE == 0 && ctx.out == img
    requires Only(areas0, f.areas, DiffFwPart)
    modifies ctx`writeAddrOffset, ctx`bufFill, ctx.writeBuf, f
    ensures f.Valid() && f.flashBase == old(f.flashBase) && f.devices == old(f.devices)
    ensures Only(areas0, f.areas, DiffFwPart)
    ensures ret == 0 || ret == -EIO
    ensures ret == 0 <==> PaddedLength(|img|) <= |areas0[DiffFwPart].bytes|
    ensures ret == 0 ==> Landed(f.areas[DiffFwPart].bytes, img)
  {
    ghost var whole, fill := ctx.writeAddrOffset, ctx.bufFill;
    ghost var mid := f.areas;
    ret := ctx.Flush(f);
    OnlyTrans(areas0, mid, f.areas, DiffFwPart);
    FlushFits(whole, fill, |areas0[DiffFwPart].bytes|);
  }

  /** The flush succeeds exactly when the image, in whole buffers, fits. */
  lemma FlushFits(whole: nat, fill: nat, n: nat)
    requires whole % WRITE_BUF_SIZE == 0 && fill < WRITE_BUF_SIZE && whole <= n
    ensures (fill == 0 || InArea(n, whole, WRITE_BUF_SIZE)) <==> PaddedLength(whole + fill) <= n
  {
    PaddedOf(whole, fill);
  }

  /** `start_firmware_patch`: with the heap, the partitions and a readable
      header, it returns what `Prepare` decides, changing nothing, or else
      erases diff_fw and returns what the patch and the flush make of it.
      On success it reports the library's new size cut to 32 bits and the
      header's `new_crc`; otherwise the caller's values stay. */
  method StartFirmwarePatch(f: Flash, prod: Producer, allocs: nat, size0: U32, crc0: U32)
    returns (ret: int, newSize: U32, newCrc: U32)
    requires f.Valid()
    modifies f
    ensures f.Valid() && f.flashBase == old(f.flashBase) && f.devices == old(f.devices)
    ensures f.areas == old(f.areas) || Only(old(f.areas), f.areas, DiffFwPart)
    ensures ret != 0 ==> newSize == size0 && newCrc == crc0
    ensures ret == 0 ==> (PatchParts(old(f.areas)) && newSize == Wrap32(prod.newSize) &&
                          Landed(f.areas[DiffFwPart].bytes, Flatten(prod.output)))
    ensures ret == 0 && HEADER_SIZE <= |old(f.areas[DownloadPart].bytes)| ==>
      newCrc == Get(Uint32, old(f.areas[DownloadPart].bytes), NEW_CRC_AT)
    ensures HeaderReadable(old(f.areas), allocs) && Prepare(old(f.areas), prod, allocs) != 0 ==>
      ret == Prepare(old(f.areas), prod, allocs) && f.areas == old(f.areas)
    ensures HeaderReadable(old(f.areas), allocs) && Prepare(old(f.areas), prod, allocs) == 0 ==>
      var diff := old(f.areas[DiffFwPart].bytes);
      (allocs < Needed(prod) ==> ret == -ENOMEM && f.areas[DiffFwPart].bytes == Erased(|diff|)) &&
      (allocs >= Needed(prod) ==>
        (ret == 0 || ret == -EIO) &&
        (ret == 0 <==> prod.patched && PaddedLength(|Flatten(prod.output)|) <= |diff|))
  {
    newSize, newCrc := size0, crc0;
    if allocs == 0 {
      return -ENOMEM, newSize, newCrc;
    }
    var ctx := new PatchCtx();
    if AppPart !in f.areas || DownloadPart !in f.areas || DiffFwPart !in f.areas {
      return -ENODEV, newSize, newCrc;
    }
    var header, pre := OpenPatch(ctx, f, prod, allocs);
    if pre != 0 {
      return pre, newSize, newCrc;
    }
    ret := RunPatch(ctx, f, prod, allocs);
    if ret == 0 {
      newSize, newCrc := Wrap32(prod.newSize), Get(Uint32, header, NEW_CRC_AT);
      ghost var dl := old(f.areas[DownloadPart].bytes);
      if HEADER_SIZE <= |dl| {
        NorFlash.GetOfPrefix(dl, header, NEW_CRC_AT);
      }
    }
  }

  /** `start_firmware_patch` from the header read to the decoder's open, with
      the context allocated and the partitions open. A failed header read
      leaves the header buffer as it was, uninitialised. */
  method OpenPatch(ctx: PatchCtx, f: Flash, prod: Producer, allocs: nat) returns (header: seq<Byte>, pre: int)
    requires f.Valid() && allocs > 0 && PatchParts(f.areas)
    modifies ctx`readDiffOffset
    ensures |header| == HEADER_SIZE
    ensures HEADER_SIZE <= |f.areas[DownloadPart].bytes| ==>
      header == f.areas[DownloadPart].bytes[..HEADER_SIZE] && pre == Prepare(f.areas, prod, allocs)
  {
    var buf := new Byte[HEADER_SIZE];
    var rc := f.ReadInto(DownloadPart, 0, buf, 0, HEADER_SIZE);
    header := buf[..];
    if header[..4] != DOTA {
      return header, NorFlash.FULL_PACKAGE_FLAG;
    }
    ctx.readDiffOffset := HEADER_SIZE;
    var scratch := new Byte[prod.openReads];
    var ok, got := ctx.CbReadDiff(f, scratch, prod.openReads);
    if !ok || !prod.accepts {
      return header, -EFTYPE;
    }
    pre := 0;
    if prod.compressType == COMPRESS_TUZ {
      pre := OpenTuz(ctx, f, prod, allocs);
    }
  }

  /** The tinyuz branch: the decoder context, the skip of the stream's 4-byte
      header through the read callback, the decoder buffer and its open. */
  method OpenTuz(ctx: PatchCtx, f: Flash, prod: Producer, allocs: nat) returns (pre: int)
    requires f.Valid() && DownloadPart in f.areas
    modifies ctx`readDiffOffset
    ensures pre == (if allocs < 2 then -ENOMEM
                    else if !InArea(|f.areas[DownloadPart].bytes|, old(ctx.readDiffOffset), TUZ_SKIP) then -EIO
                    else if allocs < 3 then -ENOMEM
                    else if !prod.tuzOpened then -EIO
                    else 0)
  {
    if allocs < 2 {
      return -ENOMEM;
    }
    var dummy := new Byte[TUZ_SKIP];
    var ok, got := ctx.CbReadDiff(f, dummy, TUZ_SKIP);
    if !ok {
      return -EIO;
    }
    if allocs < 3 {
      return -ENOMEM;
    }
    if !prod.tuzOpened {
      return -EIO;
    }
    pre := 0;
  }

  /** `flash_copy_to_internal`: the application partition is erased whole,
      then, if the copy buffer is allocated, the first n bytes of diff_fw are
      copied to its start 4096 bytes at a time. The source opens both
      partitions without checking, so they must be there. */
  method FlashCopyToInternal(f: Flash, n: U32, allocs: nat) returns (ret: int)
    requires f.Valid() && DiffFwPart in f.areas && AppPart in f.areas
    modifies f
    ensures f.Valid() && f.flashBase == old(f.flashBase) && f.devices == old(f.devices)
    ensures ret == 0 || ret == -ENOMEM
    ensures ret == -ENOMEM <==> allocs == 0
    ensures ret == -ENOMEM ==>
      f.areas == old(f.areas)[AppPart := Area(old(f.areas[AppPart].off), Erased(|old(f.areas[AppPart].bytes)|))]
    ensures ret == 0 ==> Filled(old(f.areas), f.areas, DiffFwPart, AppPart, n)
  {
    if allocs == 0 {
      EraseWhole(f, AppPart);
      return -ENOMEM;
    }
    var copyBuf := new Byte[COPY_BLOCK];
    FillFrom(f, DiffFwPart, AppPart, n, copyBuf, COPY_BLOCK);
    ret := 0;
  }

  /** `verify_internal_firmware`: the CRC-32 of the first fwSize bytes of the
      application partition, 1024 bytes at a time, against crc; 0 when they
      agree, -EFAULT when not. */
  method VerifyInternalFirmware(f: Flash, fwSize: U32, crc: U32) returns (ret: int)
    requires f.Valid() && AppPart in f.areas
    ensures ret == 0 || ret == -EFAULT
    ensures fwSize <= |f.areas[AppPart].bytes| ==>
      (ret == 0 <==> Crc32(f.areas[AppPart].bytes[..fwSize]) as int == crc)
  {
    var verifyBuf := new Byte[VERIFY_BLOCK];
    var ccrc := PrefixCrc(f, AppPart, fwSize, verifyBuf, VERIFY_BLOCK);
    ret := if ccrc as int == crc then 0 else -EFAULT;
  }

  /** The partitions after a successful update: diff_fw holds the rebuilt
      image and erased bytes, the application partition the first size bytes
      of diff_fw and erased bytes, with the CRC-32 the header promised, and
      arg_info, when it has room, the record of that image. Nothing else
      changed. */
  ghost predicate Updated(before: map<PartId, Area>, after: map<PartId, Area>, flashBase: U32, prod: Producer)
  {
    UpdateFrame(before, after) && ImageInstalled(before, after, prod) && ImageRecorded(before, after, flashBase, prod)
  }

  /** Only diff_fw, the application partition and arg_info change, and the
      application partition keeps its place and size. */
  ghost predicate UpdateFrame(before: map<PartId, Area>, after: map<PartId, Area>)
  {
    PatchParts(before) && after.Keys == before.Keys &&
    (forall p :: p in before && p != DiffFwPart && p != AppPart && p != ArgPart ==> after[p] == before[p]) &&
    after[AppPart].off == before[AppPart].off && |after[AppPart].bytes| == |before[AppPart].bytes|
  }

  ghost predicate ImageInstalled(before: map<PartId, Area>, after: map<PartId, Area>, prod: Producer)
    requires UpdateFrame(before, after)
  {
    var size, dl := Wrap32(prod.newSize), before[DownloadPart].bytes;
    var diff, app := after[DiffFwPart].bytes, after[AppPart].bytes;
    Landed(diff, Flatten(prod.output)) &&
    (size <= |diff| && size <= |app| ==> app == diff[..size] + Erased(|app| - size)) &&
    (size <= |app| && HEADER_SIZE <= |dl| ==> Crc32(app[..size]) as int == Get(Uint32, dl, NEW_CRC_AT))
  }

  ghost predicate ImageRecorded(before: map<PartId, Area>, after: map<PartId, Area>, flashBase: U32, prod: Producer)
    requires UpdateFrame(before, after)
  {
    var size, app := Wrap32(prod.newSize), after[AppPart].bytes;
    size <= |app| && ArgPart in before && |before[ArgPart].bytes| >= ARG_INFO_BYTE_NUMBER ==>
      DecodeArgInfo(after[ArgPart].bytes) == Some(ArgRecord(Base(flashBase, after[AppPart]), size, Crc32(app[..size]) as int))
  }

  /** The patch itself (after `Prepare` let it through) succeeds: the heap
      holds its buffers, the library patches and the image fits diff_fw. */
  ghost predicate PatchOk(areas: map<PartId, Area>, prod: Producer, allocs: nat)
    requires PatchParts(areas)
  {
    allocs >= Needed(prod) && prod.patched && PaddedLength(|Flatten(prod.output)|) <= |areas[DiffFwPart].bytes|
  }

  /** The code `ota_update_task` returns for a package `Prepare` lets through
      (a "DOTA" header the library opens): -ENOMEM without the patch's
      buffers, -EIO when the patch or its flush fails, -ENOMEM without the copy
      buffer, and otherwise 0 or -EFAULT, -EFAULT exactly when the first size
      bytes of the application partition after the copy do not have the CRC-32
      the header promised. Never the full-package flag. */
  ghost predicate UpdateCode(before: map<PartId, Area>, after: map<PartId, Area>, prod: Producer,
                             allocs: nat, copyAllocs: nat, ret: int)
    requires HeaderReadable(before, allocs) && Prepare(before, prod, allocs) == 0
  {
    var size, dl := Wrap32(prod.newSize), before[DownloadPart].bytes;
    (allocs < Needed(prod) ==> ret == -ENOMEM) &&
    (allocs >= Needed(prod) && !PatchOk(before, prod, allocs) ==> ret == -EIO) &&
    (PatchOk(before, prod, allocs) && copyAllocs == 0 ==> ret == -ENOMEM) &&
    (PatchOk(before, prod, allocs) && copyAllocs > 0 ==>
      (ret == 0 || ret == -EFAULT) && AppPart in after &&
      (size <= |after[AppPart].bytes| ==>
        (ret == -EFAULT <==> Crc32(after[AppPart].bytes[..size]) as int != Get(Uint32, dl, NEW_CRC_AT))))
  }

  /** `ota_update_task`: patch, copy, verify, record, stopping at the first
      step that fails and returning its code; a record that cannot be written
      still leaves 0. A failed patch returns what `Prepare` decided, and only
      success touches arg_info. */
  method OtaUpdateTask(f: Flash, prod: Producer, allocs: nat, copyAllocs: nat) returns (ret: int)
    requires f.Valid()
    modifies f
    ensures f.Valid() && f.flashBase == old(f.flashBase) && f.devices == old(f.devices)
    ensures HeaderReadable(old(f.areas), allocs) && Prepare(old(f.areas), prod, allocs) != 0 ==>
      ret == Prepare(old(f.areas), prod, allocs) && f.areas == old(f.areas)
    ensures HeaderReadable(old(f.areas), allocs) && Prepare(old(f.areas), prod, allocs) == 0 ==>
      ret <= 0 && UpdateCode(old(f.areas), f.areas, prod, allocs, copyAllocs, ret)
    ensures ret != 0 ==> (f.areas.Keys == old(f.areas).Keys &&
                          (ArgPart in old(f.areas) ==> f.areas[ArgPart] == old(f.areas)[ArgPart]))
    ensures ret == 0 ==> Updated(old(f.areas), f.areas, f.flashBase, prod)
  {
    ghost var a0 := f.areas;
    var size, crc;
    ret, size, crc := StartFirmwarePatch(f, prod, allocs, 0, 0);
    if ret != 0 {
      return;
    }
    ghost var a1 := f.areas;
    ret := FlashCopyToInternal(f, size, copyAllocs);
    if ret != 0 {
      return;
    }
    ghost var a2 := f.areas;
    ret := VerifyInternalFirmware(f, size, crc);
    if ret != 0 {
      return;
    }
    var recorded := DiffInfoCopy(f, size, crc);
    UpdateDone(a0, a1, a2, f.areas, f.flashBase, prod, size, crc, recorded);
  }

  /** The three steps' effects compose into `Updated`. */
  lemma UpdateDone(a0: map<PartId, Area>, a1: map<PartId, Area>, a2: map<PartId, Area>, a3: map<PartId, Area>,
                   flashBase: U32, prod: Producer, size: U32, crc: U32, recorded: bool)
    requires PatchParts(a0) && (a1 == a0 || Only(a0, a1, DiffFwPart))
    requires size == Wrap32(prod.newSize) && Landed(a1[DiffFwPart].bytes, Flatten(prod.output))
    requires HEADER_SIZE <= |a0[DownloadPart].bytes| ==> crc == Get(Uint32, a0[DownloadPart].bytes, NEW_CRC_AT)
    requires Filled(a1, a2, DiffFwPart, AppPart, size)
    requires size <= |a2[AppPart].bytes| ==> Crc32(a2[AppPart].bytes[..size]) as int == crc
    requires recorded <==> ArgPart in a2 && AppPart in a2 && |a2[ArgPart].bytes| >= ARG_INFO_BYTE_NUMBER
    requires recorded ==> a3 == ArgInfoCommitted(a2, flashBase, size, crc)
    requires !recorded ==> (a3 == a2 ||
      (ArgPart in a2 && a3 == a2[ArgPart := Area(a2[ArgPart].off, Erased(|a2[ArgPart].bytes|))]))
    ensures Updated(a0, a3, flashBase, prod)
  {
    ArgStep(a2, a3, flashBase, size, crc, recorded);
    FrameDone(a0, a1, a2, a3);
    Installed(a0, a1, a2, a3, prod, size, crc);
    Recorded(a0, a2, a3, flashBase, prod, size, crc, recorded);
  }

  /** Patch, copy and record each keep to their partitions, so together they keep the rest. */
  lemma FrameDone(a0: map<PartId, Area>, a1: map<PartId, Area>, a2: map<PartId, Area>, a3: map<PartId, Area>)
    requires PatchParts(a0) && (a1 == a0 || Only(a0, a1, DiffFwPart)) && Only(a1, a2, AppPart)
    requires a3.Keys == a2.Keys && forall p :: p in a2 && p != ArgPart ==> a3[p] == a2[p]
    ensures UpdateFrame(a0, a3) && a3[DiffFwPart] == a1[DiffFwPart] && a3[AppPart] == a2[AppPart]
    ensures |a1[AppPart].bytes| == |a2[AppPart].bytes|
    ensures ArgPart in a0 ==> ArgPart in a2 && a2[ArgPart] == a0[ArgPart]
  {
    assert a1.Keys == a0.Keys && forall p :: p in a0 && p != DiffFwPart ==> a1[p] == a0[p];
    assert a2.Keys == a1.Keys && forall p :: p in a1 && p != AppPart ==> a2[p] == a1[p];
  }

  /** The record side of `UpdateDone`. */
  lemma Recorded(a0: map<PartId, Area>, a2: map<PartId, Area>, a3: map<PartId, Area>,
                 flashBase: U32, prod: Producer, size: U32, crc: U32, recorded: bool)
    requires UpdateFrame(a0, a3) && a3.Keys == a2.Keys && a3[AppPart] == a2[AppPart]
    requires ArgPart in a0 ==> ArgPart in a2 && a2[ArgPart] == a0[ArgPart]
    requires size == Wrap32(prod.newSize)
    requires size <= |a2[AppPart].bytes| ==> Crc32(a2[AppPart].bytes[..size]) as int == crc
    requires recorded <==> ArgPart in a2 && AppPart in a2 && |a2[ArgPart].bytes| >= ARG_INFO_BYTE_NUMBER
    requires recorded ==> DecodeArgInfo(a3[ArgPart].bytes) == Some(ArgRecord(Base(flashBase, a2[AppPart]), size, crc))
    ensures ImageRecorded(a0, a3, flashBase, prod)
  {
    var app := a3[AppPart].bytes;
    if size <= |app| && ArgPart in a0 && |a0[ArgPart].bytes| >= ARG_INFO_BYTE_NUMBER {
      assert recorded;
    }
  }

  /** What `bl_diff_info_copy` changes: arg_info alone, holding the record when written. */
  lemma ArgStep(a2: map<PartId, Area>, a3: map<PartId, Area>, flashBase: U32, size: U32, crc: U32, recorded: bool)
    requires recorded <==> ArgPart in a2 && AppPart in a2 && |a2[ArgPart].bytes| >= ARG_INFO_BYTE_NUMBER
    requires recorded ==> a3 == ArgInfoCommitted(a2, flashBase, size, crc)
    requires !recorded ==> (a3 == a2 ||
      (ArgPart in a2 && a3 == a2[ArgPart := Area(a2[ArgPart].off, Erased(|a2[ArgPart].bytes|))]))
    ensures a3.Keys == a2.Keys && forall p :: p in a2 && p != ArgPart ==> a3[p] == a2[p]
    ensures recorded ==> DecodeArgInfo(a3[ArgPart].bytes) == Some(ArgRecord(Base(flashBase, a2[AppPart]), size, crc))
  {
    if recorded {
      DiffInfoReadBack(a2, flashBase, size, crc);
    }
  }

  /** The image side of `UpdateDone`. */
  lemma Installed(a0: map<PartId, Area>, a1: map<PartId, Area>, a2: map<PartId, Area>, a3: map<PartId, Area>,
                  prod: Producer, size: U32, crc: U32)
    requires UpdateFrame(a0, a3) && Filled(a1, a2, DiffFwPart, AppPart, size)
    requires size == Wrap32(prod.newSize) && Landed(a1[DiffFwPart].bytes, Flatten(prod.output))
    requires a3[DiffFwPart] == a1[DiffFwPart] && a3[AppPart] == a2[AppPart]
    requires HEADER_SIZE <= |a0[DownloadPart].bytes| ==> crc == Get(Uint32, a0[DownloadPart].bytes, NEW_CRC_AT)
    requires size <= |a2[AppPart].bytes| ==> Crc32(a2[AppPart].bytes[..size]) as int == crc
    ensures ImageInstalled(a0, a3, prod)
  {
    var diff, app := a3[DiffFwPart].bytes, a3[AppPart].bytes;
    assert |a1[AppPart].bytes| == |app|;
  }
}

=== FILE: meta_desc.dfy ===
/** The firmware metadata record (`meta_desc_info_t`) as it lies in the meta
    partition: twelve fields in declaration order, each 32-bit word stored
    little-endian, with an 8-byte version string after the first four words.
    `meta_desc_init` becomes a function from the record it overwrites to the
    initialised record. */
module MetaDesc {
  import opened Arith
  import opened Wrappers
  import opened Bitos
  import opened Crc

  const META_MAGIC: U32 := 0x1A2B_3C4D
  /** `sizeof(meta_desc_info_t)`: eleven words and the version. */
  const META_SIZE: nat := 52
  const VERSION_SIZE: nat := 8

  /** `firmware_state_t`. */
  datatype FirmwareState = Unset | New | Stable | Bad

  function StateCode(s: FirmwareState): U32
  {
    match s
    case Unset => 0
    case New => 0x11
    case Stable => 0x12
    case Bad => 0x13
  }

  /** The state a stored code names, if any. */
  function StateOf(c: U32): (r: Option<FirmwareState>)
    ensures r.Some? ==> StateCode(r.value) == c
    ensures r.None? ==> forall s: FirmwareState :: StateCode(s) != c
  {
    if c == 0 then Some(Unset)
    else if c == 0x11 then Some(New)
    else if c == 0x12 then Some(Stable)
    else if c == 0x13 then Some(Bad)
    else None
  }

  lemma StateCodeRoundTrip(s: FirmwareState)
    ensures StateOf(StateCode(s)) == Some(s)
  {}

  type Version = s: seq<Byte> | |s| == 8 witness [0, 0, 0, 0, 0, 0, 0, 0]

  datatype Meta = Meta(
    magic: U32,
    firmwareAddr: U32,
    firmwareSize: U32,
    firmwareCrc: U32,
    version: Version,
    faildCount: U32,
    state: FirmwareState,
    sequenceNumber: U32,
    downloadLen: U32,
    targetCrc: U32,
    isProgram: U32,
    structCcrc: U32)

  /** The members of the record, for `OFFSET_OF`. */
  datatype Field =
    | Magic | FirmwareAddr | FirmwareSize | FirmwareCrc | FirmwareVersion | FaildCount
    | FirmwareStateField | SequenceNumber | DownloadLen | TargetCrc | IsProgram | StructCcrc

  const FIELD_COUNT: nat := 12

  /** The field declared in position i. */
  function FieldNo(i: nat): Field
    requires i < FIELD_COUNT
  {
    if i == 0 then Magic else if i == 1 then FirmwareAddr else if i == 2 then FirmwareSize
    else if i == 3 then FirmwareCrc else if i == 4 then FirmwareVersion else if i == 5 then FaildCount
    else if i == 6 then FirmwareStateField else if i == 7 then SequenceNumber
    else if i == 8 then DownloadLen else if i == 9 then TargetCrc else if i == 10 then IsProgram
    else StructCcrc
  }

  function FieldWidth(f: Field): nat
  {
    if f == FirmwareVersion then VERSION_SIZE else 4
  }

  function Index(f: Field): (i: nat)
    ensures i < FIELD_COUNT && FieldNo(i) == f
  {
    match f
    case Magic => 0
    case FirmwareAddr => 1
    case FirmwareSize => 2
    case FirmwareCrc => 3
    case FirmwareVersion => 4
    case FaildCount => 5
    case FirmwareStateField => 6
    case SequenceNumber => 7
    case DownloadLen => 8
    case TargetCrc => 9
    case IsProgram => 10
    case StructCcrc => 11
  }

  /** The widths of the first n fields of the layout. */
  function SumWidths(n: nat): nat
    requires n <= FIELD_COUNT
  {
    if n == 0 then 0 else SumWidths(n - 1) + FieldWidth(FieldNo(n - 1))
  }

  /** `OFFSET_OF(meta_desc_info_t, f)`: the widths of the fields declared before f. */
  function OffsetOf(f: Field): nat
  {
    SumWidths(Index(f))
  }

  /** The word a 32-bit field holds (a state is stored as its code). */
  function WordOf(m: Meta, f: Field): U32
    requires f != FirmwareVersion
  {
    match f
    case Magic => m.magic
    case FirmwareAddr => m.firmwareAddr
    case FirmwareSize => m.firmwareSize
    case FirmwareCrc => m.firmwareCrc
    case FaildCount => m.faildCount
    case FirmwareStateField => StateCode(m.state)
    case SequenceNumber => m.sequenceNumber
    case DownloadLen => m.downloadLen
    case TargetCrc => m.targetCrc
    case IsProgram => m.isProgram
    case StructCcrc => m.structCcrc
  }

  function FieldBytes(m: Meta, f: Field): (r: seq<Byte>)
    ensures |r| == FieldWidth(f)
  {
    if f == FirmwareVersion then m.version else Word(WordOf(m, f))
  }

  /** The words declared before the version, and those after it. */
  function HeadWords(m: Meta): (ws: seq<U32>)
    ensures |ws| == 4
  {
    [m.magic, m.firmwareAddr, m.firmwareSize, m.firmwareCrc]
  }

  function TailWords(m: Meta): (ws: seq<U32>)
    ensures |ws| == 7
  {
    [m.faildCount, StateCode(m.state), m.sequenceNumber, m.downloadLen, m.targetCrc, m.isProgram,
      m.structCcrc]
  }

  /** The bytes of the record, as `flash_area_write(fa, 0, meta, sizeof(meta_desc_info_t))`
      stores them: the fields in declaration order, without padding. */
  function EncodeMeta(m: Meta): (r: seq<Byte>)
    ensures |r| == META_SIZE
  {
    Words(HeadWords(m)) + m.version + Words(TailWords(m))
  }

  /** The offsets `OFFSET_OF` yields, from the declared widths. */
  lemma Offsets(f: Field)
    ensures OffsetOf(f) == match f
      case Magic => 0
      case FirmwareAddr => 4
      case FirmwareSize => 8
      case FirmwareCrc => 12
      case FirmwareVersion => 16
      case FaildCount => 24
      case FirmwareStateField => 28
      case SequenceNumber => 32
      case DownloadLen => 36
      case TargetCrc => 40
      case IsProgram => 44
      case StructCcrc => 48
    ensures OffsetOf(f) + FieldWidth(f) <= META_SIZE
    ensures SumWidths(FIELD_COUNT) == META_SIZE
  {
    assert SumWidths(1) == 4;
    assert SumWidths(2) == 8;
    assert SumWidths(3) == 12;
    assert SumWidths(4) == 16;
    assert SumWidths(5) == 24;
    assert SumWidths(6) == 28;
    assert SumWidths(7) == 32;
    assert SumWidths(8) == 36;
    assert SumWidths(9) == 40;
    assert SumWidths(10) == 44;
    assert SumWidths(11) == 48;
    assert SumWidths(12) == 52;
  }

  lemma OffsetFormula(f: Field)
    ensures OffsetOf(f) == if Index(f) <= 4 then 4 * Index(f) else 4 * Index(f) + 4
    ensures OffsetOf(f) + FieldWidth(f) <= META_SIZE
  {
    Offsets(f);
  }

  lemma HeadWordAt(m: Meta, i: nat)
    requires i < 4
    ensures EncodeMeta(m)[4 * i..4 * i + 4] == Word(HeadWords(m)[i])
  {
    var h := Words(HeadWords(m));
    assert EncodeMeta(m) == h + (m.version + Words(TailWords(m)));
    SliceOfPrefix(h, m.version + Words(TailWords(m)), 4 * i, 4 * i + 4);
    WordsSlice(HeadWords(m), i);
  }

  lemma TailWordAt(m: Meta, j: nat)
    requires j < 7
    ensures EncodeMeta(m)[24 + 4 * j..28 + 4 * j] == Word(TailWords(m)[j])
  {
    WordsSlice(TailWords(m), j);
    SliceOfAppend(Words(HeadWords(m)) + m.version, Words(TailWords(m)), 4 * j, 4 * j + 4);
  }

  /** Where each word field sits among the head and tail words. */
  lemma WordOfPosition(m: Meta, f: Field)
    requires f != FirmwareVersion
    ensures Index(f) < 4 ==> WordOf(m, f) == HeadWords(m)[Index(f)]
    ensures Index(f) > 4 ==> WordOf(m, f) == TailWords(m)[Index(f) - 5]
  {}

  /** `OFFSET_OF(f)` locates f's bytes in the stored record. */
  lemma FieldAt(m: Meta, f: Field)
    ensures OffsetOf(f) + FieldWidth(f) <= META_SIZE
    ensures EncodeMeta(m)[OffsetOf(f)..OffsetOf(f) + FieldWidth(f)] == FieldBytes(m, f)
  {
    OffsetFormula(f);
    var i := Index(f);
    if i < 4 {
      HeadWordAt(m, i);
      WordOfPosition(m, f);
    } else if i > 4 {
      TailWordAt(m, i - 5);
      WordOfPosition(m, f);
    } else {
      assert f == FirmwareVersion;
    }
  }

  /** A 32-bit load at `OFFSET_OF(f)` of the stored record reads the field's word. */
  lemma WordAt(m: Meta, f: Field)
    requires f != FirmwareVersion
    ensures OffsetOf(f) + 4 <= META_SIZE
    ensures Get(Uint32, EncodeMeta(m), OffsetOf(f)) == WordOf(m, f)
  {
    FieldAt(m, f);
    WordRoundTrip(WordOf(m, f));
  }

  /** The record held by 52 stored bytes; none when the state word is not a `firmware_state_t`. */
  function DecodeMeta(b: seq<Byte>): Option<Meta>
    requires |b| == META_SIZE
  {
    var h, t := WordsIn(b[..16]), WordsIn(b[24..]);
    match StateOf(t[1])
    case None => None
    case Some(s) => Some(Meta(h[0], h[1], h[2], h[3], b[16..24], t[0], s, t[2], t[3], t[4], t[5], t[6]))
  }

  /** Reading back a stored record gives the record. */
  lemma DecodeEncodeMeta(m: Meta)
    ensures DecodeMeta(EncodeMeta(m)) == Some(m)
  {
    var b := EncodeMeta(m);
    assert b[..16] == Words(HeadWords(m)) && b[16..24] == m.version && b[24..] == Words(TailWords(m));
    WordsInWords(HeadWords(m));
    WordsInWords(TailWords(m));
    StateCodeRoundTrip(m.state);
  }

  /** A decoded record stores back to exactly the bytes it was read from. */
  lemma EncodeDecodeMeta(b: seq<Byte>, m: Meta)
    requires |b| == META_SIZE && DecodeMeta(b) == Some(m)
    ensures EncodeMeta(m) == b
  {
    var h, v, t := b[..16], b[16..24], b[24..];
    assert Words(HeadWords(m)) == h && m.version == v && Words(TailWords(m)) == t by {
      DecodedWords(b, m);
      WordsWordsIn(h);
      WordsWordsIn(t);
    }
    assert b == h + v + t;
  }

  lemma DecodedWords(b: seq<Byte>, m: Meta)
    requires |b| == META_SIZE && DecodeMeta(b) == Some(m)
    ensures HeadWords(m) == WordsIn(b[..16]) && TailWords(m) == WordsIn(b[24..])
    ensures m.version == b[16..24]
  {
    var h, t := WordsIn(b[..16]), WordsIn(b[24..]);
    assert HeadWords(m) == h;
    assert TailWords(m) == t;
  }

  /** The bytes of an ASCII text. */
  function Ascii(t: string): (r: seq<Byte>)
    requires forall i :: 0 <= i < |t| ==> t[i] as int < 0x100
    ensures |r| == |t|
    ensures forall i :: 0 <= i < |t| ==> r[i] == t[i] as int
  {
    seq(|t|, i requires 0 <= i < |t| => t[i] as int)
  }

  /** The text a NUL-terminated buffer holds: its bytes up to the first NUL. */
  function CString(s: seq<Byte>): seq<Byte>
    decreases |s|
  {
    if s == [] || s[0] == 0 then [] else [s[0]] + CString(s[1..])
  }

  lemma {:induction false} CStringOfTerminated(t: seq<Byte>, rest: seq<Byte>)
    requires forall i :: 0 <= i < |t| ==> t[i] != 0
    ensures CString(t + [0] + rest) == t
    decreases |t|
  {
    if t != [] {
      assert (t + [0] + rest)[1..] == t[1..] + [0] + rest;
      CStringOfTerminated(t[1..], rest);
    }
  }

  /** `strcpy(field, src)` into an 8-byte field: the text, its NUL, and the field's old tail. */
  function StrCpy(field: Version, src: seq<Byte>): (r: Version)
    requires |src| < VERSION_SIZE
    requires forall i :: 0 <= i < |src| ==> src[i] != 0
    ensures CString(r) == src
    ensures r[|src| + 1..] == field[|src| + 1..]
  {
    CStringOfTerminated(src, field[|src| + 1..]);
    src + [0] + field[|src| + 1..]
  }

  /** `meta_desc_init(meta)` applied to the record prev. The CRC length is the
      subtraction of two pointers of different types, which has no defined byte
      count, so the number of leading record bytes it covers is the parameter
      covered. */
  function MetaDescInit(prev: Meta, covered: nat): (r: Meta)
    requires covered <= META_SIZE
    ensures r.magic == META_MAGIC && r.state == Unset
    ensures r.firmwareAddr == 0 && r.firmwareSize == 0 && r.firmwareCrc == 0 && r.faildCount == 0
    ensures r.sequenceNumber == 0 && r.downloadLen == 0 && r.targetCrc == 0 && r.isProgram == 0
    ensures CString(r.version) == Ascii("NULL") && r.version[5..] == prev.version[5..]
    ensures r.structCcrc < 0x1_0000
  {
    var m := Meta(META_MAGIC, 0, 0, 0, StrCpy(prev.version, Ascii("NULL")), 0, Unset, 0, 0, 0, 0,
      prev.structCcrc);
    m.(structCcrc := Crc16(0, EncodeMeta(m)[..covered]))
  }

  /** The stored record is the part before `struct_ccrc` followed by `struct_ccrc`. */
  lemma SplitAtCcrc(m: Meta)
    ensures EncodeMeta(m) == Words(HeadWords(m)) + m.version + Words(TailWords(m)[..6]) + Word(m.structCcrc)
  {
    var t := TailWords(m);
    assert t == t[..6] + [m.structCcrc];
    WordsAppend(t[..6], [m.structCcrc]);
  }

  /** The bytes before `struct_ccrc` do not depend on it. */
  lemma PrefixIgnoresCcrc(m: Meta, x: U32, covered: nat)
    requires covered <= OffsetOf(StructCcrc)
    ensures covered <= META_SIZE
    ensures EncodeMeta(m.(structCcrc := x))[..covered] == EncodeMeta(m)[..covered]
  {
    Offsets(StructCcrc);
    var m' := m.(structCcrc := x);
    assert HeadWords(m') == HeadWords(m) && TailWords(m')[..6] == TailWords(m)[..6];
    var p := Words(HeadWords(m)) + m.version + Words(TailWords(m)[..6]);
    SplitAtCcrc(m);
    SplitAtCcrc(m');
    SliceOfPrefix(p, Word(m.structCcrc), 0, covered);
    SliceOfPrefix(p, Word(x), 0, covered);
  }

  /** When the covered prefix stops before `struct_ccrc`, the initialised record
      carries the CRC of its own stored prefix. */
  lemma InitSealHolds(prev: Meta, covered: nat)
    requires covered <= OffsetOf(StructCcrc)
    ensures covered <= META_SIZE
    ensures var r := MetaDescInit(prev, covered);
      r.structCcrc == Crc16(0, EncodeMeta(r)[..covered])
  {
    Offsets(StructCcrc);
    var m := Meta(META_MAGIC, 0, 0, 0, StrCpy(prev.version, Ascii("NULL")), 0, Unset, 0, 0, 0, 0,
      prev.structCcrc);
    var r := MetaDescInit(prev, covered);
    assert r == m.(structCcrc := Crc16(0, EncodeMeta(m)[..covered]));
    PrefixIgnoresCcrc(m, r.structCcrc, covered);
  }
}

=== FILE: norflash.dfy ===
/** `norflash.c`: the external-flash side of the bootloader. The meta record
    and the download, diff_fw and active-backup slots are partitions of the
    external NOR flash; the partition pointer is a word at the start of a raw
    NOR device. Every operation runs under one mutex, so each is atomic here.
    A failed `flash_area_open` returns -ENOENT, as Zephyr's flash map does,
    and `allocs` is how many `k_malloc` requests the heap still satisfies. */
module NorFlash {
  import opened Arith
  import opened Wrappers
  import opened Bitos
  import opened Crc
  import opened Storage
  import opened MetaDesc
  import opened FlashArea
  import opened Chunks

  /** Where the application image is linked: download-slot offsets are taken from here. */
  const APP_FLASH_BASE: U32 := 0x0801_0000
  /** The region of the pointer device erased before the pointer is written. */
  const PARTITION_INFO_OFFSET: nat := 0x1_0000
  /** The chunk size of every copy and CRC loop in this file. */
  const NOR_BLOCK: nat := 4096
  /** The sector size assumed when the driver reports no page layout. */
  const DEFAULT_SECTOR: U32 := 4096
  /** How many bytes of the meta partition are read into a descriptor buffer. */
  const DESC_SIZE: nat := 1024
  /** The package kinds `select_slot_to_active_backup_partition` accepts. */
  const FULL_PACKAGE_FLAG: int := 1
  const DIFF_PACKAGE_FLAG: int := 0

  /** A 32-bit word loaded from byte `at` of a stored meta record is that field
      of the record, whatever follows the record in the partition. This is how
      the source reads `download_len` and the firmware fields. */
  lemma StoredWord(b: seq<Byte>, m: Meta, fld: Field)
    requires |b| >= META_SIZE && b[..META_SIZE] == EncodeMeta(m) && fld != FirmwareVersion
    ensures OffsetOf(fld) + 4 <= |b|
    ensures Get(Uint32, b, OffsetOf(fld)) == WordOf(m, fld)
  {
    WordAt(m, fld);
    GetOfPrefix(b, EncodeMeta(m), OffsetOf(fld));
  }

  /** `flash_area_read(fa, off, &word, sizeof(uint32_t))` into a local word. */
  method ReadWord(f: Flash, p: PartId, off: nat) returns (rc: int, w: U32)
    requires p in f.areas
    ensures rc == 0 <==> off + 4 <= |f.areas[p].bytes|
    ensures rc == 0 ==> w == Get(Uint32, f.areas[p].bytes, off)
    ensures rc != 0 ==> rc == -EINVAL
  {
    var b := new Byte[4];
    rc := f.ReadInto(p, off, b, 0, 4);
    w := 0;
    if rc == 0 {
      assert b[..] == f.areas[p].bytes[off..off + 4];
      w := Get(Uint32, b[..], 0);
      assert b[..][0..4] == b[..];
    }
  }

  /** `flash_area_read(fa, 0, desc, 1024)` into a fresh heap buffer, then the
      firmware address and size loaded from it. The read's result is not
      checked by the source: when it fails the two words come from
      uninitialised memory. */
  method ReadDesc(f: Flash) returns (rc: int, addr: U32, size: U32)
    requires MetaPart in f.areas
    ensures rc == 0 <==> DESC_SIZE <= |f.areas[MetaPart].bytes|
    ensures rc == 0 ==> addr == Get(Uint32, f.areas[MetaPart].bytes, OffsetOf(FirmwareAddr))
    ensures rc == 0 ==> size == Get(Uint32, f.areas[MetaPart].bytes, OffsetOf(FirmwareSize))
  {
    var desc := new Byte[DESC_SIZE];
    rc := f.ReadInto(MetaPart, 0, desc, 0, DESC_SIZE);
    assert OffsetOf(FirmwareAddr) == 4 && OffsetOf(FirmwareSize) == 8 by {
      Offsets(FirmwareAddr);
      Offsets(FirmwareSize);
    }
    addr := Get(Uint32, desc[..], 4);
    size := Get(Uint32, desc[..], 8);
    if rc == 0 {
      GetOfPrefix(f.areas[MetaPart].bytes, desc[..], 4);
      GetOfPrefix(f.areas[MetaPart].bytes, desc[..], 8);
    }
  }

  /** A load from a copied prefix reads what the whole holds. */
  lemma GetOfPrefix(b: seq<Byte>, pre: seq<Byte>, at: nat)
    requires at + 4 <= |pre| <= |b| && pre == b[..|pre|]
    ensures Get(Uint32, pre, at) == Get(Uint32, b, at)
  {
    assert pre[at..at + 4] == b[at..at + 4];
  }

  // ----- The partition pointer -----

  /** `flash_read(dev, 0, buf, 4)` as a word; a failed read gives 0. */
  function ReadPointer(dev: seq<Byte>): (r: U32)
    ensures 4 <= |dev| ==> Word(r) == dev[..4]
    ensures |dev| < 4 ==> r == 0
  {
    if |dev| < 4 then 0
    else
      WordRoundTrip(Get(Uint32, dev, 0));
      Get(Uint32, dev, 0)
  }

  /** `get_norflash_partition_pointer` as written: it reads `flashes[1]`. */
  function GetPartitionPointerAsWritten(devices: seq<seq<Byte>>): (r: U32)
    requires |devices| == 2
    ensures 4 <= |devices[1]| ==> Word(r) == devices[1][..4]
  {
    ReadPointer(devices[1])
  }

  /** The getter reading the device the setter writes, `flashes[0]`. */
  function GetPartitionPointer(devices: seq<seq<Byte>>): (r: U32)
    requires |devices| == 2
    ensures 4 <= |devices[0]| ==> Word(r) == devices[0][..4]
  {
    ReadPointer(devices[0])
  }

  /** A pointer device after `set_norflash_partition_pointer(v)` succeeds: its
      first 64 KiB erased, then v stored at offset 0. */
  function PointerWritten(dev: seq<Byte>, v: U32): (r: seq<Byte>)
    requires PARTITION_INFO_OFFSET <= |dev|
    ensures |r| == |dev| && r[..4] == Word(v)
    ensures forall i :: 4 <= i < PARTITION_INFO_OFFSET ==> r[i] == ERASED
    ensures r[PARTITION_INFO_OFFSET..] == dev[PARTITION_INFO_OFFSET..]
  {
    var e := Store(dev, 0, Erased(PARTITION_INFO_OFFSET));
    var r := Store(e, 0, Word(v));
    assert r[..4] == r[0..4];
    assert r[PARTITION_INFO_OFFSET..] == e[PARTITION_INFO_OFFSET..];
    r
  }

  /** `set_norflash_partition_pointer(v)`: erase the first 64 KiB of `flashes[0]`,
      then write the word. A device too small for the erase is left as it was. */
  method SetPartitionPointer(f: Flash, v: U32)
    requires f.Valid()
    modifies f
    ensures f.Valid() && f.flashBase == old(f.flashBase) && f.areas == old(f.areas)
    ensures PARTITION_INFO_OFFSET <= |old(f.devices[0])| ==>
      f.devices == old(f.devices)[0 := PointerWritten(old(f.devices[0]), v)]
    ensures |old(f.devices[0])| < PARTITION_INFO_OFFSET ==> f.devices == old(f.devices)
  {
    var rc := f.DeviceErase(0, 0, PARTITION_INFO_OFFSET);
    if rc != 0 {
      return;
    }
    rc := f.DeviceWrite(0, 0, Word(v));
  }

  /** Reading the device the setter writes gives back the pointer just set. */
  lemma PointerRoundTrip(devices: seq<seq<Byte>>, v: U32)
    requires |devices| == 2 && PARTITION_INFO_OFFSET <= |devices[0]|
    ensures GetPartitionPointer(devices[0 := PointerWritten(devices[0], v)]) == v
  {
    var d := PointerWritten(devices[0], v);
    assert d[0..4] == Word(v);
    WordRoundTrip(v);
  }

  /** As written, setting the pointer does not change what the getter reads:
      with `flashes[1]` erased, a set of any pointer reads back 0xFFFFFFFF. */
  lemma PointerMismatch(devices: seq<seq<Byte>>, v: U32)
    requires |devices| == 2 && PARTITION_INFO_OFFSET <= |devices[0]|
    ensures GetPartitionPointerAsWritten(devices[0 := PointerWritten(devices[0], v)]) ==
      GetPartitionPointerAsWritten(devices)
    ensures 4 <= |devices[1]| && devices[1][..4] == [ERASED, ERASED, ERASED, ERASED] ==>
      GetPartitionPointerAsWritten(devices[0 := PointerWritten(devices[0], v)]) == 0xFFFF_FFFF
  {
    var after := devices[0 := PointerWritten(devices[0], v)];
    assert after[1] == devices[1];
    if 4 <= |devices[1]| && devices[1][..4] == [ERASED, ERASED, ERASED, ERASED] {
      WordRoundTrip(0xFFFF_FFFF);
      assert Word(0xFFFF_FFFF) == [ERASED, ERASED, ERASED, ERASED];
      assert devices[1][0..4] == devices[1][..4];
    }
  }

  // ----- Erasing the download slot -----

  /** `(w + s - 1) & ~(s - 1)` in `uint32_t`. */
  function AlignUp(w: U32, s: U32): (r: U32)
    ensures r <= Wrap32(w + s - 1)
  {
    BitAndBound(Wrap32(w + s - 1), Not32(Wrap32(s - 1)));
    BitAnd(Wrap32(w + s - 1), Not32(Wrap32(s - 1)))
  }

  /** For a power-of-two sector size s, the aligned start is the least multiple
      of s that is at least w, provided `w + s - 1` does not wrap. */
  lemma AlignUpLeast(w: U32, s: U32, k: nat)
    requires k < 32 && s == Pow2(k) && w + s <= WORD
    ensures AlignUp(w, s) % s == 0 && w <= AlignUp(w, s) < w + s
  {
    var v := w + s - 1;
    assert Wrap32(v) == v && Wrap32(s - 1) == s - 1;
    Pow2Of32();
    assert Not32(s - 1) == Pow2(32) - Pow2(k);
    AndMask(v, 32, k);
    assert AlignUp(w, s) == v / s * s;
    RoundDown(v, s);
  }

  /** `v / s * s` is the multiple of s at most s - 1 below v. */
  lemma RoundDown(v: nat, s: nat)
    requires s > 0
    ensures (v / s * s) % s == 0 && v - s < v / s * s <= v
  {
    var q := v / s;
    assert v == q * s + v % s;
    assert (q * s) % s == 0 by {
      DivUnique(q * s, s, q, 0);
    }
  }

  /** A zero `write_len` aligns to 0 whatever the sector size, so the whole slot is erased. */
  lemma AlignUpZero(s: U32)
    ensures AlignUp(0, s) == 0
  {
    var a := Wrap32(s - 1);
    Pow2Of32();
    assert Not32(a) == Pow2(32) - 1 - a;
    AndComplement(a, 32);
  }

  /** The slot after the erase: `[a, |dl|)` set to 0xFF when a lies inside it,
      otherwise unchanged. */
  function EraseFrom(dl: seq<Byte>, a: nat): (r: seq<Byte>)
    ensures |r| == |dl|
    ensures forall i :: 0 <= i < |dl| && i < a ==> r[i] == dl[i]
    ensures forall i :: a <= i < |dl| ==> r[i] == ERASED
  {
    if a >= |dl| then dl else Store(dl, a, Erased(|dl| - a))
  }

  /** What a download slot holds after `nor_flash_erase_download_slot` with
      `download_len` w and a power-of-two sector s: the w bytes written are kept,
      everything from the next sector boundary is erased, and so less than one
      sector of unwritten space is left as it was. A zero w erases the slot. */
  lemma EraseKeepsWritten(dl: seq<Byte>, w: U32, s: U32, k: nat)
    requires k < 32 && s == Pow2(k) && w <= |dl| && w + s <= WORD
    ensures var r := EraseFrom(dl, AlignUp(w, s));
      r[..w] == dl[..w] &&
      (forall i :: w + s <= i < |dl| ==> r[i] == ERASED) &&
      (w == 0 ==> r == Erased(|dl|))
  {
    AlignUpLeast(w, s, k);
    var r := EraseFrom(dl, AlignUp(w, s));
    assert r[..w] == dl[..w];
    if w == 0 {
      AlignUpZero(s);
      assert r == Erased(|dl|);
    }
  }

  /** The sector size `nor_flash_erase_download_slot` aligns to: the page size
      the driver reports for the offset, if it reports one. */
  function SectorSize(page: Option<U32>): U32
  {
    if page.Some? then page.value else DEFAULT_SECTOR
  }

  /** `nor_flash_erase_download_slot`. page is what `flash_get_page_info_by_offs`
      reports for the slot's device at `fa_off + write_len`. */
  method EraseDownloadSlot(f: Flash, allocs: nat, page: Option<U32>) returns (ret: int)
    requires f.Valid()
    modifies f
    ensures f.Valid() && f.flashBase == old(f.flashBase) && f.devices == old(f.devices)
    ensures MetaPart !in old(f.areas) ==> ret == -ENOENT && f.areas == old(f.areas)
    ensures MetaPart in old(f.areas) && |old(f.areas[MetaPart].bytes)| < OffsetOf(DownloadLen) + 4 ==>
      ret == -EINVAL && f.areas == old(f.areas)
    ensures MetaPart in old(f.areas) && OffsetOf(DownloadLen) + 4 <= |old(f.areas[MetaPart].bytes)| ==>
      var w := Get(Uint32, old(f.areas[MetaPart].bytes), OffsetOf(DownloadLen));
      if DownloadPart !in old(f.areas) then ret == -ENOENT && f.areas == old(f.areas)
      else if w > |old(f.areas[DownloadPart].bytes)| then ret == -1 && f.areas == old(f.areas)
      else if w != 0 && allocs == 0 then ret == -ENOMEM && f.areas == old(f.areas)
      else ret == 0 && f.areas == old(f.areas)[DownloadPart := Area(old(f.areas[DownloadPart].off),
        EraseFrom(old(f.areas[DownloadPart].bytes), AlignUp(w, SectorSize(page))))]
  {
    if MetaPart !in f.areas {
      return -ENOENT;
    }
    assert OffsetOf(DownloadLen) == 36 by {
      Offsets(DownloadLen);
    }
    var rc, w := ReadWord(f, MetaPart, 36);
    if rc != 0 {
      return rc;
    }
    if DownloadPart !in f.areas {
      return -ENOENT;
    }
    ret := EraseBeyond(f, w, allocs, page);
  }

  /** The part of `nor_flash_erase_download_slot` after both partitions are open
      and `download_len` is read as w. The CRC the source computes over the
      written bytes is never used. */
  method EraseBeyond(f: Flash, w: U32, allocs: nat, page: Option<U32>) returns (ret: int)
    requires f.Valid() && DownloadPart in f.areas
    modifies f
    ensures f.Valid() && f.flashBase == old(f.flashBase) && f.devices == old(f.devices)
    ensures if w > |old(f.areas[DownloadPart].bytes)| then ret == -1 && f.areas == old(f.areas)
      else if w != 0 && allocs == 0 then ret == -ENOMEM && f.areas == old(f.areas)
      else ret == 0 && f.areas == old(f.areas)[DownloadPart := Area(old(f.areas[DownloadPart].off),
        EraseFrom(old(f.areas[DownloadPart].bytes), AlignUp(w, SectorSize(page))))]
  {
    var size := |f.areas[DownloadPart].bytes|;
    if w != 0 {
      if w > size {
        return -1;
      }
      if allocs == 0 {
        return -ENOMEM;
      }
      var user := new Byte[NOR_BLOCK];
      var unused := PrefixCrc(f, DownloadPart, w, user, NOR_BLOCK);
    }
    ret := EraseTail(f, AlignUp(w, SectorSize(page)));
  }

  /** The erase of `[aligned, fa_size)` of the download slot, skipped when the
      aligned start is not below the slot's end. */
  method EraseTail(f: Flash, aligned: U32) returns (ret: int)
    requires f.Valid() && DownloadPart in f.areas
    modifies f
    ensures f.Valid() && f.flashBase == old(f.flashBase) && f.devices == old(f.devices)
    ensures ret == 0 && f.areas == old(f.areas)[DownloadPart := Area(old(f.areas[DownloadPart].off),
      EraseFrom(old(f.areas[DownloadPart].bytes), aligned))]
  {
    var size := |f.areas[DownloadPart].bytes|;
    if aligned >= size {
      ret := 0;
    } else {
      ret := f.Erase(DownloadPart, aligned, size - aligned);
    }
  }

  // ----- Programming the slots -----

  /** The download-slot offset of an absolute application address, in `uint32_t`. */
  function SlotOffset(address: U32): (r: U32)
    ensures address >= APP_FLASH_BASE ==> r == address - APP_FLASH_BASE
    ensures address < APP_FLASH_BASE ==> r >= AREA_LIMIT
  {
    Wrap32(address - APP_FLASH_BASE)
  }

  /** `nor_flash_program_download_slot(address, |data|, data)`. */
  method ProgramDownloadSlot(f: Flash, address: U32, data: seq<Byte>) returns (ret: int)
    requires f.Valid()
    modifies f
    ensures f.Valid() && f.flashBase == old(f.flashBase) && f.devices == old(f.devices)
    ensures DownloadPart !in old(f.areas) ==> ret == -ENOENT
    ensures ret == 0 <==> (DownloadPart in old(f.areas) &&
      InArea(|old(f.areas[DownloadPart].bytes)|, SlotOffset(address), |data|))
    ensures ret == 0 ==> f.areas == old(f.areas)[DownloadPart := Area(old(f.areas[DownloadPart].off),
      Store(old(f.areas[DownloadPart].bytes), SlotOffset(address), data))]
    ensures ret != 0 ==> (ret == -ENOENT || ret == -EINVAL) && f.areas == old(f.areas)
  {
    if DownloadPart !in f.areas {
      return -ENOENT;
    }
    ret := f.Write(DownloadPart, SlotOffset(address), data);
  }

  /** An address below the application base wraps to an offset past any
      partition, so the write is refused and the slot is left as it was. */
  lemma ProgramBelowBaseRefused(size: nat, address: U32, n: nat)
    requires size < AREA_LIMIT && address < APP_FLASH_BASE
    ensures !InArea(size, SlotOffset(address), n)
  {}

  /** `nor_flash_program_meta_slot(m)`: erase the whole meta partition, then
      write the record at offset 0. The result is the write's; the source uses
      the partition even when opening it failed, so it must be present. */
  method ProgramMetaSlot(f: Flash, m: Meta) returns (ret: int)
    requires f.Valid() && MetaPart in f.areas
    modifies f
    ensures f.Valid() && f.flashBase == old(f.flashBase) && f.devices == old(f.devices)
    ensures ret == 0 <==> META_SIZE <= |old(f.areas[MetaPart].bytes)|
    ensures ret != 0 ==> ret == -EINVAL
    ensures f.areas == old(f.areas)[MetaPart := Area(old(f.areas[MetaPart].off),
      MetaStored(|old(f.areas[MetaPart].bytes)|, m))]
  {
    var n := |f.areas[MetaPart].bytes|;
    var rc := f.Erase(MetaPart, 0, n);
    assert Store(f.areas[MetaPart].bytes, 0, Erased(n)) == Erased(n);
    ret := f.Write(MetaPart, 0, EncodeMeta(m));
    if ret == 0 {
      assert Store(Erased(n), 0, EncodeMeta(m)) == EncodeMeta(m) + Erased(n - META_SIZE);
    }
  }

  /** A meta partition of n bytes after `nor_flash_program_meta_slot(m)`: the
      record followed by erased bytes, or all erased when the record does not fit. */
  function MetaStored(n: nat, m: Meta): (r: seq<Byte>)
    ensures |r| == n
  {
    if n < META_SIZE then Erased(n) else EncodeMeta(m) + Erased(n - META_SIZE)
  }

  /** The programmed record reads back as m, and its `download_len` is where
      `nor_flash_erase_download_slot` loads it. */
  lemma MetaSlotReadBack(n: nat, m: Meta)
    requires META_SIZE <= n
    ensures DecodeMeta(MetaStored(n, m)[..META_SIZE]) == Some(m)
    ensures OffsetOf(DownloadLen) + 4 <= n
    ensures Get(Uint32, MetaStored(n, m), OffsetOf(DownloadLen)) == m.downloadLen
  {
    var b := MetaStored(n, m);
    assert b[..META_SIZE] == EncodeMeta(m);
    DecodeEncodeMeta(m);
    StoredWord(b, m, DownloadLen);
  }

  /** `download_slot_verify(address, size)`: the CRC-32 of size bytes of the
      download slot from the address's offset, or 1 when the slot cannot be
      opened or no buffer is available. */
  method DownloadSlotVerify(f: Flash, address: U32, size: U32, allocs: nat) returns (r: bv32)
    requires f.Valid()
    ensures DownloadPart !in f.areas || allocs == 0 ==> r == 1
    ensures DownloadPart in f.areas && allocs > 0 && SlotOffset(address) + size <= |f.areas[DownloadPart].bytes| ==>
      r == Crc32(f.areas[DownloadPart].bytes[SlotOffset(address)..SlotOffset(address) + size])
  {
    if DownloadPart !in f.areas || allocs == 0 {
      return 1;
    }
    var user := new Byte[NOR_BLOCK];
    r := AreaCrc(f, DownloadPart, SlotOffset(address), size, user, NOR_BLOCK);
  }

  /** Verifying what was just programmed gives the CRC-32 of the data. */
  lemma ProgramThenVerify(dl: seq<Byte>, address: U32, data: seq<Byte>)
    requires InArea(|dl|, SlotOffset(address), |data|)
    ensures var o := SlotOffset(address);
      Crc32(Store(dl, o, data)[o..o + |data|]) == Crc32(data)
  {}

  // ----- Recovering the application from the active backup -----

  /** What `bl_verify_external_norflash_firmware` comes to: its boolean, or the
      division by a zero `fwsize` in the progress computation, which C leaves
      undefined. */
  datatype Recovery = Recovery(ok: bool) | ZeroDivision

  /** The application partition's bytes after the backup image is copied over them. */
  function Restored(app: seq<Byte>, image: seq<Byte>): (r: seq<Byte>)
    requires |image| <= |app|
    ensures |r| == |app| && r[..|image|] == image && r[|image|..] == app[|image|..]
  {
    Store(app, 0, image)
  }

  /** A restored application carries the CRC-32 the backup was checked against. */
  lemma RestoredChecks(app: seq<Byte>, image: seq<Byte>, crc: bv32)
    requires |image| <= |app| && Crc32(image) == crc
    ensures Crc32(Restored(app, image)[..|image|]) == crc
  {}

  /** Everything `bl_verify_external_norflash_firmware` needs to restore the
      application: a buffer, a readable arg-info record, the active backup and
      the application partition, a backup prefix of the recorded size that
      carries the recorded CRC-32, and room for it in the application. */
  ghost predicate BackupRecoverable(areas: map<PartId, Area>, allocs: nat)
  {
    allocs > 0 && ArgPart in areas && DecodeArgInfo(areas[ArgPart].bytes).Some? &&
    BackupPart in areas && AppPart in areas &&
    var info, bk := DecodeArgInfo(areas[ArgPart].bytes).value, areas[BackupPart].bytes;
    info.size <= |bk| && info.size <= |areas[AppPart].bytes| && Crc32(bk[..info.size]) as int == info.crc
  }

  /** `bl_verify_external_norflash_firmware`: check the CRC-32 of the first
      `fwsize` bytes of the active backup against the arg-info record, then
      erase that much of the application partition and copy the backup over it. */
  method VerifyExternalFirmware(f: Flash, allocs: nat) returns (r: Recovery)
    requires f.Valid()
    modifies f
    ensures f.Valid() && f.flashBase == old(f.flashBase) && f.devices == old(f.devices)
    ensures allocs == 0 || old(GetArgInfo(f)).None? || BackupPart !in old(f.areas) ==>
      r == Recovery(false) && f.areas == old(f.areas)
    ensures allocs > 0 && old(GetArgInfo(f)).Some? && BackupPart in old(f.areas) ==>
      var info, bk := old(GetArgInfo(f)).value, old(f.areas[BackupPart].bytes);
      (info.size <= |bk| && Crc32(bk[..info.size]) as int != info.crc ==>
        r == Recovery(false) && f.areas == old(f.areas)) &&
      (r != Recovery(false) ==>
        (info.size <= |bk| ==> Crc32(bk[..info.size]) as int == info.crc) &&
        AppRestored(old(f.areas), f.areas, info.size) && (r == ZeroDivision <==> info.size == 0))
    ensures r == Recovery(true) ==> allocs > 0 && old(GetArgInfo(f)).Some? && BackupPart in old(f.areas)
    ensures r == Recovery(false) ==> f.areas == old(f.areas)
    ensures BackupRecoverable(old(f.areas), allocs) ==> r != Recovery(false)
  {
    if allocs == 0 {
      return Recovery(false);
    }
    var buf := new Byte[NOR_BLOCK];
    var info := GetArgInfo(f);
    if info.None? || BackupPart !in f.areas {
      return Recovery(false);
    }
    var crc := PrefixCrc(f, BackupPart, info.value.size, buf, NOR_BLOCK);
    if crc as int != info.value.crc {
      return Recovery(false);
    }
    r := RecoverApp(f, info.value.size, buf);
  }

  /** The second half of `bl_verify_external_norflash_firmware`, once the backup
      has passed its check: erase `[0, size)` of the application partition and
      copy the backup's first size bytes over it. */
  method RecoverApp(f: Flash, size: U32, buf: array<Byte>) returns (r: Recovery)
    requires f.Valid() && BackupPart in f.areas && buf.Length == NOR_BLOCK
    modifies f, buf
    ensures f.Valid() && f.flashBase == old(f.flashBase) && f.devices == old(f.devices)
    ensures r == Recovery(false) <==> AppPart !in old(f.areas) || size > |old(f.areas[AppPart].bytes)|
    ensures r == Recovery(false) ==> f.areas == old(f.areas)
    ensures r != Recovery(false) ==> AppRestored(old(f.areas), f.areas, size) && (r == ZeroDivision <==> size == 0)
  {
    if AppPart !in f.areas {
      return Recovery(false);
    }
    ghost var app := f.areas[AppPart].bytes;
    var rc := f.Erase(AppPart, 0, size);
    if rc != 0 {
      return Recovery(false);
    }
    CopyArea(f, BackupPart, AppPart, size, buf, NOR_BLOCK);
    if size <= |old(f.areas[BackupPart].bytes)| {
      StoreTwice(app, 0, Erased(size), old(f.areas[BackupPart].bytes)[..size]);
    }
    if size == 0 {
      return ZeroDivision;
    }
    return Recovery(true);
  }

  /** The partitions after a recovery of size bytes: only the application has
      changed, and when the backup holds size bytes the application starts with them. */
  ghost predicate AppRestored(before: map<PartId, Area>, after: map<PartId, Area>, size: nat)
  {
    BackupPart in before && AppPart in before && size <= |before[AppPart].bytes| && AppPart in after &&
    after == before[AppPart := Area(before[AppPart].off, after[AppPart].bytes)] &&
    (size <= |before[BackupPart].bytes| ==>
      after[AppPart].bytes == Restored(before[AppPart].bytes, before[BackupPart].bytes[..size]))
  }

  /** Writing a block over one of the same length just written at the same place. */
  lemma StoreTwice(s: seq<Byte>, p: nat, a: seq<Byte>, b: seq<Byte>)
    requires |a| == |b| && p + |b| <= |s|
    ensures Store(Store(s, p, a), p, b) == Store(s, p, b)
  {
    assert Store(Store(s, p, a), p, b) == s[..p] + b + s[p + |b|..];
  }

  // ----- Installing the downloaded image in the internal flash -----

  /** Whether n bytes from address lie inside the application partition, which
      starts above address 0 and ends inside the address space; arg_info is
      open too, as `bl_flash_erase` and `bl_flash_program` require. */
  ghost predicate InApp(areas: map<PartId, Area>, flashBase: U32, address: nat, n: nat)
  {
    AppPart in areas && ArgPart in areas &&
    var b := Base(flashBase, areas[AppPart]);
    0 < b && b + |areas[AppPart].bytes| <= WORD && b <= address && address - b + n <= |areas[AppPart].bytes|
  }

  /** `download_slot_to_intflash` can install size bytes at addr: the range lies
      inside the application partition and the download slot holds that much. */
  ghost predicate IntoApp(areas: map<PartId, Area>, flashBase: U32, addr: nat, size: nat)
  {
    InApp(areas, flashBase, addr, size) && DownloadPart in areas && size <= |areas[DownloadPart].bytes|
  }

  /** The partitions once the first size bytes of the download slot are in the
      application partition at addr. */
  ghost function Installed(areas: map<PartId, Area>, flashBase: U32, addr: nat, size: nat): map<PartId, Area>
    requires IntoApp(areas, flashBase, addr, size)
  {
    var app := areas[AppPart];
    areas[AppPart := Area(app.off, Store(app.bytes, addr - Base(flashBase, app), areas[DownloadPart].bytes[..size]))]
  }

  /** Only the internal partitions, which `bl_flash_erase` and `bl_flash_program`
      reach, have changed; the external ones are as they were. */
  ghost predicate InternalOnly(before: map<PartId, Area>, after: map<PartId, Area>)
  {
    after.Keys == before.Keys &&
    forall p :: p in before && p != AppPart && p != ArgPart ==> after[p] == before[p]
  }

  /** A range inside the application partition passes both range tests and
      lands in the application partition at its offset from the partition start. */
  lemma LandsInApp(flashBase: U32, areas: map<PartId, Area>, address: U32, n: U32)
    requires InApp(areas, flashBase, address, n)
    ensures Lands(flashBase, areas, address, n)
    ensures Target(flashBase, areas[AppPart], address) == AppPart
    ensures Route(flashBase, areas[AppPart], areas[ArgPart], address, n) == Some(address - Base(flashBase, areas[AppPart]))
  {
    RouteExact(flashBase, areas[AppPart], areas[ArgPart], address, n);
  }

  /** `download_slot_to_intflash`: read the descriptor from the meta partition,
      erase `firmware_size` bytes of internal flash at `firmware_addr`, then copy
      that many bytes of the download slot there, 4096 at a time. Neither the
      descriptor read nor the internal erase and writes are checked, so the
      result is 0 once both buffers are allocated. */
  method DownloadSlotToIntflash(f: Flash, allocs: nat) returns (ret: int)
    requires f.Valid()
    modifies f
    ensures f.Valid() && f.flashBase == old(f.flashBase) && f.devices == old(f.devices)
    ensures ret == -1 <==> MetaPart !in old(f.areas) || DownloadPart !in old(f.areas) || allocs < 2
    ensures ret != -1 ==> ret == 0
    ensures ret == -1 ==> f.areas == old(f.areas)
    ensures InternalOnly(old(f.areas), f.areas)
    ensures ret == 0 && DESC_SIZE <= |old(f.areas[MetaPart].bytes)| ==>
      var meta := old(f.areas[MetaPart].bytes);
      var addr := Get(Uint32, meta, OffsetOf(FirmwareAddr));
      var size := Get(Uint32, meta, OffsetOf(FirmwareSize));
      IntoApp(old(f.areas), f.flashBase, addr, size) ==> f.areas == Installed(old(f.areas), f.flashBase, addr, size)
  {
    if MetaPart !in f.areas || DownloadPart !in f.areas || allocs == 0 {
      return -1;
    }
    var rc, addr, size := ReadDesc(f);
    if allocs < 2 {
      return -1;
    }
    var user := new Byte[NOR_BLOCK];
    ProgramImage(f, addr, size, user);
    ret := 0;
  }

  /** The erase and the copy loop of `download_slot_to_intflash`. */
  method ProgramImage(f: Flash, addr: U32, size: U32, buf: array<Byte>)
    requires f.Valid() && DownloadPart in f.areas && buf.Length == NOR_BLOCK
    modifies f, buf
    ensures f.Valid() && f.flashBase == old(f.flashBase) && f.devices == old(f.devices)
    ensures InternalOnly(old(f.areas), f.areas)
    ensures IntoApp(old(f.areas), f.flashBase, addr, size) ==> f.areas == Installed(old(f.areas), f.flashBase, addr, size)
  {
    ghost var areas0 := f.areas;
    EraseImage(f, addr, size);
    var offset: U32 := 0;
    var remaining: U32 := size;
    var first := true;
    while first || remaining > 0
      invariant f.Valid() && f.flashBase == old(f.flashBase) && f.devices == old(f.devices)
      invariant remaining <= size && offset == size - remaining && (first ==> offset == 0)
      invariant Programmed(f.areas, areas0, f.flashBase, addr, size, offset)
      decreases remaining, first
    {
      var chunk := if remaining > NOR_BLOCK then NOR_BLOCK else remaining;
      ghost var cur := f.areas;
      ProgramChunk(f, addr, offset, chunk, buf);
      var next := offset + chunk;
      ProgramRound(cur, f.areas, areas0, f.flashBase, addr, size, offset, chunk, next);
      offset := next;
      remaining := remaining - chunk;
      first := false;
    }
    ProgramDone(f.areas, areas0, f.flashBase, addr, size);
  }

  /** When the loop ends, the erased range holds the image. */
  lemma ProgramDone(areas: map<PartId, Area>, areas0: map<PartId, Area>, flashBase: U32, addr: nat, size: nat)
    requires Programmed(areas, areas0, flashBase, addr, size, size)
    ensures IntoApp(areas0, flashBase, addr, size) ==> areas == Installed(areas0, flashBase, addr, size)
  {
    if IntoApp(areas0, flashBase, addr, size) {
      var app := areas0[AppPart];
      StoreTwice(app.bytes, addr - Base(flashBase, app), Erased(size), areas0[DownloadPart].bytes[..size]);
    }
  }

  /** `bl_flash_erase(firmware_addr, firmware_size)`, which starts the loop's progress. */
  method EraseImage(f: Flash, addr: U32, size: U32)
    requires f.Valid()
    modifies f
    ensures f.Valid() && f.flashBase == old(f.flashBase) && f.devices == old(f.devices)
    ensures Programmed(f.areas, old(f.areas), f.flashBase, addr, size, 0)
  {
    ghost var areas0 := f.areas;
    if IntoApp(areas0, f.flashBase, addr, size) {
      LandsInApp(f.flashBase, areas0, addr, size);
    }
    var rc := FlashErase(f, addr, size);
    EraseThenNothing(f.areas, areas0, f.flashBase, addr, size);
  }

  /** What the loop of `download_slot_to_intflash` has done: only internal
      partitions changed, and when the image fits, the range was erased and its
      first offset bytes now hold the download slot's. */
  ghost predicate Programmed(areas: map<PartId, Area>, areas0: map<PartId, Area>, flashBase: U32, addr: nat, size: nat, offset: nat)
  {
    InternalOnly(areas0, areas) &&
    (IntoApp(areas0, flashBase, addr, size) ==>
      var app := areas0[AppPart];
      var o := addr - Base(flashBase, app);
      offset <= size &&
      areas == areas0[AppPart := Area(app.off,
        Store(Store(app.bytes, o, Erased(size)), o, areas0[DownloadPart].bytes[..offset]))])
  }

  /** After the erase, before any chunk: the loop's starting state. */
  lemma EraseThenNothing(areas: map<PartId, Area>, areas0: map<PartId, Area>, flashBase: U32, addr: nat, size: nat)
    requires InternalOnly(areas0, areas)
    requires IntoApp(areas0, flashBase, addr, size) ==>
      var app := areas0[AppPart];
      areas == areas0[AppPart := Area(app.off, Store(app.bytes, addr - Base(flashBase, app), Erased(size)))]
    ensures Programmed(areas, areas0, flashBase, addr, size, 0)
  {
    if IntoApp(areas0, flashBase, addr, size) {
      var app := areas0[AppPart];
      var e := Store(app.bytes, addr - Base(flashBase, app), Erased(size));
      assert areas0[DownloadPart].bytes[..0] == [];
      assert Store(e, addr - Base(flashBase, app), []) == e;
    }
  }

  /** One round of the loop of `download_slot_to_intflash`: `flash_area_read`
      of chunk bytes at offset of the download slot, then `bl_flash_program` of
      them at `firmware_addr + offset` in `uint32_t`. */
  method ProgramChunk(f: Flash, addr: U32, offset: U32, chunk: U32, buf: array<Byte>)
    requires f.Valid() && DownloadPart in f.areas && chunk <= buf.Length
    modifies f, buf
    ensures f.Valid() && f.flashBase == old(f.flashBase) && f.devices == old(f.devices)
    ensures ChunkProgrammed(old(f.areas), f.areas, f.flashBase, addr + offset, offset, chunk)
  {
    var rc := f.ReadInto(DownloadPart, offset, buf, 0, chunk);
    assert rc == 0 ==> buf[..chunk] == f.areas[DownloadPart].bytes[offset..offset + chunk] by {
      assert buf[..chunk] == buf[0..chunk];
    }
    var at := Wrap32(addr + offset);
    ghost var before := f.areas;
    if addr + offset < WORD && InApp(f.areas, f.flashBase, addr + offset, chunk) {
      assert at == addr + offset;
      LandsInApp(f.flashBase, f.areas, at, chunk);
    }
    rc := FlashProgram(f, at, chunk, buf[..chunk]);
    ProgramInternal(before, f.areas, f.flashBase, at, chunk, buf[..chunk]);
  }

  /** `bl_flash_program` changes at most the partition it routes to, which is internal. */
  lemma ProgramInternal(before: map<PartId, Area>, after: map<PartId, Area>, flashBase: U32, address: U32, size: U32, data: seq<Byte>)
    requires Lands(flashBase, before, address, size) ==>
      var t := Target(flashBase, before[AppPart], address);
      var o := Route(flashBase, before[AppPart], before[ArgPart], address, size).value;
      o + |data| <= |before[t].bytes| &&
      before[t := Area(before[t].off, Store(before[t].bytes, o, data))] == after
    requires !Lands(flashBase, before, address, size) ==> after == before
    ensures InternalOnly(before, after)
  {}

  /** What a round does: only internal partitions change, and when the chunk
      lies inside the download slot and, at address, inside the application
      partition, it is stored there. */
  ghost predicate ChunkProgrammed(before: map<PartId, Area>, after: map<PartId, Area>, flashBase: U32,
                                  address: nat, offset: nat, chunk: nat)
  {
    InternalOnly(before, after) &&
    (address < WORD && InApp(before, flashBase, address, chunk) && DownloadPart in before &&
      InArea(|before[DownloadPart].bytes|, offset, chunk) ==>
      var app := before[AppPart];
      after == before[AppPart := Area(app.off, Store(app.bytes, address - Base(flashBase, app),
        before[DownloadPart].bytes[offset..offset + chunk]))])
  }

  /** The loop's step: a round over `[offset, upto)` extends the programmed prefix. */
  lemma ProgramRound(before: map<PartId, Area>, after: map<PartId, Area>, areas0: map<PartId, Area>, flashBase: U32,
                     addr: U32, size: nat, offset: nat, chunk: nat, upto: nat)
    requires Programmed(before, areas0, flashBase, addr, size, offset) && upto == offset + chunk <= size
    requires 0 < chunk || offset == 0
    requires ChunkProgrammed(before, after, flashBase, addr + offset, offset, chunk)
    ensures Programmed(after, areas0, flashBase, addr, size, upto)
  {
    InternalOnlyTrans(areas0, before, after);
    if IntoApp(areas0, flashBase, addr, size) {
      ProgramRoundApp(before, after, areas0, flashBase, addr, size, offset, chunk, upto);
    }
  }

  lemma InternalOnlyTrans(a: map<PartId, Area>, b: map<PartId, Area>, c: map<PartId, Area>)
    requires InternalOnly(a, b) && InternalOnly(b, c)
    ensures InternalOnly(a, c)
  {}

  /** The application partition's side of `ProgramRound`. */
  lemma ProgramRoundApp(before: map<PartId, Area>, after: map<PartId, Area>, areas0: map<PartId, Area>, flashBase: U32,
                        addr: U32, size: nat, offset: nat, chunk: nat, upto: nat)
    requires Programmed(before, areas0, flashBase, addr, size, offset) && upto == offset + chunk <= size
    requires 0 < chunk || offset == 0
    requires ChunkProgrammed(before, after, flashBase, addr + offset, offset, chunk)
    requires IntoApp(areas0, flashBase, addr, size)
    ensures var app := areas0[AppPart];
            var o := addr - Base(flashBase, app);
            after == areas0[AppPart := Area(app.off,
              Store(Store(app.bytes, o, Erased(size)), o, areas0[DownloadPart].bytes[..upto]))]
  {
    var app, dl := areas0[AppPart], areas0[DownloadPart].bytes;
    var o := addr - Base(flashBase, app);
    var e := Store(app.bytes, o, Erased(size));
    var mid := Store(e, o, dl[..offset]);
    assert before == areas0[AppPart := Area(app.off, mid)];
    assert before[AppPart] == Area(app.off, mid) && before[DownloadPart].bytes == dl;
    assert InApp(before, flashBase, addr + offset, chunk);
    assert after == before[AppPart := Area(app.off, Store(mid, o + offset, dl[offset..upto]))];
    StoreConsecutive(e, o, dl[..offset], dl[offset..upto]);
    assert dl[..offset] + dl[offset..upto] == dl[..upto];
  }

  // ----- Staging an image in the active backup -----

  /** The slot `select_slot_to_active_backup_partition` copies from. */
  function SourceSlot(flag: int): PartId
  {
    if flag == FULL_PACKAGE_FLAG then DownloadPart else DiffFwPart
  }

  /** Whether `select_slot_to_active_backup_partition(flag)` reaches its copy:
      every partition it opens is there, the arg-info size word can be read
      for a diff package, and both heap buffers (one for a diff package) are
      allocated. */
  ghost predicate StagesBackup(areas: map<PartId, Area>, flag: int, allocs: nat)
  {
    MetaPart in areas && SourceSlot(flag) in areas && BackupPart in areas &&
    if flag == FULL_PACKAGE_FLAG then allocs >= 2
    else ArgPart in areas && 12 <= |areas[ArgPart].bytes| && allocs >= 1
  }

  /** `select_slot_to_active_backup_partition(flag)`: copy the image of a full
      package from the download slot, or the image a diff package was patched
      into from the diff_fw slot, to the active backup, which is erased first.
      The size is the descriptor's `firmware_size` for a full package and the
      arg-info size word for a diff package. A partition that cannot be opened
      gives -ENOENT, an unreadable size word the read's error, and a failed
      allocation returns 0 without copying. */
  method SelectSlotToActiveBackup(f: Flash, flag: int, allocs: nat) returns (ret: int)
    requires f.Valid() && (flag == FULL_PACKAGE_FLAG || flag == DIFF_PACKAGE_FLAG)
    modifies f
    ensures f.Valid() && f.flashBase == old(f.flashBase) && f.devices == old(f.devices)
    ensures ret == -ENOENT <==> (MetaPart !in old(f.areas) || SourceSlot(flag) !in old(f.areas) ||
      BackupPart !in old(f.areas) || (flag == DIFF_PACKAGE_FLAG && ArgPart !in old(f.areas)))
    ensures ret == -EINVAL <==> ret != -ENOENT && flag == DIFF_PACKAGE_FLAG && |old(f.areas[ArgPart].bytes)| < 12
    ensures ret == 0 || ret == -ENOENT || ret == -EINVAL
    ensures !StagesBackup(old(f.areas), flag, allocs) ==> f.areas == old(f.areas)
    ensures StagesBackup(old(f.areas), flag, allocs) ==> ret == 0 && Only(old(f.areas), f.areas, BackupPart)
    ensures (StagesBackup(old(f.areas), flag, allocs) && flag == FULL_PACKAGE_FLAG &&
      DESC_SIZE <= |old(f.areas[MetaPart].bytes)|) ==>
      Filled(old(f.areas), f.areas, DownloadPart, BackupPart, Get(Uint32, old(f.areas[MetaPart].bytes), OffsetOf(FirmwareSize)))
    ensures StagesBackup(old(f.areas), flag, allocs) && flag == DIFF_PACKAGE_FLAG ==>
      Filled(old(f.areas), f.areas, DiffFwPart, BackupPart, Get(Uint32, old(f.areas[ArgPart].bytes), 8))
  {
    var src := SourceSlot(flag);
    if MetaPart !in f.areas || src !in f.areas || BackupPart !in f.areas {
      return -ENOENT;
    }
    var size: U32;
    if flag == FULL_PACKAGE_FLAG {
      if allocs == 0 {
        return 0;
      }
      var rc, addr;
      rc, addr, size := ReadDesc(f);
    } else {
      if ArgPart !in f.areas {
        return -ENOENT;
      }
      var rc;
      rc, size := ReadWord(f, ArgPart, 8);
      if rc != 0 {
        return rc;
      }
    }
    if allocs < (if flag == FULL_PACKAGE_FLAG then 2 else 1) {
      return 0;
    }
    var user := new Byte[NOR_BLOCK];
    FillFrom(f, src, BackupPart, size, user, NOR_BLOCK);
    ret := 0;
  }
}

=== FILE: receiver.dfy ===
/** The receiver of upgrade requests in `boot.c` (`bl_received_handler` and
    `bl_pkt_reset`): a state machine that stores every incoming byte at the
    write index of a 5112-byte buffer and reports a request once a whole frame
    `0xAA, opcode, length (LE u16), payload, CRC-16 (LE u16)` with a matching
    checksum has arrived. The step is the function `Step`; the class `Packet`
    performs it in place. The largest accepted length and whether rejecting a
    length ends the step are the `Config` a receiver is run with: `AS_WRITTEN`
    is what the source does, `CORRECTED` what it evidently means. */
module Receiver {
  import opened Arith
  import opened Wrappers
  import opened Bitos
  import opened Crc

  /** `sizeof(packet.data)`. */
  const DATA_SIZE: nat := 5112
  const START_BYTE: Byte := 0xAA
  /** `OPCODE_UNKNOWN`, the opcode a reset packet carries. */
  const OPCODE_UNKNOWN: Byte := 0xFF

  /** `bl_state_machine_t`. */
  datatype Phase = Idle | FwPsn | Start | Opcode | Data | Verify

  /** The length limit the receiver applies, and whether the step stops at
      the reset that a rejected length causes. */
  datatype Config = Config(maxLength: nat, resetEndsStep: bool)

  /** The source: lengths up to `sizeof(data) - 4`, and the step goes on after the reset. */
  const AS_WRITTEN: Config := Config(DATA_SIZE - 4, false)
  /** Lengths whose whole frame fits the buffer, and a rejected length leaves the receiver idle. */
  const CORRECTED: Config := Config(DATA_SIZE - 6, true)

  /** The packet record `bl_ctrl_t` as a value. */
  datatype Pkt = Pkt(phase: Phase, opcode: Byte, length: nat, index: nat, crc: U16, data: seq<Byte>)

  /** A `uint16_t` as the little-endian target stores it. */
  function Le16(v: U16): (r: seq<Byte>)
  {
    [v % 256, v / 256]
  }

  /** The `uint16_t` a little-endian target loads from byte p. */
  function Le16At(b: seq<Byte>, p: nat): (r: U16)
    requires p + 2 <= |b|
  {
    b[p] as int + 256 * (b[p + 1] as int)
  }

  /** Le16 and Le16At are `put_u16` and `get_u16` of the byte helpers. */
  lemma Le16IsBitos(v: U16, b: seq<Byte>, p: nat)
    requires p + 2 <= |b|
    ensures Le16(v) == Encode(Uint16, v)
    ensures Le16At(b, p) == Get(Uint16, b, p)
  {
    Pow256Widths();
    assert LE(v, 2) == [v % 256] + LE(v / 256, 1);
    assert LE(v / 256, 1) == [v / 256 % 256] + LE(v / 256 / 256, 0);
    var s := b[p..p + 2];
    assert FromLE(s) == s[0] + 256 * FromLE(s[1..]);
    assert FromLE(s[1..]) == s[1] + 256 * FromLE(s[1..][1..]);
  }

  /** A stored `uint16_t` loads back as itself. */
  lemma Le16RoundTrip(v: U16, pre: seq<Byte>, post: seq<Byte>)
    ensures Le16At(pre + Le16(v) + post, |pre|) == v
  {
    var b := pre + Le16(v) + post;
    assert b[|pre|] == v % 256 && b[|pre| + 1] == v / 256;
  }

  /** The packet `bl_pkt_reset` leaves. */
  function Cleared(): Pkt
  {
    Pkt(Idle, OPCODE_UNKNOWN, 0, 0, 0, seq(DATA_SIZE, _ => 0))
  }

  /** The end of every step in DATA or VERIFY: once the index reaches
      length + 6 the frame's CRC is checked; a match completes the request,
      a mismatch resets the packet. */
  function Check(t: Pkt): (r: (Pkt, bool))
    requires t.index <= |t.data|
    ensures r.1 ==> (r.0.index == r.0.length + 6 && r.0.data == t.data && r.0.index <= |r.0.data| &&
      Le16At(r.0.data, r.0.length + 4) == Crc16(0, r.0.data[..r.0.length + 4]))
    ensures !r.1 ==> r.0 == t || r.0 == Cleared()
    ensures t.index != t.length + 6 ==> r == (t, false)
    ensures t.index == t.length + 6 ==>
      (r.1 <==> Le16At(t.data, t.length + 4) == Crc16(0, t.data[..t.length + 4])) && (!r.1 ==> r.0 == Cleared())
  {
    if t.index != t.length + 6 then (t, false)
    else
      var crc := Le16At(t.data, t.length + 4);
      if crc != Crc16(0, t.data[..t.length + 4]) then (Cleared(), false)
      else (t.(crc := crc), true)
  }

  /** `bl_received_handler(d)` on packet s: the new packet and the result. A
      request is reported only for a frame whose CRC matches, and only in VERIFY. */
  function Step(cfg: Config, s: Pkt, d: Byte): (r: (Pkt, bool))
    requires s.index < |s.data| == DATA_SIZE
    ensures |r.0.data| == DATA_SIZE
    ensures r.1 ==> (r.0.phase == Verify && r.0.index == r.0.length + 6 && r.0.index <= DATA_SIZE &&
      Le16At(r.0.data, r.0.length + 4) == Crc16(0, r.0.data[..r.0.length + 4]))
  {
    var t := s.(data := s.data[s.index := d], index := s.index + 1);
    match t.phase
    case Idle => if d == START_BYTE then (t.(phase := Start), false) else (Cleared(), false)
    case Start => (t.(opcode := t.data[1], phase := Opcode), false)
    case Opcode =>
      if t.index != 4 then (t, false)
      else
        var len := Le16At(t.data, 2);
        if len > cfg.maxLength && cfg.resetEndsStep then (Cleared(), false)
        else
          var u := if len > cfg.maxLength then Cleared() else t.(length := len);
          (u.(phase := if u.length == 0 then Verify else Data), false)
    case Data => Check(if t.index >= t.length + 4 then t.(phase := Verify) else t)
    case Verify => Check(t)
    case FwPsn => (t, false)
  }

  /** A byte in DATA or VERIFY that brings the index to length + 6 with a CRC
      that does not match resets the packet and reports nothing. */
  lemma StepMismatchResets(cfg: Config, s: Pkt, d: Byte)
    requires s.index < |s.data| == DATA_SIZE && (s.phase == Data || s.phase == Verify)
    requires s.index + 1 == s.length + 6
    requires Le16At(s.data[s.index := d], s.length + 4) != Crc16(0, s.data[s.index := d][..s.length + 4])
    ensures Step(cfg, s, d) == (Cleared(), false)
  {
  }

  /** The packets the receiver can be in between bytes, given the limit it
      enforces. FWPSN is never entered. */
  predicate Good(cfg: Config, s: Pkt)
  {
    |s.data| == DATA_SIZE && s.length <= cfg.maxLength &&
    match s.phase
    case Idle => s.index == 0
    case Start => s.index == 1
    case Opcode => 2 <= s.index < 4
    case Data => 4 <= s.index < s.length + 4
    case Verify => s.index <= s.length + 6
    case FwPsn => false
  }

  /** A complete request sits in the packet; its handler runs and resets it
      before the next byte. */
  predicate Complete(s: Pkt)
  {
    s.phase == Verify && s.index == s.length + 6
  }

  /** Every byte received while no request is pending keeps the packet good. */
  lemma StepKeepsGood(cfg: Config, s: Pkt, d: Byte)
    requires Good(cfg, s) && !Complete(s) && s.index < DATA_SIZE
    ensures Good(cfg, Step(cfg, s, d).0)
  {
  }

  /** While no request is pending, the write index stays below length limit + 6. */
  lemma IndexBelowLimit(cfg: Config, s: Pkt)
    requires Good(cfg, s) && !Complete(s)
    ensures s.index < cfg.maxLength + 6
  {
  }

  /** With the corrected limit every byte is written inside the buffer. */
  lemma CorrectedStaysInBuffer(s: Pkt)
    requires Good(CORRECTED, s) && !Complete(s)
    ensures s.index < DATA_SIZE
  {
    IndexBelowLimit(CORRECTED, s);
  }

  /** The packet after the fourth byte when bytes 2 and 3 announce len. */
  function Announced(s: Pkt, d: Byte): (len: U16)
    requires |s.data| == DATA_SIZE && s.index == 3
  {
    Le16At(s.data[3 := d], 2)
  }

  /** As written, an announced length above the limit resets the packet, but
      the step then goes on with the reset length 0 and leaves the receiver in
      VERIFY instead of IDLE. */
  lemma AsWrittenOversizeEndsInVerify(s: Pkt, d: Byte)
    requires Good(AS_WRITTEN, s) && s.phase == Opcode && s.index == 3
    requires Announced(s, d) > AS_WRITTEN.maxLength
    ensures Step(AS_WRITTEN, s, d).0 == Cleared().(phase := Verify)
  {
  }

  /** Corrected, an announced length above the limit leaves the receiver reset and idle. */
  lemma CorrectedOversizeEndsIdle(s: Pkt, d: Byte)
    requires Good(CORRECTED, s) && s.phase == Opcode && s.index == 3
    requires Announced(s, d) > CORRECTED.maxLength
    ensures Step(CORRECTED, s, d) == (Cleared(), false)
  {
  }

  /** A request frame as a client sends it: start byte, opcode, payload
      length, payload, and the CRC-16 of everything before it. */
  function Request(op: Byte, payload: seq<Byte>): (r: seq<Byte>)
    requires |payload| < 0x1_0000
    ensures |r| == |payload| + 6
  {
    var head := [START_BYTE, op] + Le16(|payload|) + payload;
    head + Le16(Crc16(0, head))
  }

  /** Bytes received one after another: the last packet and every byte's
      result, or None when a byte would be stored past the buffer. */
  function Feed(cfg: Config, s: Pkt, bytes: seq<Byte>): (r: Option<(Pkt, seq<bool>)>)
    requires |s.data| == DATA_SIZE
    ensures r.Some? ==> |r.value.1| == |bytes| && |r.value.0.data| == DATA_SIZE
    decreases |bytes|
  {
    if bytes == [] then Some((s, []))
    else if s.index >= DATA_SIZE then None
    else
      var (t, o) := Step(cfg, s, bytes[0]);
      match Feed(cfg, t, bytes[1..])
      case None => None
      case Some((u, os)) => Some((u, [o] + os))
  }

  /** The phase after k bytes of a frame announcing len. */
  function PhaseAfter(k: nat, len: nat): Phase
  {
    if k == 0 then Idle
    else if k == 1 then Start
    else if k < 4 then Opcode
    else if k >= len + 4 then Verify
    else Data
  }

  /** frame is a request for op with a len-byte payload and a matching CRC. */
  predicate WellFormed(frame: seq<Byte>, op: Byte, len: nat)
  {
    |frame| == len + 6 && frame[0] == START_BYTE && frame[1] == op && Le16At(frame, 2) == len &&
    Le16At(frame, len + 4) == Crc16(0, frame[..len + 4])
  }

  /** The packet after the first k bytes of frame, a request for op with
      a len-byte payload. */
  ghost predicate Mid(s: Pkt, frame: seq<Byte>, k: nat, op: Byte, len: nat)
  {
    |s.data| == DATA_SIZE && k <= |frame| && k <= DATA_SIZE && s.index == k &&
    s.data[..k] == frame[..k] && s.phase == PhaseAfter(k, len) &&
    (k >= 2 ==> s.opcode == op) && (k >= 4 ==> s.length == len)
  }

  /** One of the first four bytes of a frame: the header is taken in. */
  lemma StepHeader(cfg: Config, s: Pkt, frame: seq<Byte>, op: Byte, len: nat, k: nat)
    requires len <= cfg.maxLength && |frame| == len + 6
    requires frame[0] == START_BYTE && frame[1] == op && Le16At(frame, 2) == len
    requires Mid(s, frame, k, op, len) && k < 4
    ensures Step(cfg, s, frame[k]).1 == false
    ensures Mid(Step(cfg, s, frame[k]).0, frame, k + 1, op, len)
  {
    var t := s.(data := s.data[s.index := frame[k]], index := s.index + 1);
    assert t.data[..k + 1] == frame[..k + 1];
    if k == 3 {
      assert t.data[2] == frame[2] && t.data[3] == frame[3];
    }
  }

  /** A payload byte, or the first CRC byte: stored, no request yet. */
  lemma StepBody(cfg: Config, s: Pkt, frame: seq<Byte>, op: Byte, len: nat, k: nat)
    requires |frame| == len + 6
    requires Mid(s, frame, k, op, len) && 4 <= k < len + 5 && k < DATA_SIZE
    ensures Step(cfg, s, frame[k]).1 == false
    ensures Mid(Step(cfg, s, frame[k]).0, frame, k + 1, op, len)
  {
    var t := s.(data := s.data[s.index := frame[k]], index := s.index + 1);
    assert t.data[..k + 1] == frame[..k + 1];
  }

  /** The last byte of a well-formed frame completes the request. */
  lemma StepLast(cfg: Config, s: Pkt, frame: seq<Byte>, op: Byte, len: nat)
    requires len + 6 <= DATA_SIZE && WellFormed(frame, op, len)
    requires Mid(s, frame, len + 5, op, len)
    ensures var r := Step(cfg, s, frame[len + 5]);
      r.1 && r.0.opcode == op && r.0.length == len && r.0.data[..len + 6] == frame
  {
    var t := s.(data := s.data[s.index := frame[len + 5]], index := s.index + 1);
    assert t.data[..len + 6] == frame;
    assert t.data[..len + 4] == frame[..len + 4];
    assert t.data[len + 4] == frame[len + 4] && t.data[len + 5] == frame[len + 5];
  }

  /** What feeding the last n + 1 bytes of a request frame for op with a
      len-byte payload comes to: only the last byte reports, and the packet
      then holds the whole frame. */
  ghost predicate Accepted(r: Option<(Pkt, seq<bool>)>, frame: seq<Byte>, op: Byte, len: nat, n: nat)
  {
    r.Some? && r.value.1 == LastOnly(n) && r.value.0.opcode == op && r.value.0.length == len &&
    |r.value.0.data| >= len + 6 && r.value.0.data[..len + 6] == frame
  }

  /** Feeding the rest of a well-formed frame from any point reports nothing
      until its last byte, which completes the request. */
  lemma {:induction false} FeedRest(cfg: Config, s: Pkt, frame: seq<Byte>, op: Byte, len: nat, k: nat)
    requires len <= cfg.maxLength && len + 6 <= DATA_SIZE && WellFormed(frame, op, len)
    requires Mid(s, frame, k, op, len) && k < len + 6
    ensures Accepted(Feed(cfg, s, frame[k..]), frame, op, len, len + 5 - k)
    decreases len + 6 - k, 1
  {
    if k == len + 5 {
      var r := Step(cfg, s, frame[k]);
      StepLast(cfg, s, frame, op, len);
      FeedLast(cfg, s, frame[k..], r, frame, op, len);
    } else if k < 4 {
      FeedNext(cfg, s, frame, op, len, k);
    } else {
      FeedPayload(cfg, s, frame, op, len, k);
    }
  }

  /** FeedRest for a header byte. */
  lemma {:induction false} FeedNext(cfg: Config, s: Pkt, frame: seq<Byte>, op: Byte, len: nat, k: nat)
    requires len <= cfg.maxLength && len + 6 <= DATA_SIZE && WellFormed(frame, op, len)
    requires Mid(s, frame, k, op, len) && k < 4
    ensures Accepted(Feed(cfg, s, frame[k..]), frame, op, len, len + 5 - k)
    decreases len + 6 - k, 0
  {
    var r := Step(cfg, s, frame[k]);
    StepHeader(cfg, s, frame, op, len, k);
    FeedRest(cfg, r.0, frame, op, len, k + 1);
    assert frame[k..][1..] == frame[k + 1..];
    FeedMore(cfg, s, frame[k..], r, frame, op, len, len + 4 - k);
  }

  /** FeedRest for a payload byte or the first CRC byte. */
  lemma {:induction false} FeedPayload(cfg: Config, s: Pkt, frame: seq<Byte>, op: Byte, len: nat, k: nat)
    requires len <= cfg.maxLength && len + 6 <= DATA_SIZE && WellFormed(frame, op, len)
    requires Mid(s, frame, k, op, len) && 4 <= k < len + 5
    ensures Accepted(Feed(cfg, s, frame[k..]), frame, op, len, len + 5 - k)
    decreases len + 6 - k, 0
  {
    var r := Step(cfg, s, frame[k]);
    StepBody(cfg, s, frame, op, len, k);
    FeedRest(cfg, r.0, frame, op, len, k + 1);
    assert frame[k..][1..] == frame[k + 1..];
    FeedMore(cfg, s, frame[k..], r, frame, op, len, len + 4 - k);
  }

  /** The results of n + 1 bytes of which only the last completes a request. */
  function LastOnly(n: nat): (r: seq<bool>)
    ensures |r| == n + 1 && r[n]
    ensures forall i :: 0 <= i < n ==> !r[i]
  {
    if n == 0 then [true] else [false] + LastOnly(n - 1)
  }

  /** A byte that completes the frame, with nothing after it. */
  lemma FeedLast(cfg: Config, s: Pkt, bytes: seq<Byte>, r: (Pkt, bool), frame: seq<Byte>, op: Byte, len: nat)
    requires |s.data| == DATA_SIZE && |bytes| == 1 && s.index < DATA_SIZE && r == Step(cfg, s, bytes[0])
    requires r.1 && r.0.opcode == op && r.0.length == len && r.0.data[..len + 6] == frame
    ensures Accepted(Feed(cfg, s, bytes), frame, op, len, 0)
  {
    assert bytes[1..] == [];
  }

  /** A byte that does not report, in front of bytes that complete the frame. */
  lemma FeedMore(cfg: Config, s: Pkt, bytes: seq<Byte>, r: (Pkt, bool), frame: seq<Byte>, op: Byte, len: nat, n: nat)
    requires |s.data| == DATA_SIZE && bytes != [] && s.index < DATA_SIZE
    requires r == Step(cfg, s, bytes[0]) && !r.1
    requires Accepted(Feed(cfg, r.0, bytes[1..]), frame, op, len, n)
    ensures Accepted(Feed(cfg, s, bytes), frame, op, len, n + 1)
  {
  }

  /** A request frame is well formed. */
  lemma RequestWellFormed(op: Byte, payload: seq<Byte>)
    requires |payload| < 0x1_0000
    ensures WellFormed(Request(op, payload), op, |payload|)
    ensures Request(op, payload)[4..4 + |payload|] == payload
  {
    var len := |payload|;
    var head := [START_BYTE, op] + Le16(len) + payload;
    var frame := Request(op, payload);
    assert frame[..len + 4] == head;
    Le16RoundTrip(len, [START_BYTE, op], payload + Le16(Crc16(0, head)));
    assert [START_BYTE, op] + Le16(len) + (payload + Le16(Crc16(0, head))) == frame;
    Le16RoundTrip(Crc16(0, head), head, []);
    assert head + Le16(Crc16(0, head)) + [] == frame;
  }

  /** A reset receiver fed a request frame whose payload is within the limit
      reports it on its last byte and on no other, holding the opcode, the
      length and the payload where the handlers read them. */
  lemma RequestAccepted(cfg: Config, op: Byte, payload: seq<Byte>)
    requires |payload| <= cfg.maxLength && |payload| + 6 <= DATA_SIZE
    ensures var r := Feed(cfg, Cleared(), Request(op, payload));
      r.Some? && r.value.1 == LastOnly(|payload| + 5) &&
      r.value.0.opcode == op && r.value.0.length == |payload| && r.value.0.data[4..4 + |payload|] == payload
  {
    var frame := Request(op, payload);
    RequestWellFormed(op, payload);
    FeedRest(cfg, Cleared(), frame, op, |payload|, 0);
    assert frame[0..] == frame;
    var d := Feed(cfg, Cleared(), frame).value.0.data;
    assert d[4..4 + |payload|] == d[..|payload| + 6][4..4 + |payload|];
  }

  /** A frame longer than the buffer whose length passes the limit: its
      bytes are stored one after another until the index reaches the end of
      the buffer, and the byte after that would be stored past it. */
  lemma {:induction false} FeedOverrun(cfg: Config, s: Pkt, frame: seq<Byte>, op: Byte, len: nat, k: nat)
    requires len <= cfg.maxLength && DATA_SIZE < len + 6 && |frame| == len + 6
    requires frame[0] == START_BYTE && frame[1] == op && Le16At(frame, 2) == len
    requires Mid(s, frame, k, op, len)
    ensures Feed(cfg, s, frame[k..]) == None
    decreases DATA_SIZE - k
  {
    if k < DATA_SIZE {
      var r := Step(cfg, s, frame[k]);
      if k < 4 {
        StepHeader(cfg, s, frame, op, len, k);
      } else {
        StepBody(cfg, s, frame, op, len, k);
      }
      FeedOverrun(cfg, r.0, frame, op, len, k + 1);
      assert frame[k..][1..] == frame[k + 1..];
    }
  }

  /** With the limit as written, a reset receiver fed a request with the
      longest payload it admits, 5108 bytes, stores the 5113th byte of the
      frame past the end of its 5112-byte buffer. */
  lemma AsWrittenOverruns(op: Byte, payload: seq<Byte>)
    requires |payload| == AS_WRITTEN.maxLength
    ensures Feed(AS_WRITTEN, Cleared(), Request(op, payload)) == None
  {
    var frame := Request(op, payload);
    RequestWellFormed(op, payload);
    FeedOverrun(AS_WRITTEN, Cleared(), frame, op, |payload|, 0);
    assert frame[0..] == frame;
  }

  /** What the corrected receiver knows of the header of the frame it is
      collecting: past IDLE the first byte is the start byte, past START the
      opcode is the second byte, and past the header the length is the one
      bytes 2 and 3 announce. */
  predicate Framed(s: Pkt)
  {
    |s.data| == DATA_SIZE &&
    (s.phase != Idle ==> 1 <= s.index && s.data[0] == START_BYTE) &&
    (s.phase in {Opcode, Data, Verify} ==> 2 <= s.index && s.opcode == s.data[1]) &&
    (s.phase in {Data, Verify} ==> 4 <= s.index && Le16At(s.data, 2) == s.length)
  }

  /** A reset packet is framed. */
  lemma ClearedFramed()
    ensures Good(CORRECTED, Cleared()) && Framed(Cleared())
  {
  }

  /** Every byte the corrected receiver takes in while no request is pending
      keeps what it knows of the header. */
  lemma StepKeepsFramed(s: Pkt, d: Byte)
    requires Good(CORRECTED, s) && Framed(s) && !Complete(s)
    ensures Framed(Step(CORRECTED, s, d).0)
  {
    var t := s.(data := s.data[s.index := d], index := s.index + 1);
    if s.phase == Opcode && t.index == 4 {
      assert t.data[2] == s.data[2] && t.data[3] == d;
    }
  }

  /** What the corrected receiver reports is a request frame: the bytes in
      the packet up to the end of the frame start with the start byte, carry
      the packet's opcode and length, and end in their CRC-16. */
  lemma CompletionIsWellFormed(s: Pkt, d: Byte)
    requires Good(CORRECTED, s) && Framed(s) && !Complete(s)
    ensures var r := Step(CORRECTED, s, d);
      r.1 ==> r.0.length + 6 <= DATA_SIZE && WellFormed(r.0.data[..r.0.length + 6], r.0.opcode, r.0.length)
  {
    var r := Step(CORRECTED, s, d);
    if r.1 {
      StepKeepsFramed(s, d);
      var u := r.0;
      var frame := u.data[..u.length + 6];
      assert frame[..u.length + 4] == u.data[..u.length + 4];
      assert frame[0] == u.data[0] && frame[1] == u.data[1];
      assert frame[2] == u.data[2] && frame[3] == u.data[3];
      assert frame[u.length + 4] == u.data[u.length + 4] && frame[u.length + 5] == u.data[u.length + 5];
    }
  }

  /** Ten bytes that are no request: a header announcing 65535 bytes, then six zeros. */
  const NON_FRAME: seq<Byte> := [START_BYTE, 0x20, 0xFF, 0xFF, 0, 0, 0, 0, 0, 0]

  /** As written, the reset after an oversized length leaves the receiver in
      VERIFY with length 0, so the six zeros that follow are taken for a frame
      (the CRC-16 of four zeros is 0): a request is reported whose bytes do not
      start with the start byte and whose opcode is `OPCODE_UNKNOWN`. */
  lemma AsWrittenAcceptsNonFrame()
    ensures var r := Feed(AS_WRITTEN, Cleared(), NON_FRAME);
      r.Some? && r.value.1 == LastOnly(9) && r.value.0.opcode == OPCODE_UNKNOWN &&
      r.value.0.length == 0 && !WellFormed(r.value.0.data[..6], r.value.0.opcode, 0)
  {
    var v := Cleared().(phase := Verify);
    ZerosVerify(v, 0);
    assert v.(index := 0) == v;
    HeaderSteps(AS_WRITTEN);
    AsWrittenOversizeEndsInVerify(Third(), 0xFF);
    assert NON_FRAME[3..][1..] == NON_FRAME[4..] == seq(6, _ => 0);
    assert LastOnly(9) == [false, false, false, false] + LastOnly(5);
    assert Feed(AS_WRITTEN, Cleared(), NON_FRAME).value.0.data[..6][0] == 0;
  }

  /** The packet after the first three bytes of NON_FRAME, under either limit. */
  function Third(): (s: Pkt)
    ensures s.phase == Opcode && s.index == 3 && |s.data| == DATA_SIZE
  {
    Pkt(Opcode, 0x20, 0, 3, 0, seq(DATA_SIZE, _ => 0)[0 := START_BYTE][1 := 0x20][2 := 0xFF])
  }

  /** The results of bytes fed after some that reported bs. */
  function Prepend(bs: seq<bool>, r: Option<(Pkt, seq<bool>)>): Option<(Pkt, seq<bool>)>
  {
    match r
    case None => None
    case Some((u, os)) => Some((u, bs + os))
  }

  /** Feeding a byte ahead of others steps once, then feeds the rest. */
  lemma FeedCons(cfg: Config, s: Pkt, b: Byte, rest: seq<Byte>)
    requires |s.data| == DATA_SIZE && s.index < DATA_SIZE
    ensures Feed(cfg, s, [b] + rest) == Prepend([Step(cfg, s, b).1], Feed(cfg, Step(cfg, s, b).0, rest))
  {
    assert ([b] + rest)[0] == b && ([b] + rest)[1..] == rest;
  }

  lemma PrependPrepend(a: seq<bool>, b: seq<bool>, r: Option<(Pkt, seq<bool>)>)
    ensures Prepend(a, Prepend(b, r)) == Prepend(a + b, r)
  {
    if r.Some? {
      assert a + (b + r.value.1) == (a + b) + r.value.1;
    }
  }

  /** The packets after the first one and two bytes of NON_FRAME. */
  function First(): (s: Pkt)
    ensures s.index == 1 && |s.data| == DATA_SIZE
  {
    Pkt(Start, OPCODE_UNKNOWN, 0, 1, 0, seq(DATA_SIZE, _ => 0)[0 := START_BYTE])
  }

  function Second(): (s: Pkt)
    ensures s.index == 2 && |s.data| == DATA_SIZE
  {
    Pkt(Opcode, 0x20, 0, 2, 0, seq(DATA_SIZE, _ => 0)[0 := START_BYTE][1 := 0x20])
  }

  lemma HeaderStepOne(cfg: Config)
    ensures Step(cfg, Cleared(), START_BYTE) == (First(), false)
  {
  }

  lemma HeaderStepTwo(cfg: Config)
    ensures Step(cfg, First(), 0x20) == (Second(), false)
  {
    assert Second().data[1] == 0x20;
  }

  lemma HeaderStepThree(cfg: Config)
    ensures Step(cfg, Second(), 0xFF) == (Third(), false)
  {
  }

  /** The first three bytes of NON_FRAME report nothing and lead to Third(). */
  lemma HeaderSteps(cfg: Config)
    ensures Feed(cfg, Cleared(), NON_FRAME) == Prepend([false, false, false], Feed(cfg, Third(), NON_FRAME[3..]))
  {
    HeaderStepOne(cfg);
    HeaderStepTwo(cfg);
    HeaderStepThree(cfg);
    assert NON_FRAME == [START_BYTE] + NON_FRAME[1..];
    assert NON_FRAME[1..] == [0x20] + NON_FRAME[2..];
    assert NON_FRAME[2..] == [0xFF] + NON_FRAME[3..];
    var tail := Feed(cfg, Third(), NON_FRAME[3..]);
    FeedCons(cfg, Second(), 0xFF, NON_FRAME[3..]);
    FeedCons(cfg, First(), 0x20, NON_FRAME[2..]);
    FeedCons(cfg, Cleared(), START_BYTE, NON_FRAME[1..]);
    PrependPrepend([false], [false], tail);
    PrependPrepend([false], [false, false], tail);
    assert [false] + [false] == [false, false];
    assert [false] + [false, false] == [false, false, false];
  }

  /** A packet left in VERIFY with length 0 by the reset, fed six zeros from
      the k-th on: only the last one reports, and the packet stays zero. */
  lemma {:induction false} ZerosVerify(v: Pkt, k: nat)
    requires v == Cleared().(phase := Verify) && k < 6
    ensures var r := Feed(AS_WRITTEN, v.(index := k), seq(6 - k, _ => 0));
      r.Some? && r.value.1 == LastOnly(5 - k) && r.value.0.opcode == OPCODE_UNKNOWN &&
      r.value.0.length == 0 && r.value.0.data == v.data
    decreases 6 - k
  {
    var s := v.(index := k);
    assert s.data[k := 0] == s.data;
    if k == 5 {
      Crc16Zeros(4);
      assert s.data[..4] == seq(4, _ => 0);
      assert seq(1, _ => 0)[1..] == [];
    } else {
      ZerosVerify(v, k + 1);
      assert seq(6 - k, _ => 0)[1..] == seq(6 - (k + 1), _ => 0);
    }
  }

  /** Corrected, the same ten bytes report nothing: the oversized length
      leaves the receiver idle, and zeros keep it there. */
  lemma CorrectedRefusesNonFrame()
    ensures var r := Feed(CORRECTED, Cleared(), NON_FRAME);
      r.Some? && r.value.1 == seq(10, _ => false) && r.value.0 == Cleared()
  {
    HeaderSteps(CORRECTED);
    CorrectedOversizeEndsIdle(Third(), 0xFF);
    IdleZeros(6);
    assert NON_FRAME[3..][1..] == NON_FRAME[4..] == seq(6, _ => 0);
    assert seq(10, _ => false) == [false, false, false, false] + seq(6, _ => false);
  }

  /** An idle receiver fed zeros stays reset and reports nothing. */
  lemma {:induction false} IdleZeros(n: nat)
    ensures Feed(CORRECTED, Cleared(), seq(n, _ => 0)) == Some((Cleared(), seq(n, _ => false)))
  {
    if n > 0 {
      IdleZeros(n - 1);
      var zs: seq<Byte> := seq(n, _ => 0);
      assert Step(CORRECTED, Cleared(), 0) == (Cleared(), false);
      assert zs == [0] + seq(n - 1, _ => 0);
      FeedCons(CORRECTED, Cleared(), 0, seq(n - 1, _ => 0));
      assert seq(n, _ => false) == [false] + seq(n - 1, _ => false);
    } else {
      assert seq(n, _ => 0) == [] && seq(n, _ => false) == [];
    }
  }

  /** The global `packet`, updated in place. */
  class Packet {
    var phase: Phase
    var opcode: Byte
    var length: nat
    var index: nat
    var crc: U16
    const data: array<Byte>

    function View(): Pkt
      reads this, data
    {
      Pkt(phase, opcode, length, index, crc, data[..])
    }

    /** The zero-initialised static record. */
    constructor ()
      ensures View() == Pkt(Idle, 0, 0, 0, 0, seq(DATA_SIZE, _ => 0)) && fresh(data)
    {
      phase, opcode, length, index, crc := Idle, 0, 0, 0, 0;
      data := new Byte[DATA_SIZE](_ => 0);
    }

    /** `bl_pkt_reset`. */
    method Reset()
      requires data.Length == DATA_SIZE
      modifies this, data
      ensures View() == Cleared()
    {
      phase, opcode, length, index, crc := Idle, OPCODE_UNKNOWN, 0, 0, 0;
      forall i | 0 <= i < data.Length {
        data[i] := 0;
      }
      assert data[..] == seq(DATA_SIZE, _ => 0);
    }

    /** `bl_received_handler(d)`, run with the limits cfg. The source itself
        stores the byte at the write index unchecked; the model demands that
        the index is inside the buffer (`CorrectedStaysInBuffer` shows when it is). */
    method Receive(cfg: Config, d: Byte) returns (done: bool)
      requires data.Length == DATA_SIZE && index < DATA_SIZE
      modifies this, data
      ensures (View(), done) == Step(cfg, old(View()), d)
    {
      data[index] := d;
      index := index + 1;
      done := false;
      match phase
      case Idle =>
        if d == START_BYTE {
          phase := Start;
        } else {
          Reset();
        }
      case Start =>
        opcode := data[1];
        phase := Opcode;
      case Opcode =>
        if index == 4 {
          length := data[2] as int + 256 * (data[3] as int);
          if length > cfg.maxLength {
            Reset();
            if cfg.resetEndsStep {
              return;
            }
          }
          phase := if length == 0 then Verify else Data;
        }
      case Data =>
        if index >= length + 4 {
          phase := Verify;
        }
        done := CheckFrame();
      case Verify =>
        done := CheckFrame();
      case FwPsn =>
    }

    /** The VERIFY case of `bl_received_handler`. */
    method CheckFrame() returns (done: bool)
      requires data.Length == DATA_SIZE && index <= DATA_SIZE
      modifies this, data
      ensures (View(), done) == Check(old(View()))
    {
      if index != length + 6 {
        return false;
      }
      crc := data[length + 4] as int + 256 * (data[length + 5] as int);
      if crc != Crc16(0, data[..length + 4]) {
        Reset();
        return false;
      }
      done := true;
    }
  }
}

=== FILE: storage.dfy ===
/** The flash the bootloader works on, as Zephyr's flash map presents it:
    fixed partitions, each a byte sequence opened by its identifier, and the
    two external NOR devices the partition pointer is written to directly.
    Erasing sets bytes to 0xFF and writing overwrites a range. Every access
    is bounds-checked against the partition the way `flash_area_read`,
    `flash_area_write` and `flash_area_erase` check it, and a request that
    leaves the partition fails with -EINVAL and changes nothing. A partition
    that the board does not define is absent from the map, and opening it
    fails. */
module Storage {
  import opened Arith
  import opened Bitos

  /** The errno values the bootloader returns (negated), as Zephyr defines them. */
  const ENOENT: int := 2
  const EIO: int := 5
  const ENOMEM: int := 12
  const EFAULT: int := 14
  const ENODEV: int := 19
  const EINVAL: int := 22
  const EFTYPE: int := 79

  const ERASED: Byte := 0xFF

  /** Partitions are addressed with a signed `off_t`, so none is larger than this. */
  const AREA_LIMIT: nat := 0x8000_0000

  /** The fixed partitions: bootloader, arg_info and application on the
      internal flash; the meta record, the active backup, the download slot
      and the rebuilt image on the external flash. */
  datatype PartId = BootPart | ArgPart | AppPart | MetaPart | BackupPart | DownloadPart | DiffFwPart

  /** An opened partition: its offset on its device (`fa_off`) and its contents
      (`fa_size` is their length). */
  datatype Area = Area(off: U32, bytes: seq<Byte>)

  function Erased(n: nat): (r: seq<Byte>)
    ensures |r| == n && forall i :: 0 <= i < n ==> r[i] == ERASED
  {
    seq(n, _ => ERASED)
  }

  /** The range test every flash access applies before touching the medium. */
  predicate InArea(size: nat, off: int, len: nat)
  {
    0 <= off && off + len <= size
  }

  class Flash {
    /** `flash_base`: where the internal flash is mapped. */
    var flashBase: U32
    var areas: map<PartId, Area>
    /** The raw NOR devices `flashes[0]` and `flashes[1]`. */
    var devices: seq<seq<Byte>>

    ghost predicate Valid()
      reads this
    {
      |devices| == 2 && |devices[0]| < WORD && |devices[1]| < WORD &&
      forall p :: p in areas ==> |areas[p].bytes| < AREA_LIMIT
    }

    constructor (base: U32, parts: map<PartId, Area>, devs: seq<seq<Byte>>)
      requires |devs| == 2 && |devs[0]| < WORD && |devs[1]| < WORD
      requires forall p :: p in parts ==> |parts[p].bytes| < AREA_LIMIT
      ensures Valid() && flashBase == base && areas == parts && devices == devs
    {
      flashBase, areas, devices := base, parts, devs;
    }

    /** `flash_area_read(fa, off, buf + at, len)`. */
    method ReadInto(p: PartId, off: int, buf: array<Byte>, at: nat, len: nat) returns (rc: int)
      requires p in areas && at + len <= buf.Length
      modifies buf
      ensures rc == 0 <==> InArea(|areas[p].bytes|, off, len)
      ensures rc == 0 ==> buf[..] == Store(old(buf[..]), at, areas[p].bytes[off..off + len])
      ensures rc != 0 ==> rc == -EINVAL && buf[..] == old(buf[..])
    {
      if !InArea(|areas[p].bytes|, off, len) {
        return -EINVAL;
      }
      var src := areas[p].bytes[off..off + len];
      forall i | at <= i < at + len {
        buf[i] := src[i - at];
      }
      assert buf[..] == Store(old(buf[..]), at, src);
      rc := 0;
    }

    /** `flash_area_erase(fa, off, len)`. */
    method Erase(p: PartId, off: int, len: nat) returns (rc: int)
      requires Valid() && p in areas
      modifies this
      ensures Valid() && flashBase == old(flashBase) && devices == old(devices)
      ensures rc == 0 <==> InArea(|old(areas[p].bytes)|, off, len)
      ensures rc == 0 ==> areas == old(areas)[p := Area(old(areas[p].off), Store(old(areas[p].bytes), off, Erased(len)))]
      ensures rc != 0 ==> rc == -EINVAL && areas == old(areas)
    {
      var a := areas[p];
      if !InArea(|a.bytes|, off, len) {
        return -EINVAL;
      }
      areas := areas[p := Area(a.off, Store(a.bytes, off, Erased(len)))];
      rc := 0;
    }

    /** `flash_area_write(fa, off, data, |data|)`. */
    method Write(p: PartId, off: int, data: seq<Byte>) returns (rc: int)
      requires Valid() && p in areas
      modifies this
      ensures Valid() && flashBase == old(flashBase) && devices == old(devices)
      ensures rc == 0 <==> InArea(|old(areas[p].bytes)|, off, |data|)
      ensures rc == 0 ==> areas == old(areas)[p := Area(old(areas[p].off), Store(old(areas[p].bytes), off, data))]
      ensures rc != 0 ==> rc == -EINVAL && areas == old(areas)
    {
      var a := areas[p];
      if !InArea(|a.bytes|, off, |data|) {
        return -EINVAL;
      }
      areas := areas[p := Area(a.off, Store(a.bytes, off, data))];
      rc := 0;
    }

    /** `flash_erase(flashes[d], off, len)` on a whole NOR device. */
    method DeviceErase(d: nat, off: int, len: nat) returns (rc: int)
      requires Valid() && d < 2
      modifies this
      ensures Valid() && flashBase == old(flashBase) && areas == old(areas)
      ensures rc == 0 <==> InArea(|old(devices[d])|, off, len)
      ensures rc == 0 ==> devices == old(devices)[d := Store(old(devices[d]), off, Erased(len))]
      ensures rc != 0 ==> rc == -EINVAL && devices == old(devices)
    {
      if !InArea(|devices[d]|, off, len) {
        return -EINVAL;
      }
      devices := devices[d := Store(devices[d], off, Erased(len))];
      rc := 0;
    }

    /** `flash_write(flashes[d], off, data, |data|)` on a whole NOR device. */
    method DeviceWrite(d: nat, off: int, data: seq<Byte>) returns (rc: int)
      requires Valid() && d < 2
      modifies this
      ensures Valid() && flashBase == old(flashBase) && areas == old(areas)
      ensures rc == 0 <==> InArea(|old(devices[d])|, off, |data|)
      ensures rc == 0 ==> devices == old(devices)[d := Store(old(devices[d]), off, data)]
      ensures rc != 0 ==> rc == -EINVAL && devices == old(devices)
    {
      if !InArea(|devices[d]|, off, |data|) {
        return -EINVAL;
      }
      devices := devices[d := Store(devices[d], off, data)];
      rc := 0;
    }
  }
}

=== FILE: wrappers.dfy ===
/** Optional values, for lookups and decodings that can fail. */
module Wrappers {
  datatype Option<T> = None | Some(value: T)
}
